=== FILE: README.md ===
# Photobooth camera control, modelled in Dafny

This project models the state-tracking logic of the photobooth's two camera-control stacks. Each stack wraps an opaque gphoto2 driver. The driver, the filesystem, the clock and the network are never called: what they would answer is passed in as a parameter, and every lemma and postcondition holds for every answer the model can express. The model's limits on those answers are listed under "Left out" (for instance, a camera refuses a given setting for the life of the object, whatever the value written).

The modules follow the source files:

- `Worker` (`worker.dfy`) models the serialized operation worker.
  - It is a FIFO queue of operations, each with a retry counter, plus a map of futures.
  - The I/O-error test and the capped exponential back-off are pure functions.
  - The `while running` loop is a method. Its postcondition says every waiting future ends pending or settled exactly as the retry policy dictates for that operation alone (`FateOf`), and that operations run in queue order.
- `Backend` (`backend.dfy`) models the gphoto2 backend of the service. It is a class with the connected, initialized and live-view flags, the live-view statistics, and the consecutive-error budget.
  - Configuration writes are a plan of `(field, value)` writes. A camera that refuses a field makes the plan stop at the first refusal.
  - Capture is modelled in full: pausing live view, choosing the first JPEG, autofocus classification, and restoring live view with reset counters.
- `CameraBase` and `GPhotoCamera` (`camera_base.dfy`, `gphoto2_camera.dfy`) model the base camera and its gphoto2 subclass.
  - Both are flattened into one class, `GPhotoCamera.GPhoto2Camera`.
  - Images are values that track their size, quarter turns and mirroring.
  - The config widgets are a map from `(section, option)` to a widget kind and current value.
- `Manager` (`manager.dfy`) models the camera manager: its bounded connection loop, its idempotent initialisation, restart, readiness, preview and capture.
- `Handler` (`handler.dfy`) models the WebSocket handler.
  - Outgoing traffic is an outbox of `(recipients, message)` pairs.
  - A client whose send fails is named in a `failing` set.
  - The preview task is a counter of created tasks.
- `UsbReset` (`usb_reset.dfy`) models the USB reset helper. Sysfs is a value listing device directories and their attribute files.
- `Service` (`service.dfy`) models the HTTP endpoints' decision logic over one global backend. This covers config merge, connect, disconnect and status, capture and its filename, and the live-view stream with its error budget.
- `Wrappers` and `Text` hold `Option`, `Result` and `Status`, plus substring search, ASCII lower-casing and decimal printing and parsing.

Exceptions raised by the source become `Err`/`Failure` values carrying the exception's message. A Python `None` becomes `Option.None`. Time is integer milliseconds, and sleeps are recorded in ghost counters.

## Model

| member | source | states |
|---|---|---|
| Worker.IoErrorOfTimeoutCode | services/camera/src/camera_worker.py:104-111 | any message containing "-110" is an I/O error |
| Worker.IoErrorIgnoresCase | services/camera/src/camera_worker.py:104-111 | the I/O-error test does not depend on letter case |
| Worker.RetryDelayMs | services/camera/src/camera_worker.py:116-119 | the back-off delay is positive and never exceeds the 1000 ms cap |
| Worker.RetryDelayMonotone | services/camera/src/camera_worker.py:116-119 | the delay never decreases as the retry count grows |
| Worker.RetryDelayDoubles | services/camera/src/camera_worker.py:116-119 | each further retry doubles the delay until it reaches the cap |
| Worker.RetryExactly | services/camera/src/camera_worker.py:96-130 | an outcome is retried exactly when it is an I/O error with retries left; a retry bumps the counter by one and waits RetryDelayMs; success resolves with the value |
| Worker.FateBounded | services/camera/src/camera_worker.py:96-130 | every operation ends resolved or failed after between 1 and maxRetries+1 executions |
| Worker.FateOfRetry | services/camera/src/camera_worker.py:113-127 | re-enqueueing a retried operation does not change its eventual result |
| Worker.FateOfSettled | services/camera/src/camera_worker.py:96-130 | an operation that is not retried settles its future with that outcome |
| Worker.TwoTransientFailuresThenSuccess | services/camera/src/camera_worker.py:113-127 | two I/O errors and then a value give that value after 3 executions and 300 ms of back-off |
| Worker.PersistentIoErrorGivesUp | services/camera/src/camera_worker.py:113-130 | persistent I/O errors fail the future with the fourth error after 4 executions and 700 ms |
| Worker.TerminalErrorNotRetried | services/camera/src/camera_worker.py:128-130 | a non-I/O error fails the future at once, with no delay |
| Worker.SoundSubmit | services/camera/src/camera_worker.py:132-152 | enqueuing a new pending operation keeps the queue/futures invariant |
| Worker.SoundRequeue | services/camera/src/camera_worker.py:113-127 | moving a retried operation to the tail keeps the invariant |
| Worker.SoundSettle | services/camera/src/camera_worker.py:96-130 | settling the head operation's future keeps the invariant for the rest |
| Worker.RunInvStep | services/camera/src/camera_worker.py:76-92 | one loop step keeps the run invariant and strictly lowers the remaining execution budget |
| Worker.RunResult | services/camera/src/camera_worker.py:76-92 | under the run invariant every queued operation's future is pending or equals its fate |
| Worker.FifoStep | services/camera/src/camera_worker.py:76-92 | taking the head keeps the executed trace in queue order |
| Worker.CameraWorker.constructor | services/camera/src/camera_worker.py:39-48 | a new worker is stopped, with an empty queue and no futures |
| Worker.CameraWorker.Start | services/camera/src/camera_worker.py:50-60 | the worker is running afterwards; queue and futures are untouched |
| Worker.CameraWorker.Stop | services/camera/src/camera_worker.py:62-74 | stopping a running worker enqueues one sentinel; stopping a stopped worker changes nothing |
| Worker.CameraWorker.Submit | services/camera/src/camera_worker.py:132-152 | exactly one operation with retry count 0 and 3 retries is appended, under a fresh id whose future is pending |
| Worker.CameraWorker.ExecuteOperation | services/camera/src/camera_worker.py:94-130 | a retried operation goes to the tail with its future pending; otherwise its future is settled; the executed trace grows by its id |
| Worker.CameraWorker.Take | services/camera/src/camera_worker.py:81 | the head entry is removed, everything else is kept |
| Worker.CameraWorker.Run | services/camera/src/camera_worker.py:76-92 | a stopped worker does nothing; otherwise every waiting future ends pending or equal to its fate, operations run in queue order, and without a sentinel the queue drains |
| Worker.CameraWorker.RunOne | services/camera/src/camera_worker.py:81-88 | one pass of the loop: the sentinel is reported with the futures untouched; any other entry is executed, keeps the run invariant, extends the execution trace by its id and uses up budget |
| Worker.CameraWorker.GetLiveviewFrame | services/camera/src/camera_worker.py:154-174 | a cap of zero raises before anything happens; a call within 1/cap seconds of the last frame enqueues nothing and yields no frame; otherwise exactly one operation is submitted and any failure yields no frame |
| Backend.MentionsFocus | services/camera/src/backends/gphoto2_backend.py:84-93 | every keyword other than "focus", "lens not attached" and "af failed" contains "focus", so it adds nothing to the test |
| Backend.AutofocusFailureIff | services/camera/src/backends/gphoto2_backend.py:71-96 | a message is an autofocus failure exactly when its lower-cased text contains "focus", "lens not attached" or "af failed" |
| Backend.AutofocusFailureIgnoresCase | services/camera/src/backends/gphoto2_backend.py:71-96 | the classification does not depend on letter case |
| Backend.FailedCapture | services/camera/src/backends/gphoto2_backend.py:536-549 | a failed capture carries the error and no path, and is tagged AUTOFOCUS_FAILED exactly when the message is an autofocus failure |
| Backend.BatteryOfPrintedLevel | services/camera/src/backends/gphoto2_backend.py:613-622 | a battery reading "N" or "N%" gives level N |
| Backend.BatteryDefault | services/camera/src/backends/gphoto2_backend.py:613-622 | a reading with no digits, or none at all, leaves the level at 100 |
| Backend.AttemptStopsAtFirstRefusal | services/camera/src/backends/gphoto2_backend.py:228-241 | a sequence of config writes succeeds exactly when no field is refused, then applies every write; otherwise it stops at the first refused write |
| Backend.LiveviewRunSteps | services/camera/src/backends/gphoto2_backend.py:252-273 | live-view configuration behaves as running its plan of writes in order |
| Backend.DefaultLiveviewPlan | services/camera/src/backends/gphoto2_backend.py:252-273 | with the default config, live view writes ISO 1600, shutter 1/60, then viewfinder 1 |
| Backend.LiveviewEndsWithViewfinder | services/camera/src/backends/gphoto2_backend.py:252-273 | live-view configuration always ends by enabling the viewfinder |
| Backend.ExposureRunSteps | services/camera/src/backends/gphoto2_backend.py:289-311 | the exposure-mode branch behaves as running its plan of writes in order |
| Backend.FallbackRunSteps | services/camera/src/backends/gphoto2_backend.py:312-318 | the manual fallback behaves as running its plan of writes in order |
| Backend.ExposureDispatch | services/camera/src/backends/gphoto2_backend.py:289-311 | the mode write comes first and only once; ISO is written exactly in manual mode with an ISO set; shutter is written exactly in TV or manual mode with a shutter set |
| Backend.CaptureConfigErrors | services/camera/src/backends/gphoto2_backend.py:275-326 | capture configuration fails only when the exposure plan was refused and then the fallback was too; when no exposure write is refused it succeeds |
| Backend.UpperCaseJpeg | services/camera/src/backends/gphoto2_backend.py:504 | the JPEG test ignores case |
| Backend.FindJpeg | services/camera/src/backends/gphoto2_backend.py:501-506 | returns the index of the first JPEG file name, and none exactly when no name is a JPEG |
| Backend.CaptureResultOf | services/camera/src/backends/gphoto2_backend.py:473-549 | a capture succeeds exactly when configuration, trigger, events, a JPEG and download all succeed, and then reports the output path and metadata; otherwise the first failing step decides the result: the trigger's error, the first event error, "No JPEG file captured" or the download's error, each as a failed capture tagged by the autofocus test |
| Backend.NotAutofocusWithout | services/camera/src/backends/gphoto2_backend.py:71-96 | a message with no "s" and no "af" pair, in either case, is not an autofocus failure |
| Backend.NoJpegIsUntaggedFailure | services/camera/src/backends/gphoto2_backend.py:506-509 | the "No JPEG file captured" failure is an ordinary failed capture, not tagged as an autofocus failure |
| Backend.CaptureTaggedIff | services/camera/src/backends/gphoto2_backend.py:536-549 | every failed capture carries its error text and no path, and is tagged AUTOFOCUS_FAILED exactly when it failed and its error is an autofocus failure |
| Backend.TooSoonMeaning | services/camera/src/backends/gphoto2_backend.py:389-394 | the integer rate gate elapsed*cap < 1000 ms is the source's elapsed < 1/cap seconds |
| Backend.FrameRequest | services/camera/src/backends/gphoto2_backend.py:371-450 | one frame request on a connected backend: a frame exactly when live view is on, the cap is non-zero, the rate gate has passed and the preview has at least 1000 bytes, and then the clock moves to now and the error count clears; an error exactly when live view is off, the cap is zero or the tenth consecutive preview failure arrives; live view stays on unless a request with a non-zero cap raises |
| Backend.GPhoto2Backend.constructor | services/camera/src/backends/gphoto2_backend.py:110-151 | a new backend is not connected, has zeroed statistics and error count, and uses the given or default config |
| Backend.GPhoto2Backend.SetConfig | services/camera/src/backends/gphoto2_backend.py:228-241 | without a camera it fails with "Camera not initialized"; otherwise it fails with the camera's refusal or records the write |
| Backend.GPhoto2Backend.ConfigureForLiveview | services/camera/src/backends/gphoto2_backend.py:252-273 | performs exactly the writes and error of the live-view plan |
| Backend.GPhoto2Backend.SetOptional | services/camera/src/backends/gphoto2_backend.py:258-262 | an empty value writes nothing; otherwise exactly one write, or the camera's refusal |
| Backend.GPhoto2Backend.SetExposureMode | services/camera/src/backends/gphoto2_backend.py:289-311 | performs exactly the writes and error of the exposure plan |
| Backend.GPhoto2Backend.SetManualMode | services/camera/src/backends/gphoto2_backend.py:304-311 | writes the manual mode, then the ISO and shutter speed when set, stopping at the first refusal |
| Backend.GPhoto2Backend.SetManualFallback | services/camera/src/backends/gphoto2_backend.py:312-318 | performs exactly the writes and error of the fallback plan |
| Backend.GPhoto2Backend.SetExposure | services/camera/src/backends/gphoto2_backend.py:288-318 | performs the exposure plan, and the fallback if the plan was refused |
| Backend.GPhoto2Backend.ConfigureForCapture | services/camera/src/backends/gphoto2_backend.py:275-326 | performs exactly the writes and error of the capture configuration, the viewfinder and movie-mode writes being best effort |
| Backend.GPhoto2Backend.Initialize | services/camera/src/backends/gphoto2_backend.py:161-201 | a missing library fails with the install hint; an initialized backend is left as is; otherwise it connects exactly when init and live-view configuration succeed, and any failure cleans up |
| Backend.GPhoto2Backend.Cleanup | services/camera/src/backends/gphoto2_backend.py:203-222 | always ends with live view off, no camera, not initialized and not connected |
| Backend.GPhoto2Backend.StartLiveview | services/camera/src/backends/gphoto2_backend.py:328-352 | corrected (see Findings), resetting the consecutive-error count the source leaves alone: fails when not connected, does nothing when already active, and otherwise turns live view on exactly when configuration succeeds, with statistics and the error count zeroed |
| Backend.GPhoto2Backend.StartLiveviewAsWritten | services/camera/src/backends/gphoto2_backend.py:328-352 | as the source: fails when not connected, does nothing when already active, and otherwise turns live view on exactly when configuration succeeds (failing with its error), with frame count, dropped frames and capture count zeroed and the consecutive-error count carried over |
| Backend.GPhoto2Backend.StopLiveview | services/camera/src/backends/gphoto2_backend.py:354-369 | live view is off afterwards; it was already off means nothing changes |
| Backend.GPhoto2Backend.GetLiveviewFrame | services/camera/src/backends/gphoto2_backend.py:371-450 | errors when not connected or not active; otherwise its result and the new live-view flag, frame clock and error count are exactly those of FrameRequest |
| Backend.GPhoto2Backend.CollectFiles | services/camera/src/backends/gphoto2_backend.py:488-497 | the captured file followed by every file-added event, and the first event error if any |
| Backend.GPhoto2Backend.CaptureSteps | services/camera/src/backends/gphoto2_backend.py:473-549 | yields the capture outcome, sends exactly the capture plan's config writes, and counts one capture exactly when it succeeded |
| Backend.GPhoto2Backend.CapturePhoto | services/camera/src/backends/gphoto2_backend.py:452-568 | reports "Camera not connected" when disconnected; otherwise yields the capture result after exactly the capture plan's writes, and live view that was active is restored, with the live-view plan's writes, zeroed statistics (dropped frames included) and error count |
| Backend.GPhoto2Backend.ResumeLiveview | services/camera/src/backends/gphoto2_backend.py:551-566 | sends exactly the live-view plan's writes, then the movie-mode write when that plan went through; a refused live-view write escapes with live view left as it was; otherwise live view is on with zeroed statistics, dropped frames, capture count and error count and the frame clock at now |
| Backend.GPhoto2Backend.GetStatus | services/camera/src/backends/gphoto2_backend.py:602-630 | a disconnected backend reports the default status; a connected one reports live view, capture count, battery and model |
| Backend.ExhaustErrorBudget | services/camera/src/backends/gphoto2_backend.py:427-450 | ten stuck frames in a row turn live view off with the count at ten |
| Backend.RestartAfterThresholdAsWritten | services/camera/src/backends/gphoto2_backend.py:328-352 | after a trip and a restart of live view, the next error trips again |
| Backend.RestartAfterThreshold | services/camera/src/backends/gphoto2_backend.py:328-352 | with the count reset on start, the next error only yields no frame |
| CameraBase.RotateImage | apps/camera-service/src/camera/base.py:88-96 | rotation keeps the pixels and keeps an image's orientation bookkeeping consistent |
| CameraBase.FlipImage | apps/camera-service/src/camera/base.py:98-100 | a flip keeps pixels and size and toggles mirroring |
| CameraBase.RotateIdentityIff | apps/camera-service/src/camera/base.py:88-96 | rotation leaves an image unchanged exactly when the angle is not 90, 180 or 270 |
| CameraBase.RotateSize | apps/camera-service/src/camera/base.py:88-96 | 90 and 270 swap width and height; any other angle keeps the size |
| CameraBase.RotateInverse | apps/camera-service/src/camera/base.py:88-96 | 90 then 270, 270 then 90, and 180 twice give back the image |
| CameraBase.FlipInvolution | apps/camera-service/src/camera/base.py:98-100 | flipping twice gives back the image |
| CameraBase.FlipReversesRotation | apps/camera-service/src/camera/base.py:88-100 | flipping after a 90 turn equals a 270 turn after flipping |
| GPhotoCamera.ToInt | apps/camera-service/src/camera/gphoto2_camera.py:216-250 | a successful integer coercion yields an integer |
| GPhotoCamera.ToFloat | apps/camera-service/src/camera/gphoto2_camera.py:240-241 | a successful float coercion yields a float |
| GPhotoCamera.CoercionByKind | apps/camera-service/src/camera/gphoto2_camera.py:216-250 | toggle and date coerce to int, range to float, text to str, radio to a choice string, and other kinds to the type of the current value |
| GPhotoCamera.RadioAliases | apps/camera-service/src/camera/gphoto2_camera.py:219-232 | a listed choice is kept; "Memory card" not listed becomes "card" or "card+sdram" when listed; anything else is kept |
| GPhotoCamera.IntegerPartOfDigits | apps/camera-service/src/camera/gphoto2_camera.py:216-250 | int() of a digit string reads all of it |
| GPhotoCamera.ToIntOfPrinted | apps/camera-service/src/camera/gphoto2_camera.py:216-250 | coercing a printed integer gives the integer back |
| GPhotoCamera.CoerceIdempotent | apps/camera-service/src/camera/gphoto2_camera.py:216-250 | coercing an already coerced value changes nothing |
| GPhotoCamera.SetThenGet | apps/camera-service/src/camera/gphoto2_camera.py:206-274 | after a successful set, get returns the coerced value |
| GPhotoCamera.CoerceSameKind | apps/camera-service/src/camera/gphoto2_camera.py:216-250 | setting the same value again onto the updated widget coerces the same way |
| GPhotoCamera.SetErrors | apps/camera-service/src/camera/gphoto2_camera.py:216-262 | a failed set changes no setting and reports either "Unsupported option s/o" or the coercion error |
| GPhotoCamera.Processed | apps/camera-service/src/camera/gphoto2_camera.py:123-132 | post-processing keeps the pixels and ends at the configured size, or at the rotated size when none is configured |
| GPhotoCamera.InitializeSucceedsIff | apps/camera-service/src/camera/base.py:28-52 | initialisation succeeds exactly when both rotations are valid, a camera is detected and init succeeds; an invalid rotation is reported by name |
| GPhotoCamera.FirstInvalidRotation | apps/camera-service/src/camera/base.py:46-49 | finds the first rotation outside {0, 90, 180, 270}, and none exactly when all are valid |
| GPhotoCamera.CaptureIsoRestored | apps/camera-service/src/camera/gphoto2_camera.py:150-197 | on an ISO widget of any kind that takes the writes, the capture ISO reads back as written (coerced) and, after the restore, the preview ISO does |
| GPhotoCamera.CoerceIntAfterWrite | apps/camera-service/src/camera/gphoto2_camera.py:216-250 | writing an integer leaves how the widget coerces the next integer unchanged |
| GPhotoCamera.CaptureFailure | apps/camera-service/src/camera/gphoto2_camera.py:157-204 | a capture fails exactly when the trigger, the download or a configured deletion fails, with "Photo capture failed: " and the first such error |
| GPhotoCamera.PreviewSettings | apps/camera-service/src/camera/gphoto2_camera.py:109-115 | a preview changes at most the viewfinder setting |
| GPhotoCamera.CaptureSettings | apps/camera-service/src/camera/gphoto2_camera.py:143-197 | a capture changes at most the viewfinder and ISO settings |
| GPhotoCamera.GPhoto2Camera.constructor | apps/camera-service/src/camera/base.py:15-26 | defaults: ISO 400/100, rotations 0, no flip, no deletion, not initialized, no camera |
| GPhotoCamera.GPhoto2Camera.SetConfigValue | apps/camera-service/src/camera/gphoto2_camera.py:206-262 | without a camera it fails; otherwise it applies the coerced value exactly when the set succeeds |
| GPhotoCamera.GPhoto2Camera.GetConfigValue | apps/camera-service/src/camera/gphoto2_camera.py:264-274 | succeeds exactly for a known option and otherwise reports "Unknown option s/o" |
| GPhotoCamera.GPhoto2Camera.SpecificInitialization | apps/camera-service/src/camera/gphoto2_camera.py:27-80 | uses the first detected camera; preview compatibility is the abilities test and the viewfinder flag needs compatibility and a readable viewfinder |
| GPhotoCamera.GPhoto2Camera.StoreSettings | apps/camera-service/src/camera/base.py:38-44 | stores both resolutions, the ISO and rotation pairs, and one flip for preview and capture |
| GPhotoCamera.GPhoto2Camera.Initialize | apps/camera-service/src/camera/base.py:28-52 | stores the settings first; an invalid rotation fails before the device is touched; initialized exactly on success |
| GPhotoCamera.ValidateRotations | apps/camera-service/src/camera/base.py:46-49 | no error exactly when both rotations are 0, 90, 180 or 270; otherwise the error initialize raises |
| GPhotoCamera.GPhoto2Camera.Connect | apps/camera-service/src/camera/base.py:51-52 | the outcome of the device set-up; initialized is set exactly on success, with the camera connected and configured |
| GPhotoCamera.GPhoto2Camera.GetPreviewFrame | apps/camera-service/src/camera/gphoto2_camera.py:102-138 | without preview support a black frame of the preview resolution (default 640x480) and no setting change; otherwise the processed frame, after the viewfinder write, and the settings are PreviewSettings |
| GPhotoCamera.GPhoto2Camera.CapturePhoto | apps/camera-service/src/camera/gphoto2_camera.py:140-204 | fails exactly when CaptureFailure says, with its message; otherwise returns the processed download; the settings end as CaptureSettings: viewfinder off, capture ISO written, and the preview ISO restored only after success |
| GPhotoCamera.GPhoto2Camera.Disconnect | apps/camera-service/src/camera/gphoto2_camera.py:280-290 | always ends with no camera and not initialized |
| GPhotoCamera.GPhoto2Camera.GetCameraInfo | apps/camera-service/src/camera/base.py:102-111 | reports connection, initialisation, both resolutions and ISOs, and the abilities exactly when connected and readable |
| Manager.JoinPath | apps/camera-service/src/camera/manager.py:182-193 | an absolute name wins; otherwise the path starts with the directory and ends with the name |
| Manager.ConnectFrom | apps/camera-service/src/camera/manager.py:50-98 | the attempt counter only grows, stays within the maximum, and an attempt is made whenever the counter starts below it |
| Manager.ConnectSucceedsAtFirstSuccess | apps/camera-service/src/camera/manager.py:52-87 | the loop succeeds exactly when some remaining attempt would succeed, and then stops at the first one |
| Manager.ConnectAllFail | apps/camera-service/src/camera/manager.py:89-98 | when every attempt fails the counter ends at the maximum and the error names the attempt count |
| Manager.ConnectExhausted | apps/camera-service/src/camera/manager.py:52 | with the counter at the maximum no attempt is made |
| Manager.ExhaustedConnectAsWrittenSucceeds | apps/camera-service/src/camera/manager.py:50-98 | as the source: with no attempt left the connect reports success |
| Manager.TryConnectSuccessMeansInitialized | apps/camera-service/src/camera/manager.py:50-98 | in the corrected loop success means an attempt succeeded |
| Manager.CameraManager.constructor | apps/camera-service/src/camera/manager.py:22-33 | no camera, zero attempts, not initialized |
| Manager.CameraManager.ConnectLoop | apps/camera-service/src/camera/manager.py:52-98 | follows ConnectFrom for the counter and outcome, leaves a connected camera on success, and waits the restart delay between failed attempts |
| Manager.CameraManager.Attempt | apps/camera-service/src/camera/manager.py:57-87 | builds a fresh camera and initialises it with the configured settings |
| Manager.CameraManager.TryConnectCameraAsWritten | apps/camera-service/src/camera/manager.py:50-98 | counter and status as the source computes them; success after an attempt leaves a connected camera, and with no attempt left it reports success with the camera untouched |
| Manager.CameraManager.TryConnectCamera | apps/camera-service/src/camera/manager.py:50-98 | counter and status of the corrected loop; success leaves a connected camera |
| Manager.CameraManager.InitializeAsWritten | apps/camera-service/src/camera/manager.py:35-48 | an initialized manager is left as is; otherwise it is marked initialized with attempts reset exactly when connecting reports success |
| Manager.CameraManager.Initialize | apps/camera-service/src/camera/manager.py:35-48 | as above with the corrected connect |
| Manager.CameraManager.RestartCameraAsWritten | apps/camera-service/src/camera/manager.py:100-125 | as the source: drops the camera and reconnects from zero attempts; with at least one attempt allowed it returns true exactly when the camera is then ready, and with none it returns true with no camera |
| Manager.CameraManager.RestartCamera | apps/camera-service/src/camera/manager.py:100-125 | corrected (see Findings): drops the camera, reconnects from zero attempts, and returns true exactly when the camera is then ready |
| Manager.CameraManager.GetPreviewFrame | apps/camera-service/src/camera/manager.py:136-148 | "Camera not ready" when not ready, with no setting change; otherwise the processed frame, or a black frame when the device fails, and the camera's settings become PreviewSettings when it supports preview |
| Manager.CameraManager.CapturePhoto | apps/camera-service/src/camera/manager.py:162-180 | "Camera not ready" when not ready, with no setting change; otherwise the camera's error text exactly as CaptureFailure gives it, and a failed capture clears initialized so the manager is no longer ready; the settings end as CaptureSettings |
| Manager.CameraManager.SavePhoto | apps/camera-service/src/camera/manager.py:182-193 | corrected (see Findings), saving with `quality=95`: the photo is stored under the photos directory, or the write error is reported |
| Manager.CameraManager.SavePhotoAsWritten | apps/camera-service/src/camera/manager.py:182-193 | as the source: the call `image.save(filepath, 'JPEG', 95)` always raises the `TypeError` for a third positional argument, which is re-raised |
| Manager.CameraManager.SetSetting | apps/camera-service/src/camera/manager.py:195-211 | "Camera not ready" with no change when not ready; otherwise the camera's set |
| Manager.CameraManager.GetSetting | apps/camera-service/src/camera/manager.py:213-228 | "Camera not ready" when not ready; otherwise the camera's get |
| Manager.CameraManager.GetCameraInfo | apps/camera-service/src/camera/manager.py:230-247 | a not-ready manager reports only its initialized flag; a ready one reports the camera's info |
| Manager.CameraManager.Shutdown | apps/camera-service/src/camera/manager.py:249-264 | always ends with no camera and not initialized |
| Manager.SecondInitializeAsWritten | apps/camera-service/src/camera/manager.py:35-98 | as the source: when every attempt fails, a second initialize reports success |
| Manager.SecondInitialize | apps/camera-service/src/camera/manager.py:35-98 | corrected: both calls fail |
| Manager.RestartWithoutAttemptsAsWritten | apps/camera-service/src/camera/manager.py:100-125 | as the source: with `max_restart_attempts` 0 a restart returns true and the camera is not ready |
| Manager.RestartWithoutAttempts | apps/camera-service/src/camera/manager.py:100-125 | corrected: the same restart returns false |
| Handler.Route | apps/camera-service/src/websocket/handler.py:64-84 | exactly the six known message types are dispatched |
| Handler.RouteByName | apps/camera-service/src/websocket/handler.py:64-84 | each type name routes to its own handler and no other name does |
| Handler.CaptureFilename | apps/camera-service/src/websocket/handler.py:140 | a given filename is used; otherwise "photo_<stamp>.jpg" |
| Handler.CameraWebSocketHandler.constructor | apps/camera-service/src/websocket/handler.py:20-24 | no connections, not streaming, no task, frame count 0 |
| Handler.CameraWebSocketHandler.Send | apps/camera-service/src/websocket/handler.py:298-303 | one message to the client, lost if its send fails |
| Handler.CameraWebSocketHandler.SendError | apps/camera-service/src/websocket/handler.py:305-312 | one error message with the request id |
| Handler.CameraWebSocketHandler.Broadcast | apps/camera-service/src/websocket/handler.py:314-323 | every connection is sent the message, and exactly those whose send fails are removed |
| Handler.CameraWebSocketHandler.StopPreviewStream | apps/camera-service/src/websocket/handler.py:270-280 | not streaming and no task afterwards |
| Handler.CameraWebSocketHandler.HandleStartPreview | apps/camera-service/src/websocket/handler.py:86-106 | a not-ready camera gets an error and no state change; otherwise exactly one task is created if none was streaming, and none when already streaming |
| Handler.CameraWebSocketHandler.HandleStopPreview | apps/camera-service/src/websocket/handler.py:108-121 | the stream is stopped and the stop is acknowledged |
| Handler.CameraWebSocketHandler.HandleCapturePhoto | apps/camera-service/src/websocket/handler.py:123-166 | corrected (see Findings), with the corrected save: not ready gives an error and no change; otherwise streaming is stopped, and the answer is `photo_captured` with the file name, the path under the photos directory and the processed image exactly when the capture and the save succeed; a failed capture is answered "Failed to capture photo: " followed by the camera's error, a failed save with its own error; streaming restarts, as a new task, only after success |
| Handler.CameraWebSocketHandler.HandleCapturePhotoAsWritten | apps/camera-service/src/websocket/handler.py:123-166 | as the source, whose save always raises: not ready gives an error and no change; otherwise every request is answered with exactly one error, "Failed to capture photo: " followed by the save's `TypeError` when the capture succeeded and by the camera's error otherwise, and streaming is left stopped with no new task |
| Handler.CameraWebSocketHandler.SendCameraInfo | apps/camera-service/src/websocket/handler.py:282-296 | sends the manager's camera info |
| Handler.CameraWebSocketHandler.HandleSetCameraSetting | apps/camera-service/src/websocket/handler.py:172-196 | a missing section, option or value is an error with no manager call; otherwise the manager's set is reported |
| Handler.CameraWebSocketHandler.HandleGetCameraSetting | apps/camera-service/src/websocket/handler.py:198-221 | a missing section or option is an error with no manager call; otherwise the manager's get is reported |
| Handler.CameraWebSocketHandler.HandleMessage | apps/camera-service/src/websocket/handler.py:64-84 | one reply per request; an unknown type is answered "Unknown message type: X" |
| Handler.CameraWebSocketHandler.HandleInbound | apps/camera-service/src/websocket/handler.py:43-52 | invalid JSON, a non-object message and a failed receive are each answered with one error |
| Handler.CameraWebSocketHandler.HandleConnection | apps/camera-service/src/websocket/handler.py:26-62 | greets and sends info, answers each item received before the task is cancelled, a failed receive included, then on cancellation removes the client and stops the stream when no connection is left |
| Handler.CameraWebSocketHandler.StreamTick | apps/camera-service/src/websocket/handler.py:227-261 | with no connections or a not-ready camera nothing is sent; otherwise one frame is broadcast and failing clients are dropped |
| Handler.CameraWebSocketHandler.PreviewStreamLoop | apps/camera-service/src/websocket/handler.py:223-268 | only failing clients are removed, and every client that never fails stays; frames are numbered consecutively; nothing happens unless streaming |
| UsbReset.LeadingSpace | apps/camera-service/src/utils/usb_reset.py:55 | the length of the whitespace run that starts the string |
| UsbReset.TrailingSpace | apps/camera-service/src/utils/usb_reset.py:55 | the length of the whitespace run that ends the string |
| UsbReset.Strip | apps/camera-service/src/utils/usb_reset.py:55 | the result is a slice of the input whose removed ends are all whitespace (Python's `str.isspace` set) and which neither starts nor ends with whitespace; a string with no surrounding whitespace comes back unchanged |
| UsbReset.FirstCamera | apps/camera-service/src/utils/usb_reset.py:52-67 | the first listed device with the vendor id and an authorized file |
| UsbReset.Find | apps/camera-service/src/utils/usb_reset.py:38-72 | finds a device exactly when some listed device matches, and otherwise reports the vendor id |
| UsbReset.AttributeInfoReadable | apps/camera-service/src/utils/usb_reset.py:149-182 | an attribute is reported exactly when its file is readable |
| UsbReset.AttributeInfoKeys | apps/camera-service/src/utils/usb_reset.py:149-182 | only the listed attributes are reported |
| UsbReset.UsbResetHelper.constructor | apps/camera-service/src/utils/usb_reset.py:23-36 | vendor id "04a9" when none or an empty one is given, settle time 3 seconds unless given; no cached path |
| UsbReset.UsbResetHelper.FindCameraSysfsPath | apps/camera-service/src/utils/usb_reset.py:38-72 | the loop's result equals Find, and a found path is cached |
| UsbReset.UsbResetHelper.ResetUsbDevice | apps/camera-service/src/utils/usb_reset.py:74-147 | no device or no authorized file: false with no write; otherwise writes "0" then "1" and returns true exactly when both succeed and the device is found again; errors never escape |
| UsbReset.UsbResetHelper.GetDeviceInfo | apps/camera-service/src/utils/usb_reset.py:149-182 | empty when no device is found; otherwise the readable device and power attributes plus the sysfs path |
| UsbReset.ReadAttributes | apps/camera-service/src/utils/usb_reset.py:163-180 | the attribute loop's map equals the attribute info: each readable file, stripped, under its key |
| Service.MergeConfig | services/camera/src/main.py:309-318 | each ISO and shutter field takes the update only when it is non-empty, the viewfinder flag only when it is given, and every other field is kept |
| Service.MergeIdempotent | services/camera/src/main.py:309-318 | applying an update twice equals applying it once; an empty update changes nothing |
| Service.MergeLaterWins | services/camera/src/main.py:309-318 | a complete later update overrides an earlier one |
| Service.CatchAllAsWritten | services/camera/src/main.py:322-324 | as the source: every exception, an HTTP one included, becomes a 500 |
| Service.CatchAll | services/camera/src/main.py:322-324 | corrected: an HTTP exception keeps its code and detail |
| Service.CatchAllAsWrittenMasks503 | services/camera/src/main.py:305-324 | a 503 raised inside the handler becomes 500 "503: detail" as written, and stays 503 when corrected |
| Service.UnderscoreAtAfter | services/camera/src/main.py:276 | the first underscore of a joined name sits right after an underscore-free prefix |
| Service.SplitAtUnderscore | services/camera/src/main.py:276 | splitting a name at its first underscore is unique |
| Service.CaptureFilenameInjective | services/camera/src/main.py:275-276 | within a session, different sequence numbers or timestamps give different filenames |
| Service.OutputPath | services/camera/src/main.py:271-277 | the printed path parses back to the join of the parsed directory and file name: pathlib's components, without empty ones and `.`, under the directory's root, or the file name alone when it is absolute |
| Service.Components | services/camera/src/main.py:271-277 | the components of a path string are all non-empty, not `.`, and free of separators |
| Service.ParsePath | services/camera/src/main.py:271 | a parsed path holds only such components |
| Service.PathJoin | services/camera/src/main.py:277 | a relative name's components follow the directory's, under the directory's root |
| Service.ParsePrint | services/camera/src/main.py:277 | printing a parsed path and parsing it again gives the same path, so the printed form is pathlib's normal form |
| Service.OutputPathEndsWithName | services/camera/src/main.py:271-277 | a file name that is one plain component ends the output path, after a separator unless it is the whole path |
| Service.DefaultDirectory | services/camera/src/models/schemas.py:30 | the default output directory `./photos` parses as the relative path `photos` |
| Service.DotDirectory | services/camera/src/main.py:271 | `.` parses as the empty relative path |
| Service.DefaultOutputPath | services/camera/src/main.py:271-277 | with the directory `./photos`, a plain file name is saved as `photos/<name>`, without the `./` |
| Service.DotOutputPath | services/camera/src/main.py:271-277 | with the directory `.`, the output path is the file name alone |
| Service.CaptureFilenamePlain | services/camera/src/main.py:276 | a capture file name whose session id has no `/` is one plain component |
| Service.DefaultCapturePath | services/camera/src/main.py:271-277 | a default capture request with such a session id is saved as `photos/<session>_<sequence>_<timestamp>.jpg` |
| Service.PassSent | services/camera/src/main.py:220-222 | a pass sends exactly the non-empty frame the backend returned |
| Service.PassCount | services/camera/src/main.py:220-233 | a frame error adds one to the count, a sent frame clears it unless its send raises, which adds one, and no frame keeps it |
| Service.InactiveDeliversNothing | services/camera/src/main.py:212-214 | once live view is off, the backend hands out no frame |
| Service.StreamSendsDeliveredFrames | services/camera/src/main.py:207-242 | the frames the stream sends are exactly the frames the backend delivered, in order, over the passes made; when the client left or live view went off, over all passes |
| Service.CountedErrorsEndStream | services/camera/src/main.py:229-239 | enough passes in a row that each count as an error end the stream with "Too many frame errors (51)" as its last message |
| Service.ZeroCapExhaustsBudget | services/camera/src/main.py:207-239 | with frame-rate cap 0, every request raises, so after 51 passes the stream has sent only "Too many frame errors (51)" |
| Service.ZeroCapAllCounted | services/camera/src/main.py:229-233 | with frame-rate cap 0 every pass counts as an error |
| Service.ZeroCapSendsNothing | services/camera/src/main.py:216-239 | with frame-rate cap 0 the stream sends no frame, only the final error |
| Service.StreamFramesLarge | services/camera/src/main.py:216-224 | every frame the stream sends has at least 1000 bytes |
| Service.StreamErrorLast | services/camera/src/main.py:207-239 | only frames precede the one error message, and a stream ends without an error exactly when the client left |
| Service.StreamEndMessage | services/camera/src/main.py:207-239 | "Live view not active" or "Too many frame errors (51)" is the last message of the stream it ends, the latter only after more than 50 passes; a started stream never ends as disconnected |
| Service.CappedStreamKeepsBudget | services/camera/src/main.py:229-239 | with a non-zero cap and no failed send, the error budget never ends the stream |
| Service.StartedStreamFrames | services/camera/src/main.py:207-242 | a started stream sends frames of at least 1000 bytes, and at most one error, last |
| Service.StartedStreamEnd | services/camera/src/main.py:207-242 | how a started stream ends, with its last message, and that a capped stream whose sends succeed never runs out of budget |
| Service.StreamPass | services/camera/src/main.py:212-242 | one pass on a connected backend follows StreamRun: it ends the stream as StreamRun does, or leaves StreamRun of the remaining passes still to come |
| Service.StreamLoop | services/camera/src/main.py:207-242 | the `while True` loop sends and ends exactly as StreamRun says from the backend's frame state, or reports the camera disconnected |
| Service.FetchFrame | services/camera/src/main.py:218 | the backend's answer and new frame state are exactly FrameRequest's for the pass's time and preview |
| Service.FramePass | services/camera/src/main.py:216-242 | the frame state moves as FrameRequest says; a frame error sends nothing and adds one; no frame sends nothing and keeps the count; a non-empty frame is sent and clears the count unless its send raises, which adds one |
| Service.CameraService.constructor | services/camera/src/main.py:36 | no backend |
| Service.CameraService.Startup | services/camera/src/main.py:39-63 | a backend with the default config is created, connected exactly when init and live-view configuration succeed |
| Service.CameraService.Shutdown | services/camera/src/main.py:56-63 | the backend is cleaned up: not connected, live view off |
| Service.CameraService.Connect | services/camera/src/main.py:90-106 | a connected backend is left untouched; otherwise it is initialized, and the reply is "Camera connected" exactly when it ends connected, else 503 whose detail is the initialisation's failure: the install hint, the driver's init error, or the refused live-view write |
| Service.CameraService.Disconnect | services/camera/src/main.py:109-123 | the backend is cleaned up and dropped |
| Service.CameraService.GetStatus | services/camera/src/main.py:126-148 | no backend reports not connected; otherwise the backend's status |
| Service.CameraService.StartLiveviewAsWritten | services/camera/src/main.py:151-165 | as the source: not connected gives 500 "503: Camera not connected"; otherwise "Live view started" exactly when live view is then on, a configuration failure being a 500 with its error, and the backend's error count carried over |
| Service.CameraService.StartLiveview | services/camera/src/main.py:151-165 | corrected (see Findings): not connected gives 503; otherwise "Live view started" exactly when live view is then on, with a fresh error budget |
| Service.CameraService.StopLiveview | services/camera/src/main.py:168-182 | live view is off afterwards, or the camera was not connected |
| Service.CameraService.CaptureToOutput | services/camera/src/main.py:270-296 | a directory error is a 500 and changes nothing; otherwise the backend's capture to the generated path as pathlib prints it (`OutputPath`: `photos/<name>` for the default `./photos`), whose reply is the capture result with that image path unless live view was on and could not be reconfigured, which is a 500 with that error and leaves live view off |
| Service.CameraService.CaptureAsWritten | services/camera/src/main.py:255-296 | as the source: not connected gives 500 "503: Camera not connected"; otherwise as CaptureToOutput, with live view on or off |
| Service.CameraService.Capture | services/camera/src/main.py:255-296 | corrected (see Findings): not connected gives 503; otherwise the same replies as written, with live view on or off |
| Service.CameraService.UpdateConfigAsWritten | services/camera/src/main.py:299-324 | as the source: with no backend the reply is 500 "503: Camera not initialized"; otherwise the config is merged and the service stays valid |
| Service.CameraService.UpdateConfig | services/camera/src/main.py:299-324 | corrected: with no backend the reply is 503; otherwise the config is merged and the service stays valid |
| Service.CameraService.StartStream | services/camera/src/main.py:198-201 | live view is started, as written, only when connected and off; the stream fails to start exactly when live view configuration fails, and otherwise live view is on with the frame clock at the start time and the error count carried over |
| Service.CameraService.LiveviewStream | services/camera/src/main.py:185-252 | the stream is StreamRun from the backend's frame state (after a start when live view was off), so it sends exactly the delivered frames in order; only frames of at least 1000 bytes are sent, only the last message is an error, and the end reason matches it; the 51-error end needs more than 50 passes, and with a non-zero cap and no failed send it never happens |
| Text.ContainsIffOccurs | services/camera/src/camera_worker.py:107-111 | substring search finds the substring exactly when it occurs at some index |
| Text.LowerIdempotent | services/camera/src/camera_worker.py:104 | lower-casing twice equals once |
| Text.ParseIntOfIntToString | apps/camera-service/src/camera/gphoto2_camera.py:216-250 | parsing a printed integer gives it back |
| Text.FirstNumberOfPrintedNat | services/camera/src/backends/gphoto2_backend.py:618-620 | the first digit run of a printed number followed by a non-digit is that number |

## Left out

- Driver calls (init, capture, capture_preview, get_config/set_config, wait_for_event, file_get, file_delete, exit) are parameters: the outcome each would have is passed in. The camera's abilities test is a boolean.
- Image work (PIL open, resize, transpose, save), base64 and JSON encoding, and JPEG writing are foreign libraries. Images are values that record size and orientation, and frames are byte sequences.
- Threads, queue blocking and timeouts, asyncio tasks, `run_in_executor`, locks, task cancellation and future timeouts are left out. The worker loop and the stream loops run over a finite sequence of steps, and cancellation is the end of that sequence.
- Wall-clock time and sleeps: time is integer milliseconds passed in. Sleeps and back-off delays are summed in ghost counters. Timestamps (`datetime.now()`, ISO strings) are parameters.
- Logging.
- The float fps moving average in the backend's frame statistics is left out.
- `CameraWorkerAdapter` (camera_worker.py:177-249) is async plumbing around the worker.
- `backend._capture_preview_frame`, called by the worker, is not defined by the backend. The worker takes its outcome as a parameter.
- GPhotoCamera.ToFloat: the range-widget float coercion keeps the value's text as a tag. Float parsing is not modelled, so text that `float()` rejects is not an error here.
- GPhotoCamera.ToInt: parses an optional sign and ASCII digits only. Python's `int()` also accepts surrounding whitespace, underscores between digits and non-ASCII digits (" 100", "1_000"), where the model reports an error.
- Text.Lower: lower-cases ASCII letters only; Python's `str.lower()` also maps non-ASCII letters.
- Text.FirstNumber: reads ASCII digit runs only. The battery reading's `re.search(r'(\d+)', ...)` (gphoto2_backend.py:617-619) also matches other Unicode decimal digits, which the model treats as non-digits.
- Camera refusals are fixed per object: the backend's `rejects` (the fields the camera refuses, with the driver's error) and `readings` (what it reports), and the gphoto2 camera's `refuses`, do not change over the object's life and do not depend on the value written. A transient refusal, or a driver refusing one radio value and accepting another, is not expressible.
- Handler.CameraWebSocketHandler.HandleConnection: the receive loop never ends by itself. Once a client has gone, every receive raises and is answered with an error that cannot be delivered, so the client leaves the set only when the connection's task is cancelled. The model covers the items handled before that cancellation.
- GPhotoCamera.CoerceSameKind: excludes writing a bool into an other-kind widget whose current value is None. The coerced widget then holds a bool and a second write would coerce to int.
- Real sysfs, glob and file reads and writes: sysfs is a value listing device directories and their attribute files.
- Directory creation for photos and capture output (`os.makedirs`, `mkdir`): a possible error is a parameter.
- Manager.CameraManager.CapturePhoto: the `settings` argument is ignored by the camera and is not modelled.
- The manager's `stop_preview` is a no-op for a gphoto2 camera, which has no `stop_preview`. It is not modelled.
- A camera's optional `is_ready` method (manager.py:132-133) is not modelled, because the gphoto2 camera has none. Readiness is `is_connected`.
- Service.CameraService.GetStatus: the exception branch (main.py:146-148) is not modelled, because the modelled status computation cannot raise.
- The `/health` endpoint, FastAPI routing, CORS, Pydantic schemas and YAML config loading are web-framework and configuration plumbing.
- Handler.CameraWebSocketHandler.HandleSetCameraSetting: section and option are strings or absent. Non-string JSON values are not modelled.
- Handler.CameraWebSocketHandler.HandleCapturePhoto: the filename is a string or absent. A filename given as JSON null reaches `os.path.join` as `None`, which raises before the save (handler.py:140, manager.py:184); that error reply is not modelled.

## Findings

| source | as written | input that shows it | evidently intended | confidence | as-written member | corrected member |
|---|---|---|---|---|---|---|
| services/camera/src/backends/gphoto2_backend.py:328-352,445-450 | `start_liveview` does not reset `_consecutive_errors`, which stays at 10 after the error budget turns live view off | ten stuck frames, `start_liveview`, then one more stuck frame: live view is turned off again at once | a restarted live view gets a fresh error budget | medium, not executed | Backend.RestartAfterThresholdAsWritten | Backend.RestartAfterThreshold |
| apps/camera-service/src/camera/manager.py:38-44,50-98 | `_try_connect_camera` makes no attempt when the counter is already at the maximum and falls through without raising, so `initialize` marks the manager initialized | a camera that never connects: the first `initialize` raises after 3 attempts, a second `initialize` returns normally with `_is_initialized` true, while `self.camera` is still the last `GPhoto2Camera`, which never connected | with no attempt left, connecting fails | high, not executed | Manager.SecondInitializeAsWritten | Manager.SecondInitialize |
| apps/camera-service/src/camera/manager.py:100-125 | `restart_camera` relies on the same loop: with `max_restart_attempts` set to 0 or less the loop makes no attempt, so the restart marks the manager initialized and returns true with no camera | a configuration with `max_restart_attempts: 0`, then `restart_camera` | with no attempt allowed, the restart reports failure | high, not executed | Manager.RestartWithoutAttemptsAsWritten | Manager.RestartWithoutAttempts |
| services/camera/src/main.py:304-306,322-324 | the `HTTPException(503)` raised inside the `try` is caught by `except Exception` and re-raised as a 500 whose detail is "503: Camera not initialized" | `update_config` before startup has created a backend | the 503 reaches the client unchanged | high, not executed | Service.CameraService.UpdateConfigAsWritten | Service.CameraService.UpdateConfig |
| services/camera/src/main.py:151-165 | `start_liveview` raises its "Camera not connected" 503 inside the `try`, and the `except Exception` turns it into a 500 with detail "503: Camera not connected" | a start request while no camera is connected | the 503 reaches the client unchanged | high, not executed | Service.CameraService.StartLiveviewAsWritten | Service.CameraService.StartLiveview |
| services/camera/src/main.py:255-296 | `capture_photo` masks its "Camera not connected" 503 the same way (`stop_liveview` answers success when not connected, and `get_status` answers `connected=False`, so neither is affected) | a capture request while no camera is connected | the 503 reaches the client unchanged | high, not executed | Service.CameraService.CaptureAsWritten | Service.CameraService.Capture |
| apps/camera-service/src/camera/manager.py:184-193 | `save_photo` calls `image.save(filepath, 'JPEG', 95)`, passing the quality as a third positional argument; Pillow's `Image.save(fp, format=None, **params)` takes two, so the call raises `TypeError` every time and `save_photo` re-raises it | any `capture_photo` request over the WebSocket on a ready camera whose capture succeeds: it is answered "Failed to capture photo: Image.save() takes from 2 to 3 positional arguments but 4 were given", and a preview stream stopped for the capture is not restarted | `image.save(filepath, 'JPEG', quality=95)`, as the handler itself writes at handler.py:145, so the photo is saved and `photo_captured` is sent | high, not executed | Handler.CameraWebSocketHandler.HandleCapturePhotoAsWritten | Handler.CameraWebSocketHandler.HandleCapturePhoto |

With a non-zero frame-rate cap and a client that takes every frame, the stream's budget of more than 50 consecutive frame errors is never what ends the stream: the backend turns live view off whenever a frame request raises, and the stream then ends as "Live view not active" (`Service.CameraService.LiveviewStream`). Failed frame sends count towards the same budget, so once a client has left, the stream ends after 51 failed frame sends in a row, whatever the cap. With a frame-rate cap of 0 every frame request raises a division by zero before the backend's own error count is touched, so live view stays on, the stream sends no frame, and it ends after 51 passes with only "Too many frame errors (51)" (`Service.ZeroCapExhaustsBudget`).

=== FILE: backend.dfy ===
/**
 * The gPhoto2 backend of the camera service: connection lifecycle, the
 * live-view/capture mode switch, live-view frames with a rate gate and a
 * consecutive-error budget, photo capture with the choice of the JPEG to
 * download, and the status report.
 *
 * The camera driver is abstract. Its configuration behaviour is fixed when
 * the backend is built: `rejects` maps each configuration field the camera
 * refuses to the text of the driver's exception, and `readings` maps each
 * field the camera reports to its value (a field missing there cannot be
 * read). Everything else the driver does (initialisation, preview frames,
 * capture, events, download) is a parameter of the call that uses it.
 */
module Backend {
  import opened Wrappers
  import opened Text

  // ---------------------------------------------------------------------------
  // Autofocus failures

  const AutofocusKeywords: seq<string> := [
    "focus", "autofocus", "could not focus", "focus not achieved",
    "lens not attached", "unable to focus", "focus failed", "af failed"
  ]

  /** `is_autofocus_failure`: a non-empty message whose lower-case form contains one of the keywords. */
  predicate IsAutofocusFailure(message: string) {
    message != [] && exists i | 0 <= i < |AutofocusKeywords| :: Contains(Lower(message), AutofocusKeywords[i])
  }

  lemma MentionsFocus(i: nat)
    requires i in {1, 2, 3, 5, 6}
    ensures Contains(AutofocusKeywords[i], "focus")
  {
    var k := if i == 1 then 4 else if i == 2 || i == 5 then 10 else 0;
    var s := AutofocusKeywords[i];
    assert s[k..k + 5] == "focus";
    ContainsAt(s, "focus", k);
  }

  lemma ContainsNonEmpty(s: string, sub: string)
    requires Contains(s, sub) && sub != []
    ensures s != []
  {
    ContainsIffOccurs(s, sub);
  }

  /**
   * Five of the eight keywords contain "focus", so a message is an autofocus
   * failure exactly when its lower-case form mentions "focus", "lens not
   * attached" or "af failed"; in particular the empty message is not one.
   */
  lemma AutofocusFailureIff(message: string)
    ensures IsAutofocusFailure(message) <==>
      Contains(Lower(message), "focus") || Contains(Lower(message), "lens not attached") || Contains(Lower(message), "af failed")
  {
    var e := Lower(message);
    if IsAutofocusFailure(message) {
      var i :| 0 <= i < |AutofocusKeywords| && Contains(e, AutofocusKeywords[i]);
      if i in {1, 2, 3, 5, 6} {
        MentionsFocus(i);
        ContainsTransitive(e, AutofocusKeywords[i], "focus");
      }
    }
    if Contains(e, "focus") {
      ContainsNonEmpty(e, "focus");
      assert Contains(e, AutofocusKeywords[0]);
    } else if Contains(e, "lens not attached") {
      ContainsNonEmpty(e, "lens not attached");
      assert Contains(e, AutofocusKeywords[4]);
    } else if Contains(e, "af failed") {
      ContainsNonEmpty(e, "af failed");
      assert Contains(e, AutofocusKeywords[7]);
    }
  }

  /** The classification ignores letter case. */
  lemma AutofocusFailureIgnoresCase(message: string)
    ensures IsAutofocusFailure(message) <==> IsAutofocusFailure(Lower(message))
  {
    LowerIdempotent(message);
  }

  // ---------------------------------------------------------------------------
  // Configuration, status and capture results

  datatype CameraConfig = CameraConfig(
    isoLiveview: string, shutterSpeedLiveview: string, apertureLiveview: string,
    exposureMode: string, isoCapture: string, shutterSpeedCapture: string, apertureCapture: string,
    disableViewfinderBeforeCapture: bool, canonEosmoviemode: bool,
    frameRateCap: int, captureTimeoutMs: int, downloadTimeoutMs: int)

  const DefaultConfig := CameraConfig("1600", "1/60", "4.0", "P", "100", "1/125", "5.6", true, false, 20, 5000, 8000)

  datatype CameraStatus = CameraStatus(
    connected: bool, model: string, battery: int, storageAvailable: bool,
    liveviewActive: bool, captureCount: nat, lastCaptureAt: Option<string>)

  const DisconnectedStatus := CameraStatus(false, "Unknown", 100, true, false, 0, None)

  datatype Metadata = Metadata(timestamp: string, model: string, iso: Option<string>,
                               shutterSpeed: Option<string>, aperture: Option<string>)

  /** `metadata` is `None` where the source leaves the empty dictionary. */
  datatype CaptureResult = CaptureResult(success: bool, imagePath: Option<string>, metadata: Option<Metadata>,
                                         error: Option<string>, errorType: Option<string>)

  const AutofocusFailed := "AUTOFOCUS_FAILED"

  /** The text live view raises with when the error budget runs out, from the exception's type name and text. */
  function ThresholdError(kind: string, message: string): string {
    "Live view error threshold exceeded: " + kind + ": " + message
  }
  const MaxConsecutiveErrors: nat := 10
  const MinFrameBytes := 1000

  /** The result `capture_photo` builds from an exception's text. */
  function FailedCapture(message: string): (r: CaptureResult)
    ensures !r.success && r.error == Some(message) && r.imagePath.None?
    ensures r.errorType.Some? <==> IsAutofocusFailure(message)
    ensures r.errorType.Some? ==> r.errorType == Some(AutofocusFailed)
  {
    CaptureResult(false, None, None, Some(message), if IsAutofocusFailure(message) then Some(AutofocusFailed) else None)
  }

  /** `_get_config(field)` where every failure is swallowed: the reported value, if any. */
  function Reading(readings: map<string, string>, field: string): Option<string> {
    if field in readings then Some(readings[field]) else None
  }

  /** `_get_capture_metadata`: each reading that fails keeps its default. */
  function CaptureMetadata(readings: map<string, string>, timestamp: string): Metadata {
    Metadata(timestamp,
             if "cameramodel" in readings then readings["cameramodel"] else "Unknown",
             Reading(readings, "iso"), Reading(readings, "shutterspeed"), Reading(readings, "aperture"))
  }

  /** The battery level `get_status` reports: the first number in the reading, else 100. */
  function BatteryLevel(readings: map<string, string>): int {
    if "batterylevel" in readings && FirstNumber(readings["batterylevel"]).Some? then
      FirstNumber(readings["batterylevel"]).value
    else 100
  }

  /** A reading "50%" or "50" gives level 50. */
  lemma BatteryOfPrintedLevel(readings: map<string, string>, n: nat, suffix: string)
    requires "batterylevel" in readings && readings["batterylevel"] == NatToString(n) + suffix
    requires suffix == [] || !IsDigit(suffix[0])
    ensures BatteryLevel(readings) == n
  {
    FirstNumberOfPrintedNat(n, suffix);
  }

  /** Without a reading, or with one that holds no digit, the level stays at 100. */
  lemma BatteryDefault(readings: map<string, string>)
    requires "batterylevel" in readings ==> forall i :: 0 <= i < |readings["batterylevel"]| ==> !IsDigit(readings["batterylevel"][i])
    ensures BatteryLevel(readings) == 100
  {
    if "batterylevel" in readings {
      FirstNumberNoDigits(readings["batterylevel"]);
    }
  }

  // ---------------------------------------------------------------------------
  // Configuration writes

  datatype ConfigValue = Str(s: string) | Int(n: int)
  datatype Write = Write(field: string, value: ConfigValue)

  /** The writes made by a sequence of `_set_config` calls, and the error that stopped it, if any. */
  datatype Run = Run(done: seq<Write>, error: Option<string>)

  /** Issues the writes of `plan` in order and stops at the first one the camera refuses. */
  function Attempt(plan: seq<Write>, rejects: map<string, string>): Run {
    if plan == [] then Run([], None)
    else if plan[0].field in rejects then Run([], Some(rejects[plan[0].field]))
    else
      var rest := Attempt(plan[1..], rejects);
      Run([plan[0]] + rest.done, rest.error)
  }

  /**
   * A plan completes exactly when the camera refuses none of its fields;
   * otherwise it raises the refusal of the first refused field, having made
   * exactly the writes before it.
   */
  lemma {:induction false} AttemptStopsAtFirstRefusal(plan: seq<Write>, rejects: map<string, string>)
    ensures Attempt(plan, rejects).error.None? <==> forall k :: 0 <= k < |plan| ==> plan[k].field !in rejects
    ensures Attempt(plan, rejects).error.None? ==> Attempt(plan, rejects).done == plan
    ensures Attempt(plan, rejects).error.Some? ==> exists k :: 0 <= k < |plan| && FirstRefusal(plan, rejects, k)
    decreases |plan|
  {
    if plan != [] && plan[0].field !in rejects {
      AttemptStopsAtFirstRefusal(plan[1..], rejects);
      var r := Attempt(plan[1..], rejects);
      if r.error.None? {
        assert forall k :: 1 <= k < |plan| ==> plan[k] == plan[1..][k - 1];
        assert [plan[0]] + plan[1..] == plan;
      } else {
        var k :| 0 <= k < |plan[1..]| && FirstRefusal(plan[1..], rejects, k);
        assert plan[..k + 1] == [plan[0]] + plan[1..][..k];
        assert FirstRefusal(plan, rejects, k + 1);
      }
    } else if plan != [] {
      assert FirstRefusal(plan, rejects, 0);
    }
  }

  /** Write `k` of `plan` is the first refused one, and the run stopped there. */
  ghost predicate FirstRefusal(plan: seq<Write>, rejects: map<string, string>, k: nat) {
    && k < |plan|
    && plan[k].field in rejects
    && (forall j :: 0 <= j < k ==> plan[j].field !in rejects)
    && Attempt(plan, rejects) == Run(plan[..k], Some(rejects[plan[k].field]))
  }

  /** Running `b` after `a`, unless `a` raised. */
  function Then(a: Run, b: Run): Run {
    if a.error.Some? then a else Run(a.done + b.done, b.error)
  }

  /** One `_set_config` call on a camera that is present. */
  function Step(field: string, value: ConfigValue, rejects: map<string, string>): Run {
    if field in rejects then Run([], Some(rejects[field])) else Run([Write(field, value)], None)
  }

  /** `if value: _set_config(field, value)`. */
  function OptionalStep(field: string, value: string, rejects: map<string, string>): Run {
    if value != "" then Step(field, Str(value), rejects) else Run([], None)
  }

  lemma AttemptOptional(field: string, value: string, rejects: map<string, string>)
    ensures Attempt(Optional(field, value), rejects) == OptionalStep(field, value, rejects)
  {
    if value != "" {
      assert Optional(field, value)[1..] == [];
    }
  }

  lemma AttemptSingle(w: Write, rejects: map<string, string>)
    ensures Attempt([w], rejects) == Step(w.field, w.value, rejects)
  {
    assert [w][1..] == [];
  }

  lemma {:induction false} AttemptAppend(a: seq<Write>, b: seq<Write>, rejects: map<string, string>)
    ensures Attempt(a + b, rejects) == Then(Attempt(a, rejects), Attempt(b, rejects))
    decreases |a|
  {
    if a == [] {
      assert a + b == b;
    } else if a[0].field in rejects {
      assert (a + b)[0] == a[0];
    } else {
      assert (a + b)[0] == a[0];
      assert (a + b)[1..] == a[1..] + b;
      AttemptAppend(a[1..], b, rejects);
      var rest, second := Attempt(a[1..], rejects), Attempt(b, rejects);
      if rest.error.None? {
        assert [a[0]] + (rest.done + second.done) == [a[0]] + rest.done + second.done;
      }
    }
  }

  lemma AppendAssoc(a: seq<Write>, b: seq<Write>, c: seq<Write>, d: seq<Write>)
    ensures a + b + c + d == a + (b + c + d)
    ensures a + b + c == a + (b + c + [])
  {
  }

  function Optional(field: string, value: string): seq<Write> {
    if value != "" then [Write(field, Str(value))] else []
  }

  /** The writes `_configure_for_liveview` must make; a failure of any of them escapes. */
  function LiveviewPlan(c: CameraConfig): seq<Write> {
    Optional("iso", c.isoLiveview) + Optional("shutterspeed", c.shutterSpeedLiveview) + [Write("viewfinder", Int(1))]
  }

  /** `_configure_for_liveview` up to the viewfinder, call by call. */
  function LiveviewRun(c: CameraConfig, rejects: map<string, string>): Run {
    Then(Then(OptionalStep("iso", c.isoLiveview, rejects), OptionalStep("shutterspeed", c.shutterSpeedLiveview, rejects)),
         Step("viewfinder", Int(1), rejects))
  }

  /** The writes `_configure_for_liveview` makes: those of its run, then the movie-mode switch when asked for and accepted. */
  function LiveviewWrites(c: CameraConfig, rejects: map<string, string>): seq<Write> {
    var run := LiveviewRun(c, rejects);
    run.done + (if run.error.None? && c.canonEosmoviemode && "eosmoviemode" !in rejects then [Write("eosmoviemode", Str("1"))] else [])
  }

  /** Live-view configuration runs its plan and stops at the first refused write. */
  lemma LiveviewRunSteps(c: CameraConfig, rejects: map<string, string>)
    ensures LiveviewRun(c, rejects) == Attempt(LiveviewPlan(c), rejects)
  {
    var isoPart := Optional("iso", c.isoLiveview);
    var shutterPart := Optional("shutterspeed", c.shutterSpeedLiveview);
    AttemptAppend(isoPart + shutterPart, [Write("viewfinder", Int(1))], rejects);
    AttemptAppend(isoPart, shutterPart, rejects);
    AttemptOptional("iso", c.isoLiveview, rejects);
    AttemptOptional("shutterspeed", c.shutterSpeedLiveview, rejects);
    AttemptSingle(Write("viewfinder", Int(1)), rejects);
  }

  /** The writes inside the exposure-mode `try` of `_configure_for_capture`. */
  function ExposurePlan(c: CameraConfig): seq<Write> {
    if c.exposureMode == "P" then [Write("autoexposuremode", Str("P"))]
    else if c.exposureMode == "TV" then [Write("autoexposuremode", Str("TV"))] + Optional("shutterspeed", c.shutterSpeedCapture)
    else if c.exposureMode == "AV" then [Write("autoexposuremode", Str("AV"))]
    else [Write("autoexposuremode", Str("Manual"))] + Optional("iso", c.isoCapture) + Optional("shutterspeed", c.shutterSpeedCapture)
  }

  /** The manual settings written when the exposure-mode block fails; their failure escapes. */
  function FallbackPlan(c: CameraConfig): seq<Write> {
    Optional("iso", c.isoCapture) + Optional("shutterspeed", c.shutterSpeedCapture)
  }

  /** The `except` branch of the exposure block, call by call. */
  function FallbackRun(c: CameraConfig, rejects: map<string, string>): Run {
    Then(OptionalStep("iso", c.isoCapture, rejects), OptionalStep("shutterspeed", c.shutterSpeedCapture, rejects))
  }

  /** The exposure block, call by call, dispatched on the configured mode. */
  function ExposureRun(c: CameraConfig, rejects: map<string, string>): Run {
    if c.exposureMode in {"P", "AV"} then Step("autoexposuremode", Str(c.exposureMode), rejects)
    else if c.exposureMode == "TV" then
      Then(Step("autoexposuremode", Str("TV"), rejects), OptionalStep("shutterspeed", c.shutterSpeedCapture, rejects))
    else
      Then(Then(Step("autoexposuremode", Str("Manual"), rejects), OptionalStep("iso", c.isoCapture, rejects)),
           OptionalStep("shutterspeed", c.shutterSpeedCapture, rejects))
  }

  lemma FallbackRunSteps(c: CameraConfig, rejects: map<string, string>)
    ensures FallbackRun(c, rejects) == Attempt(FallbackPlan(c), rejects)
  {
    AttemptAppend(Optional("iso", c.isoCapture), Optional("shutterspeed", c.shutterSpeedCapture), rejects);
    AttemptOptional("iso", c.isoCapture, rejects);
    AttemptOptional("shutterspeed", c.shutterSpeedCapture, rejects);
  }

  /** The exposure block runs its plan and stops at the first refused write. */
  lemma ExposureRunSteps(c: CameraConfig, rejects: map<string, string>)
    ensures ExposureRun(c, rejects) == Attempt(ExposurePlan(c), rejects)
  {
    var shutterPart := Optional("shutterspeed", c.shutterSpeedCapture);
    var isoPart := Optional("iso", c.isoCapture);
    AttemptOptional("iso", c.isoCapture, rejects);
    AttemptOptional("shutterspeed", c.shutterSpeedCapture, rejects);
    if c.exposureMode in {"P", "AV"} {
      AttemptSingle(Write("autoexposuremode", Str(c.exposureMode)), rejects);
    } else if c.exposureMode == "TV" {
      AttemptSingle(Write("autoexposuremode", Str("TV")), rejects);
      AttemptAppend([Write("autoexposuremode", Str("TV"))], shutterPart, rejects);
    } else {
      var manual := [Write("autoexposuremode", Str("Manual"))];
      AttemptSingle(manual[0], rejects);
      AttemptAppend(manual + isoPart, shutterPart, rejects);
      AttemptAppend(manual, isoPart, rejects);
    }
  }

  /** The exposure mode the camera is put in: P, TV and AV by name, anything else manual. */
  function ModeName(mode: string): string {
    if mode in {"P", "TV", "AV"} then mode else "Manual"
  }

  /**
   * The exposure block first sets the mode; it sets the capture ISO only in
   * manual mode, and the capture shutter speed only in shutter priority or
   * manual mode, and only when those settings are non-empty.
   */
  lemma ExposureDispatch(c: CameraConfig)
    ensures ExposurePlan(c)[0] == Write("autoexposuremode", Str(ModeName(c.exposureMode)))
    ensures forall k :: 0 < k < |ExposurePlan(c)| ==> ExposurePlan(c)[k].field != "autoexposuremode"
    ensures (exists k :: 0 <= k < |ExposurePlan(c)| && ExposurePlan(c)[k] == Write("iso", Str(c.isoCapture))) <==>
      c.exposureMode !in {"P", "TV", "AV"} && c.isoCapture != ""
    ensures (exists k :: 0 <= k < |ExposurePlan(c)| && ExposurePlan(c)[k] == Write("shutterspeed", Str(c.shutterSpeedCapture))) <==>
      c.exposureMode !in {"P", "AV"} && c.shutterSpeedCapture != ""
  {
    var p := ExposurePlan(c);
    if c.exposureMode !in {"P", "TV", "AV"} {
      if c.isoCapture != "" {
        assert p[1] == Write("iso", Str(c.isoCapture));
      }
      if c.shutterSpeedCapture != "" {
        assert p[|p| - 1] == Write("shutterspeed", Str(c.shutterSpeedCapture));
      }
    } else if c.exposureMode == "TV" && c.shutterSpeedCapture != "" {
      assert p[1] == Write("shutterspeed", Str(c.shutterSpeedCapture));
    }
  }

  /** The exposure block with its `except` branch: a refusal there leads to the manual fallback. */
  function ExposureWithFallback(c: CameraConfig, rejects: map<string, string>): Run {
    var mode := ExposureRun(c, rejects);
    if mode.error.None? then mode
    else var fb := FallbackRun(c, rejects); Run(mode.done + fb.done, fb.error)
  }

  /** The viewfinder write before the exposure block; a refusal is ignored. */
  function CapturePre(c: CameraConfig, rejects: map<string, string>): seq<Write> {
    if c.disableViewfinderBeforeCapture && "viewfinder" !in rejects then [Write("viewfinder", Int(0))] else []
  }

  /** The movie-mode write after a successful exposure block; a refusal is ignored. */
  function CapturePost(c: CameraConfig, rejects: map<string, string>): seq<Write> {
    if c.canonEosmoviemode && "eosmoviemode" !in rejects then [Write("eosmoviemode", Str("0"))] else []
  }

  /** The writes and error of the whole `_configure_for_capture`. */
  function CaptureRun(c: CameraConfig, rejects: map<string, string>): Run {
    var main := ExposureWithFallback(c, rejects);
    Run(CapturePre(c, rejects) + main.done + (if main.error.None? then CapturePost(c, rejects) else []), main.error)
  }

  /**
   * Switching to capture mode raises only when the exposure block fails and
   * then writing the manual ISO or shutter speed fails too, with that
   * refusal; a refused viewfinder, exposure mode or movie mode never escapes.
   */
  lemma CaptureConfigErrors(c: CameraConfig, rejects: map<string, string>)
    ensures CaptureRun(c, rejects).error.Some? ==>
      && Attempt(ExposurePlan(c), rejects).error.Some?
      && exists f :: f in {"iso", "shutterspeed"} && f in rejects && CaptureRun(c, rejects).error == Some(rejects[f])
    ensures (forall k :: 0 <= k < |ExposurePlan(c)| ==> ExposurePlan(c)[k].field !in rejects) ==> CaptureRun(c, rejects).error.None?
  {
    ExposureRunSteps(c, rejects);
    FallbackRunSteps(c, rejects);
    AttemptStopsAtFirstRefusal(ExposurePlan(c), rejects);
    AttemptStopsAtFirstRefusal(FallbackPlan(c), rejects);
    if CaptureRun(c, rejects).error.Some? {
      var p := FallbackPlan(c);
      var k :| 0 <= k < |p| && FirstRefusal(p, rejects, k);
      assert p[k].field in {"iso", "shutterspeed"};
    }
  }

  /** With the defaults live view sets ISO 1600, shutter 1/60 and the viewfinder, in that order. */
  lemma DefaultLiveviewPlan()
    ensures LiveviewPlan(DefaultConfig) ==
      [Write("iso", Str("1600")), Write("shutterspeed", Str("1/60")), Write("viewfinder", Int(1))]
  {
  }

  /** The live-view plan always ends by turning the viewfinder on. */
  lemma LiveviewEndsWithViewfinder(c: CameraConfig)
    ensures |LiveviewPlan(c)| >= 1 && LiveviewPlan(c)[|LiveviewPlan(c)| - 1] == Write("viewfinder", Int(1))
  {
  }

  // ---------------------------------------------------------------------------
  // Frames and captured files

  /** What one `capture_preview` did: frame bytes, or an exception (type name and text). */
  datatype Preview = Frame(data: seq<bv8>) | PreviewFailure(kind: string, message: string)

  datatype CameraFile = CameraFile(folder: string, name: string)

  /** One `wait_for_event` result before the timeout; a failure raises out of the event loop. */
  datatype Event = FileAdded(file: CameraFile) | OtherEvent | EventFailure(message: string)

  /** The files the event loop appends, up to the first failure. */
  function AddedFiles(events: seq<Event>): seq<CameraFile> {
    if events == [] || events[0].EventFailure? then []
    else (if events[0].FileAdded? then [events[0].file] else []) + AddedFiles(events[1..])
  }

  /** The first event failure, if any. */
  function EventError(events: seq<Event>): Option<string> {
    if events == [] then None
    else if events[0].EventFailure? then Some(events[0].message)
    else EventError(events[1..])
  }

  /** A file name ending in .jpg or .jpeg, in any letter case. */
  predicate IsJpegName(name: string) {
    EndsWith(Lower(name), ".jpg") || EndsWith(Lower(name), ".jpeg")
  }

  /** Upper-case extensions count: any name ending in ".JPG" is a JPEG. */
  lemma UpperCaseJpeg(stem: string)
    ensures IsJpegName(stem + ".JPG")
  {
    LowerAppend(stem, ".JPG");
    assert Lower(".JPG") == ".jpg";
    var l := Lower(stem) + ".jpg";
    assert l[|l| - 4..] == ".jpg";
  }

  /** The first file with a JPEG name, by index. */
  ghost predicate FirstJpeg(files: seq<CameraFile>, k: nat) {
    k < |files| && IsJpegName(files[k].name) && forall j :: 0 <= j < k ==> !IsJpegName(files[j].name)
  }

  /** The `for ... break` search for the file to download. */
  method FindJpeg(files: seq<CameraFile>) returns (k: Option<nat>)
    ensures k.Some? ==> FirstJpeg(files, k.value)
    ensures k.None? <==> forall j :: 0 <= j < |files| ==> !IsJpegName(files[j].name)
  {
    var i := 0;
    while i < |files|
      invariant 0 <= i <= |files|
      invariant forall j :: 0 <= j < i ==> !IsJpegName(files[j].name)
    {
      if IsJpegName(files[i].name) {
        return Some(i);
      }
      i := i + 1;
    }
    return None;
  }

  /** Some file has a JPEG name. */
  predicate HasJpeg(files: seq<CameraFile>) {
    exists j :: 0 <= j < |files| && IsJpegName(files[j].name)
  }

  const NoJpegCaptured := CaptureResult(false, None, None, Some("No JPEG file captured"), None)

  /**
   * The `try` block of `capture_photo`: switch to capture mode, shoot
   * (`shot`), drain the events, pick a JPEG, download it (`download`) and
   * read the metadata. `Err` is the exception that escapes the block.
   */
  function CaptureOutcome(c: CameraConfig, rejects: map<string, string>, readings: map<string, string>,
                          outputPath: string, timestamp: string,
                          shot: Result<CameraFile>, events: seq<Event>, download: Status): Result<CaptureResult>
  {
    var configured := CaptureRun(c, rejects).error;
    if configured.Some? then Err(configured.value)
    else if shot.Err? then Err(shot.error)
    else if EventError(events).Some? then Err(EventError(events).value)
    else if !HasJpeg([shot.value] + AddedFiles(events)) then Ok(NoJpegCaptured)
    else if download.Failure? then Err(download.error)
    else Ok(CaptureResult(true, Some(outputPath), Some(CaptureMetadata(readings, timestamp)), None, None))
  }

  /**
   * What `capture_photo` returns once its `except` has turned an escaping
   * exception into a failed result: a success carries the output path and
   * the metadata; a failure always has an error text, and its type is
   * `AUTOFOCUS_FAILED` exactly for autofocus exceptions. The capture
   * succeeds exactly when every step does and a JPEG is among the files.
   */
  function CaptureResultOf(c: CameraConfig, rejects: map<string, string>, readings: map<string, string>,
                           outputPath: string, timestamp: string,
                           shot: Result<CameraFile>, events: seq<Event>, download: Status): (r: CaptureResult)
    ensures r.success ==>
      r.imagePath == Some(outputPath) && r.metadata == Some(CaptureMetadata(readings, timestamp)) && r.error.None? && r.errorType.None?
    ensures !r.success ==> r.error.Some? && r.imagePath.None? && r.metadata.None?
    ensures r.errorType.Some? ==> r.errorType == Some(AutofocusFailed) && IsAutofocusFailure(r.error.value)
    ensures r.success <==>
      && CaptureRun(c, rejects).error.None? && shot.Ok? && EventError(events).None?
      && HasJpeg([shot.value] + AddedFiles(events)) && download.Success?
    ensures CaptureRun(c, rejects).error.Some? ==> r == FailedCapture(CaptureRun(c, rejects).error.value)
    ensures CaptureRun(c, rejects).error.None? ==>
      && (shot.Err? ==> r == FailedCapture(shot.error))
      && (shot.Ok? && EventError(events).Some? ==> r == FailedCapture(EventError(events).value))
      && (shot.Ok? && EventError(events).None? && !HasJpeg([shot.value] + AddedFiles(events)) ==> r == NoJpegCaptured)
      && (shot.Ok? && EventError(events).None? && HasJpeg([shot.value] + AddedFiles(events)) && download.Failure? ==>
            r == FailedCapture(download.error))
    ensures !r.success && r != NoJpegCaptured ==> r == FailedCapture(r.error.value)
  {
    match CaptureOutcome(c, rejects, readings, outputPath, timestamp, shot, events, download)
    case Ok(v) => v
    case Err(e) => FailedCapture(e)
  }

  /** Two adjacent characters of a contained `sub` occur, adjacent, in the text. */
  lemma ContainedPair(e: string, sub: string, k: nat)
    requires k + 1 < |sub|
    ensures Contains(e, sub) ==> exists j :: 0 <= j < |e| - 1 && e[j] == sub[k] && e[j + 1] == sub[k + 1]
  {
    ContainsIffOccurs(e, sub);
    if Contains(e, sub) {
      var i :| OccursAt(e, sub, i);
      assert e[i..i + |sub|][k] == e[i + k] && e[i..i + |sub|][k + 1] == e[i + k + 1];
    }
  }

  /** A message with no "s" and no "a" before an "f" mentions none of the autofocus keywords. */
  lemma NotAutofocusWithout(m: string)
    requires 's' !in m && 'S' !in m
    requires forall i :: 0 <= i < |m| - 1 && LowerChar(m[i]) == 'a' ==> LowerChar(m[i + 1]) != 'f'
    ensures !IsAutofocusFailure(m)
  {
    var e := Lower(m);
    forall j | 0 <= j < |e| ensures e[j] != 's' {
      assert m[j] in m;
    }
    ContainedPair(e, "focus", 3);
    ContainedPair(e, "lens not attached", 2);
    ContainedPair(e, "af failed", 0);
    AutofocusFailureIff(m);
  }

  /** The "No JPEG file captured" result is not an autofocus failure, so it is the untagged failure with that text. */
  lemma NoJpegIsUntaggedFailure()
    ensures NoJpegCaptured == FailedCapture("No JPEG file captured")
  {
    var m := NoJpegCaptured.error.value;
    forall i | 0 <= i < |m| - 1 && LowerChar(m[i]) == 'a' ensures LowerChar(m[i + 1]) != 'f' {
      assert i == 14;
    }
    NotAutofocusWithout(m);
  }

  /**
   * Every failed capture is the failure built from its error text, and it
   * is tagged `AUTOFOCUS_FAILED` exactly when that text is an autofocus
   * failure.
   */
  lemma CaptureTaggedIff(c: CameraConfig, rejects: map<string, string>, readings: map<string, string>,
                         outputPath: string, timestamp: string,
                         shot: Result<CameraFile>, events: seq<Event>, download: Status)
    ensures var r := CaptureResultOf(c, rejects, readings, outputPath, timestamp, shot, events, download);
      && (!r.success ==> r == FailedCapture(r.error.value))
      && (r.errorType == Some(AutofocusFailed) <==> !r.success && IsAutofocusFailure(r.error.value))
  {
    NoJpegIsUntaggedFailure();
  }

  /** `time_since_last < 1 / frame_rate_cap`, with times in ms; `cap` is not zero. */
  predicate TooSoon(elapsedMs: int, cap: int)
    requires cap != 0
  {
    if cap > 0 then elapsedMs * cap < 1000 else elapsedMs * cap > 1000
  }

  /** The integer gate is the source's comparison of seconds with the frame period. */
  lemma TooSoonMeaning(elapsedMs: int, cap: int)
    requires cap != 0
    ensures TooSoon(elapsedMs, cap) <==> (elapsedMs as real) / 1000.0 < 1.0 / (cap as real)
  {
    var e := elapsedMs as real;
    var c := cap as real;
    assert (e * c) == (elapsedMs * cap) as real;
    if cap > 0 {
      assert e / 1000.0 < 1.0 / c <==> e * c < 1000.0;
    } else {
      assert e / 1000.0 < 1.0 / c <==> e * c > 1000.0;
    }
  }

  /** The part of the backend a frame request reads and changes: live view, the last frame's time and the error count. */
  datatype FrameState = FrameState(active: bool, lastFrameTimeMs: int, consecutiveErrors: nat)

  /** What one frame request returns, and the state it leaves. */
  datatype FrameReply = FrameReply(result: Result<Option<seq<bv8>>>, next: FrameState)

  /**
   * `get_liveview_frame` on a connected backend whose frame rate cap is
   * `cap`: a frame is returned exactly when live view is on, the cap is
   * not zero, the rate gate is open and the preview is a frame of at least
   * the minimum size; an error is raised exactly when live view is off,
   * the cap is zero, or a preview failure spends the last of the error
   * budget, which turns live view off. A returned frame clears the error
   * count and stamps the frame time.
   */
  function FrameRequest(cap: int, s: FrameState, nowMs: int, preview: Preview): (q: FrameReply)
    ensures q.result.Ok? && q.result.value.Some? <==>
      s.active && cap != 0 && !TooSoon(nowMs - s.lastFrameTimeMs, cap) && preview.Frame? && |preview.data| >= MinFrameBytes
    ensures q.result.Ok? && q.result.value.Some? ==>
      q.result.value.value == preview.data && q.next == FrameState(true, nowMs, 0)
    ensures q.result.Err? <==>
      !s.active || cap == 0 ||
      (!TooSoon(nowMs - s.lastFrameTimeMs, cap) && preview.PreviewFailure? && s.consecutiveErrors + 1 >= MaxConsecutiveErrors)
    ensures q.next.active <==> s.active && (cap == 0 || q.result.Ok?)
    ensures q.result == Ok(None) ==> q.next.lastFrameTimeMs == s.lastFrameTimeMs
  {
    if !s.active then FrameReply(Err("Live view not active"), s)
    else if cap == 0 then FrameReply(Err("float division by zero"), s)
    else if TooSoon(nowMs - s.lastFrameTimeMs, cap) then FrameReply(Ok(None), s)
    else match preview
      case Frame(data) =>
        if |data| < MinFrameBytes then FrameReply(Ok(None), s)
        else FrameReply(Ok(Some(data)), FrameState(true, nowMs, 0))
      case PreviewFailure(kind, message) =>
        var errors := s.consecutiveErrors + 1;
        if errors >= MaxConsecutiveErrors then FrameReply(Err(ThresholdError(kind, message)), FrameState(false, s.lastFrameTimeMs, errors))
        else FrameReply(Ok(None), FrameState(true, s.lastFrameTimeMs, errors))
  }

  // ---------------------------------------------------------------------------
  // The backend

  class GPhoto2Backend {
    var config: CameraConfig
    /** Fields the camera refuses to set, with the driver's error text. */
    const rejects: map<string, string>
    /** Fields the camera reports, with their values. */
    const readings: map<string, string>

    /** `_camera is not None`. */
    var hasCamera: bool
    var initialized: bool
    var connected: bool
    var liveviewActive: bool

    // `_liveview_stats` (the fps average is not modelled)
    var frameCount: nat
    var droppedFrames: nat
    var lastFrameTimeMs: int
    var captureCount: nat

    var lastFrameRequestMs: Option<int>
    var consecutiveErrors: nat

    /** The configuration writes the camera has accepted, in order. */
    ghost var sent: seq<Write>

    /** The flags move together and live view is only on while connected. */
    ghost predicate Valid()
      reads this
    {
      && connected == initialized
      && (initialized ==> hasCamera)
      && (liveviewActive ==> IsConnected())
    }

    /** Live view is never on with the consecutive-error budget already spent. */
    predicate ErrorBudgetLeft()
      reads this
    {
      liveviewActive ==> consecutiveErrors < MaxConsecutiveErrors
    }

    /** The fields a frame request reads and changes. */
    function FrameSnap(): FrameState
      reads this
    {
      FrameState(liveviewActive, lastFrameTimeMs, consecutiveErrors)
    }

    /** `is_connected`. */
    predicate IsConnected()
      reads this
    {
      connected && initialized && hasCamera
    }

    constructor (config: Option<CameraConfig>, rejects: map<string, string>, readings: map<string, string>)
      ensures Valid() && ErrorBudgetLeft() && !IsConnected() && !liveviewActive && !hasCamera
      ensures this.config == (if config.Some? then config.value else DefaultConfig)
      ensures this.rejects == rejects && this.readings == readings
      ensures frameCount == 0 && droppedFrames == 0 && captureCount == 0 && lastFrameTimeMs == 0
      ensures consecutiveErrors == 0 && lastFrameRequestMs.None? && sent == []
    {
      this.config := if config.Some? then config.value else DefaultConfig;
      this.rejects := rejects;
      this.readings := readings;
      hasCamera := false;
      initialized := false;
      connected := false;
      liveviewActive := false;
      frameCount := 0;
      droppedFrames := 0;
      lastFrameTimeMs := 0;
      captureCount := 0;
      lastFrameRequestMs := None;
      consecutiveErrors := 0;
      sent := [];
    }

    /** `_set_config`: refused without a camera or when the camera rejects the field. */
    method SetConfig(field: string, value: ConfigValue) returns (err: Option<string>)
      modifies this`sent
      ensures !hasCamera ==> err == Some("Camera not initialized") && sent == old(sent)
      ensures hasCamera ==> err == (if field in rejects then Some(rejects[field]) else None)
      ensures sent == old(sent) + (if err.None? then [Write(field, value)] else [])
    {
      if !hasCamera {
        return Some("Camera not initialized");
      }
      if field in rejects {
        return Some(rejects[field]);
      }
      sent := sent + [Write(field, value)];
      return None;
    }

    /** `if value: _set_config(field, value)` on a camera that is present. */
    method SetOptional(field: string, value: string) returns (err: Option<string>)
      requires hasCamera
      modifies this`sent
      ensures err == OptionalStep(field, value, rejects).error
      ensures sent == old(sent) + OptionalStep(field, value, rejects).done
    {
      err := None;
      if value != "" {
        err := SetConfig(field, Str(value));
      }
    }

    /** `_configure_for_liveview`: the plan's writes until a refusal escapes, then the optional movie mode. */
    method ConfigureForLiveview() returns (err: Option<string>)
      requires hasCamera
      modifies this`sent
      ensures var run := LiveviewRun(config, rejects);
        && err == run.error
        && sent == old(sent) + run.done +
             (if run.error.None? && config.canonEosmoviemode && "eosmoviemode" !in rejects
              then [Write("eosmoviemode", Str("1"))] else [])
    {
      err := SetOptional("iso", config.isoLiveview);
      ghost var run := OptionalStep("iso", config.isoLiveview, rejects);
      if err.Some? {
        return;
      }
      err := SetOptional("shutterspeed", config.shutterSpeedLiveview);
      run := Then(run, OptionalStep("shutterspeed", config.shutterSpeedLiveview, rejects));
      if err.Some? {
        return;
      }
      err := SetConfig("viewfinder", Int(1));
      run := Then(run, Step("viewfinder", Int(1), rejects));
      assert sent == old(sent) + run.done && err == run.error;
      if err.Some? {
        return;
      }
      if config.canonEosmoviemode {
        var ignored := SetConfig("eosmoviemode", Str("1"));
      }
    }

    /** The exposure-mode block of `_configure_for_capture`, before its `except`. */
    method SetExposureMode() returns (err: Option<string>)
      requires hasCamera
      modifies this`sent
      ensures var run := ExposureRun(config, rejects);
        err == run.error && sent == old(sent) + run.done
    {
      if config.exposureMode == "P" || config.exposureMode == "AV" {
        err := SetConfig("autoexposuremode", Str(config.exposureMode));
      } else if config.exposureMode == "TV" {
        err := SetConfig("autoexposuremode", Str("TV"));
        ghost var run := Step("autoexposuremode", Str("TV"), rejects);
        if err.Some? {
          return;
        }
        if config.shutterSpeedCapture != "" {
          err := SetConfig("shutterspeed", Str(config.shutterSpeedCapture));
        }
        run := Then(run, OptionalStep("shutterspeed", config.shutterSpeedCapture, rejects));
        assert sent == old(sent) + run.done && err == run.error;
      } else {
        err := SetManualMode();
      }
    }

    /** The manual-mode branch of the exposure block: the mode, then the ISO and shutter speed when set. */
    method SetManualMode() returns (err: Option<string>)
      requires hasCamera
      modifies this`sent
      ensures var run := Then(Then(Step("autoexposuremode", Str("Manual"), rejects), OptionalStep("iso", config.isoCapture, rejects)),
                              OptionalStep("shutterspeed", config.shutterSpeedCapture, rejects));
        err == run.error && sent == old(sent) + run.done
    {
      err := SetConfig("autoexposuremode", Str("Manual"));
      ghost var run := Step("autoexposuremode", Str("Manual"), rejects);
      if err.Some? {
        return;
      }
      if config.isoCapture != "" {
        err := SetConfig("iso", Str(config.isoCapture));
      }
      run := Then(run, OptionalStep("iso", config.isoCapture, rejects));
      if err.Some? {
        return;
      }
      if config.shutterSpeedCapture != "" {
        err := SetConfig("shutterspeed", Str(config.shutterSpeedCapture));
      }
      run := Then(run, OptionalStep("shutterspeed", config.shutterSpeedCapture, rejects));
      assert sent == old(sent) + run.done && err == run.error;
    }

    /** The `except` branch of the exposure block: the manual ISO and shutter speed, whose refusal escapes. */
    method SetManualFallback() returns (err: Option<string>)
      requires hasCamera
      modifies this`sent
      ensures var run := FallbackRun(config, rejects);
        err == run.error && sent == old(sent) + run.done
    {
      err := None;
      if config.isoCapture != "" {
        err := SetConfig("iso", Str(config.isoCapture));
      }
      ghost var run := OptionalStep("iso", config.isoCapture, rejects);
      if err.Some? {
        return;
      }
      if config.shutterSpeedCapture != "" {
        err := SetConfig("shutterspeed", Str(config.shutterSpeedCapture));
      }
      run := Then(run, OptionalStep("shutterspeed", config.shutterSpeedCapture, rejects));
      assert sent == old(sent) + run.done && err == run.error;
    }

    /** The exposure `try` of `_configure_for_capture` with its `except` branch. */
    method SetExposure() returns (err: Option<string>)
      requires hasCamera
      modifies this`sent
      ensures var run := ExposureWithFallback(config, rejects);
        err == run.error && sent == old(sent) + run.done
    {
      err := SetExposureMode();
      ghost var afterMode := sent;
      if err.Some? {
        err := SetManualFallback();
        assert sent == old(sent) + (ExposureRun(config, rejects).done + FallbackRun(config, rejects).done);
      }
    }

    /** `_configure_for_capture`. */
    method ConfigureForCapture() returns (err: Option<string>)
      requires hasCamera
      modifies this`sent
      ensures var run := CaptureRun(config, rejects);
        err == run.error && sent == old(sent) + run.done
    {
      if config.disableViewfinderBeforeCapture {
        var ignored := SetConfig("viewfinder", Int(0));
      }
      ghost var pre := CapturePre(config, rejects);
      assert sent == old(sent) + pre;
      ghost var main := ExposureWithFallback(config, rejects);
      err := SetExposure();
      if err.Some? {
        AppendAssoc(old(sent), pre, main.done, []);
        return;
      }
      ghost var mid := sent;
      if config.canonEosmoviemode {
        var ignored := SetConfig("eosmoviemode", Str("0"));
      }
      ghost var post := CapturePost(config, rejects);
      assert sent == mid + post;
      AppendAssoc(old(sent), pre, main.done, post);
    }

    /**
     * `initialize`: raises when the gphoto2 library is missing; does nothing
     * when already initialized; otherwise creates the camera and, if the
     * driver's initialisation (`initError`) and the live-view settings
     * succeed, marks the backend initialized and connected; any failure
     * cleans up and re-raises. A refused capture target is ignored.
     */
    method Initialize(libraryAvailable: bool, initError: Option<string>) returns (st: Status)
      requires Valid()
      modifies this
      ensures Valid() && (old(ErrorBudgetLeft()) ==> ErrorBudgetLeft())
      ensures config == old(config)
      ensures !libraryAvailable ==>
        st == Failure("python-gphoto2 not installed. Install with: pip install python-gphoto2") && unchanged(this)
      ensures libraryAvailable && old(initialized) ==> st == Success && unchanged(this)
      ensures libraryAvailable && !old(initialized) ==>
        var configured := LiveviewRun(config, rejects).error;
        && (initError.Some? ==> st == Failure(initError.value))
        && (initError.None? && configured.Some? ==> st == Failure(configured.value))
        && (st == Success <==> initError.None? && configured.None?)
        && (st == Success ==> IsConnected() && liveviewActive == old(liveviewActive))
        && (st.Failure? ==> !IsConnected() && !hasCamera && !liveviewActive)
      ensures frameCount == old(frameCount) && captureCount == old(captureCount) && consecutiveErrors == old(consecutiveErrors)
    {
      if !libraryAvailable {
        return Failure("python-gphoto2 not installed. Install with: pip install python-gphoto2");
      }
      if initialized {
        return Success;
      }
      hasCamera := true;
      if initError.Some? {
        Cleanup();
        return Failure(initError.value);
      }
      var ignored := SetConfig("capturetarget", Str("sdram"));
      var err := ConfigureForLiveview();
      if err.Some? {
        Cleanup();
        return Failure(err.value);
      }
      initialized := true;
      connected := true;
      return Success;
    }

    /** `cleanup`: always ends disconnected, without a camera and with live view off (a failing `exit` is ignored). */
    method Cleanup()
      modifies this
      ensures Valid() && ErrorBudgetLeft()
      ensures !liveviewActive && !hasCamera && !initialized && !connected
      ensures config == old(config) && sent == old(sent) && consecutiveErrors == old(consecutiveErrors)
      ensures frameCount == old(frameCount) && captureCount == old(captureCount) && lastFrameTimeMs == old(lastFrameTimeMs)
      ensures droppedFrames == old(droppedFrames) && lastFrameRequestMs == old(lastFrameRequestMs)
    {
      liveviewActive := false;
      if hasCamera {
        hasCamera := false;
      }
      initialized := false;
      connected := false;
    }

    /**
     * `start_liveview` corrected: raises when not connected; does nothing
     * when live view is on; otherwise configures live view (a failure
     * escapes and leaves it off), then zeroes the statistics and, unlike the
     * source, the consecutive-error count, and turns it on.
     */
    method StartLiveview(nowMs: int) returns (st: Status)
      requires Valid()
      modifies this
      ensures Valid() && (old(ErrorBudgetLeft()) ==> ErrorBudgetLeft())
      ensures config == old(config) && hasCamera == old(hasCamera) && connected == old(connected) && initialized == old(initialized)
      ensures !old(IsConnected()) ==> st == Failure("Camera not connected") && unchanged(this)
      ensures old(IsConnected()) && old(liveviewActive) ==> st == Success && unchanged(this)
      ensures old(IsConnected()) && !old(liveviewActive) ==>
        && (st.Failure? <==> LiveviewRun(config, rejects).error.Some?)
        && (st.Failure? ==> !liveviewActive && frameCount == old(frameCount) && consecutiveErrors == old(consecutiveErrors))
        && (st == Success ==> liveviewActive && frameCount == 0 && droppedFrames == 0 && captureCount == 0
                              && lastFrameTimeMs == nowMs && consecutiveErrors == 0)
    {
      if !IsConnected() {
        return Failure("Camera not connected");
      }
      if liveviewActive {
        return Success;
      }
      var err := ConfigureForLiveview();
      if err.Some? {
        return Failure(err.value);
      }
      frameCount := 0;
      droppedFrames := 0;
      lastFrameTimeMs := nowMs;
      captureCount := 0;
      consecutiveErrors := 0;
      liveviewActive := true;
      return Success;
    }

    /**
     * `start_liveview` as the source writes it: raises when not connected;
     * does nothing when live view is on; otherwise configures live view (a
     * failure escapes and leaves it off), then zeroes the statistics and
     * turns it on, leaving the consecutive-error count as it was.
     */
    method StartLiveviewAsWritten(nowMs: int) returns (st: Status)
      requires Valid()
      modifies this
      ensures Valid()
      ensures config == old(config) && IsConnected() == old(IsConnected())
      ensures consecutiveErrors == old(consecutiveErrors)
      ensures !old(IsConnected()) ==> st == Failure("Camera not connected") && unchanged(this)
      ensures old(IsConnected()) && old(liveviewActive) ==> st == Success && unchanged(this)
      ensures old(IsConnected()) && !old(liveviewActive) ==>
        && (st.Failure? <==> LiveviewRun(config, rejects).error.Some?)
        && (st.Failure? ==> !liveviewActive && st.error == LiveviewRun(config, rejects).error.value)
        && (st == Success ==> liveviewActive && frameCount == 0 && droppedFrames == 0 && captureCount == 0
                              && lastFrameTimeMs == nowMs)
    {
      if !IsConnected() {
        return Failure("Camera not connected");
      }
      if liveviewActive {
        return Success;
      }
      var err := ConfigureForLiveview();
      if err.Some? {
        return Failure(err.value);
      }
      frameCount := 0;
      droppedFrames := 0;
      lastFrameTimeMs := nowMs;
      captureCount := 0;
      liveviewActive := true;
      return Success;
    }

    /** `stop_liveview`: does nothing when off; otherwise turns live view off and tries to turn the viewfinder off. */
    method StopLiveview()
      requires Valid()
      modifies this
      ensures Valid() && ErrorBudgetLeft() && !liveviewActive
      ensures !old(liveviewActive) ==> unchanged(this)
      ensures IsConnected() == old(IsConnected()) && config == old(config)
      ensures frameCount == old(frameCount) && captureCount == old(captureCount) && consecutiveErrors == old(consecutiveErrors)
    {
      if !liveviewActive {
        return;
      }
      liveviewActive := false;
      var ignored := SetConfig("viewfinder", Int(0));
    }

    /**
     * `get_liveview_frame` at time `nowMs`, where `preview` is what the driver
     * does if asked: raises unless connected with live view on; returns `None`
     * without asking the driver when called too soon after the last frame, and
     * for frames under 1000 bytes; a good frame counts and clears the error
     * count; a failure counts an error, and the tenth in a row turns live view
     * off and raises.
     */
    method GetLiveviewFrame(nowMs: int, preview: Preview) returns (r: Result<Option<seq<bv8>>>)
      requires Valid()
      modifies this
      ensures Valid() && (old(ErrorBudgetLeft()) ==> ErrorBudgetLeft())
      ensures config == old(config) && IsConnected() == old(IsConnected()) && sent == old(sent)
      ensures captureCount == old(captureCount)
      ensures !(r.Ok? && r.value.Some?) ==> lastFrameTimeMs == old(lastFrameTimeMs)
      ensures !old(IsConnected()) ==> r == Err("Camera not connected") && unchanged(this)
      ensures old(IsConnected()) ==>
        var q := FrameRequest(config.frameRateCap, old(FrameSnap()), nowMs, preview);
        r == q.result && FrameSnap() == q.next
      ensures old(IsConnected()) && !old(liveviewActive) ==> r == Err("Live view not active") && unchanged(this)
      ensures old(IsConnected()) && old(liveviewActive) && config.frameRateCap == 0 ==>
        r == Err("float division by zero") && lastFrameRequestMs == Some(nowMs)
      ensures old(IsConnected()) && old(liveviewActive) && config.frameRateCap != 0 ==>
        && lastFrameRequestMs == Some(nowMs)
        && (TooSoon(nowMs - old(lastFrameTimeMs), config.frameRateCap) ==>
              r == Ok(None) && liveviewActive && frameCount == old(frameCount) && consecutiveErrors == old(consecutiveErrors))
        && (!TooSoon(nowMs - old(lastFrameTimeMs), config.frameRateCap) ==>
              match preview
              case Frame(data) =>
                && liveviewActive
                && (|data| < MinFrameBytes ==>
                      r == Ok(None) && frameCount == old(frameCount) && consecutiveErrors == old(consecutiveErrors))
                && (|data| >= MinFrameBytes ==>
                      r == Ok(Some(data)) && frameCount == old(frameCount) + 1 && consecutiveErrors == 0 && lastFrameTimeMs == nowMs)
              case PreviewFailure(kind, message) =>
                && consecutiveErrors == old(consecutiveErrors) + 1
                && frameCount == old(frameCount)
                && (consecutiveErrors >= MaxConsecutiveErrors ==>
                      !liveviewActive && r == Err(ThresholdError(kind, message)))
                && (consecutiveErrors < MaxConsecutiveErrors ==> liveviewActive && r == Ok(None)))
    {
      if !IsConnected() {
        return Err("Camera not connected");
      }
      if !liveviewActive {
        return Err("Live view not active");
      }
      lastFrameRequestMs := Some(nowMs);
      if config.frameRateCap == 0 {
        return Err("float division by zero");
      }
      if TooSoon(nowMs - lastFrameTimeMs, config.frameRateCap) {
        return Ok(None);
      }
      match preview {
        case Frame(data) =>
          if |data| < MinFrameBytes {
            return Ok(None);
          }
          lastFrameTimeMs := nowMs;
          frameCount := frameCount + 1;
          consecutiveErrors := 0;
          return Ok(Some(data));
        case PreviewFailure(kind, message) =>
          consecutiveErrors := consecutiveErrors + 1;
          if consecutiveErrors >= MaxConsecutiveErrors {
            liveviewActive := false;
            return Err(ThresholdError(kind, message));
          }
          return Ok(None);
      }
    }

    /** The `wait_for_event` loop: collects the added files after the captured one, until a failure. */
    method CollectFiles(captured: CameraFile, events: seq<Event>) returns (files: seq<CameraFile>, err: Option<string>)
      ensures files == [captured] + AddedFiles(events)
      ensures err == EventError(events)
    {
      files := [captured];
      var i := 0;
      while i < |events| && !events[i].EventFailure?
        invariant 0 <= i <= |events|
        invariant files + AddedFiles(events[i..]) == [captured] + AddedFiles(events)
        invariant EventError(events[i..]) == EventError(events)
      {
        assert events[i..][1..] == events[i + 1..];
        if events[i].FileAdded? {
          files := files + [events[i].file];
        }
        i := i + 1;
      }
      err := if i < |events| then Some(events[i].message) else None;
      if i == |events| {
        assert events[i..] == [];
      }
    }

    /** The `try` block of `capture_photo`, step by step. */
    method CaptureSteps(outputPath: string, timestamp: string, shot: Result<CameraFile>, events: seq<Event>, download: Status)
      returns (r: Result<CaptureResult>)
      requires hasCamera
      modifies this`sent, this`captureCount
      ensures r == CaptureOutcome(config, rejects, readings, outputPath, timestamp, shot, events, download)
      ensures captureCount == old(captureCount) + (if r.Ok? && r.value.success then 1 else 0)
      ensures sent == old(sent) + CaptureRun(config, rejects).done
    {
      var err := ConfigureForCapture();
      if err.Some? {
        return Err(err.value);
      }
      if shot.Err? {
        return Err(shot.error);
      }
      var files, eventErr := CollectFiles(shot.value, events);
      if eventErr.Some? {
        return Err(eventErr.value);
      }
      var k := FindJpeg(files);
      if k.None? {
        return Ok(NoJpegCaptured);
      }
      if download.Failure? {
        return Err(download.error);
      }
      captureCount := captureCount + 1;
      return Ok(CaptureResult(true, Some(outputPath), Some(CaptureMetadata(readings, timestamp)), None, None));
    }

    /**
     * `capture_photo`: when not connected, fails with "Camera not connected"
     * and changes nothing. Otherwise it pauses live view, runs the capture
     * steps and turns an escaping exception into a failed result; finally,
     * if live view was on, it reconfigures live view and turns it back on
     * with zeroed statistics (the capture count included) and error count.
     * `Err` is a failure of that reconfiguration, which escapes
     * `capture_photo` and leaves live view off.
     */
    method CapturePhoto(outputPath: string, nowMs: int, timestamp: string,
                        shot: Result<CameraFile>, events: seq<Event>, download: Status)
      returns (r: Result<CaptureResult>)
      requires Valid()
      modifies this`sent, this`liveviewActive, this`frameCount, this`droppedFrames, this`lastFrameTimeMs,
               this`captureCount, this`consecutiveErrors
      ensures Valid() && (old(ErrorBudgetLeft()) ==> ErrorBudgetLeft())
      ensures !old(IsConnected()) ==>
        r == Ok(CaptureResult(false, None, None, Some("Camera not connected"), None)) && unchanged(this)
      ensures old(IsConnected()) && !old(liveviewActive) ==>
        && r == Ok(CaptureResultOf(config, rejects, readings, outputPath, timestamp, shot, events, download))
        && !liveviewActive && consecutiveErrors == old(consecutiveErrors)
        && captureCount == old(captureCount) + (if r.value.success then 1 else 0)
        && sent == old(sent) + CaptureRun(config, rejects).done
      ensures old(IsConnected()) && old(liveviewActive) ==>
        && (LiveviewRun(config, rejects).error.Some? ==> r == Err(LiveviewRun(config, rejects).error.value) && !liveviewActive)
        && (LiveviewRun(config, rejects).error.None? ==>
              && r == Ok(CaptureResultOf(config, rejects, readings, outputPath, timestamp, shot, events, download))
              && liveviewActive && consecutiveErrors == 0 && frameCount == 0 && droppedFrames == 0 && captureCount == 0
              && lastFrameTimeMs == nowMs)
        && sent == old(sent) + CaptureRun(config, rejects).done + LiveviewWrites(config, rejects)
    {
      if !IsConnected() {
        return Ok(CaptureResult(false, None, None, Some("Camera not connected"), None));
      }
      var wasLiveview := liveviewActive;
      if wasLiveview {
        liveviewActive := false;
      }
      var steps := CaptureSteps(outputPath, timestamp, shot, events, download);
      var result := if steps.Ok? then steps.value else FailedCapture(steps.error);
      if wasLiveview {
        var err := ResumeLiveview(nowMs);
        if err.Some? {
          return Err(err.value);
        }
      }
      return Ok(result);
    }

    /** The `finally` of `capture_photo` when live view was on: reconfigure, then restart with zeroed statistics. */
    method ResumeLiveview(nowMs: int) returns (err: Option<string>)
      requires hasCamera
      modifies this`sent, this`liveviewActive, this`frameCount, this`droppedFrames, this`lastFrameTimeMs,
               this`captureCount, this`consecutiveErrors
      ensures err == LiveviewRun(config, rejects).error
      ensures sent == old(sent) + LiveviewWrites(config, rejects)
      ensures err.Some? ==> liveviewActive == old(liveviewActive)
      ensures err.None? ==>
        && liveviewActive && consecutiveErrors == 0 && frameCount == 0 && droppedFrames == 0 && captureCount == 0
        && lastFrameTimeMs == nowMs
    {
      err := ConfigureForLiveview();
      if err.Some? {
        return;
      }
      liveviewActive := true;
      frameCount := 0;
      droppedFrames := 0;
      lastFrameTimeMs := nowMs;
      captureCount := 0;
      consecutiveErrors := 0;
    }

    /** `get_status`. */
    function GetStatus(): (s: CameraStatus)
      reads this
      ensures s.connected == IsConnected()
      ensures !IsConnected() ==> s == DisconnectedStatus
      ensures IsConnected() ==>
        && s.liveviewActive == liveviewActive && s.captureCount == captureCount
        && s.battery == BatteryLevel(readings)
        && s.model == (if "cameramodel" in readings then readings["cameramodel"] else "Unknown")
        && s.storageAvailable && s.lastCaptureAt.None?
    {
      if !IsConnected() then DisconnectedStatus
      else
        CameraStatus(true, if "cameramodel" in readings then readings["cameramodel"] else "Unknown",
                     BatteryLevel(readings), true, liveviewActive, captureCount, None)
    }
  }

  // ---------------------------------------------------------------------------
  // Restarting live view after the error threshold

  /** A preview failure the driver keeps raising. */
  const StuckPreview := PreviewFailure("GPhoto2Error", "I/O in progress")

  /** Drives a connected backend with live view on into the error threshold: ten failed frames. */
  method ExhaustErrorBudget(b: GPhoto2Backend, nowMs: int)
    requires b.Valid() && b.IsConnected() && b.liveviewActive && b.consecutiveErrors == 0
    requires b.config.frameRateCap > 0 && (nowMs - b.lastFrameTimeMs) * b.config.frameRateCap >= 1000
    modifies b
    ensures b.Valid() && b.IsConnected() && !b.liveviewActive && b.consecutiveErrors == MaxConsecutiveErrors
    ensures b.config == old(b.config)
  {
    var n := 0;
    while n < MaxConsecutiveErrors
      invariant 0 <= n <= MaxConsecutiveErrors
      invariant b.Valid() && b.IsConnected() && b.config == old(b.config)
      invariant b.consecutiveErrors == n && b.lastFrameTimeMs == old(b.lastFrameTimeMs)
      invariant b.liveviewActive <==> n < MaxConsecutiveErrors
    {
      var r := b.GetLiveviewFrame(nowMs, StuckPreview);
      n := n + 1;
    }
  }

  /**
   * As written, live view restarted after the threshold carries the spent
   * budget: the very first failed frame stops it again and raises.
   */
  method RestartAfterThresholdAsWritten() returns (r: Result<Option<seq<bv8>>>)
    ensures r == Err(ThresholdError(StuckPreview.kind, StuckPreview.message))
  {
    var b := new GPhoto2Backend(None, map[], map[]);
    var st := b.Initialize(true, None);
    st := b.StartLiveview(0);
    ExhaustErrorBudget(b, 1000);
    st := b.StartLiveviewAsWritten(2000);
    assert b.liveviewActive && b.consecutiveErrors == MaxConsecutiveErrors;
    r := b.GetLiveviewFrame(3000, StuckPreview);
  }

  /** With the count reset on start, the restarted live view tolerates that failure and stays on. */
  method RestartAfterThreshold() returns (r: Result<Option<seq<bv8>>>)
    ensures r == Ok(None)
  {
    var b := new GPhoto2Backend(None, map[], map[]);
    var st := b.Initialize(true, None);
    st := b.StartLiveview(0);
    ExhaustErrorBudget(b, 1000);
    st := b.StartLiveview(2000);
    r := b.GetLiveviewFrame(3000, StuckPreview);
  }
}

=== FILE: camera_base.dfy ===
/**
 * The pure parts of the booth camera's base class: the rotations it accepts,
 * the image transposes it applies, and the information it reports.
 *
 * An image is abstract: its pixels, its size, and the element of the
 * symmetry group of the rectangle that has been applied to it, written as a
 * number of counter-clockwise quarter turns applied after an optional
 * left-right mirror.
 */
module CameraBase {
  import opened Wrappers
  import Text

  datatype Size = Size(width: int, height: int)

  /** Where the pixels came from: a black fill, or decoded camera data. */
  datatype Pixels = BlackFill | Decoded(data: seq<bv8>)

  datatype Image = Image(pixels: Pixels, size: Size, quarterTurns: int, mirrored: bool)

  /** An image as decoded or created: no transpose applied yet. */
  function Fresh(pixels: Pixels, size: Size): (img: Image)
    ensures Oriented(img) && img.quarterTurns == 0 && !img.mirrored
  {
    Image(pixels, size, 0, false)
  }

  /** The quarter-turn count is kept in 0..3. */
  predicate Oriented(img: Image) {
    0 <= img.quarterTurns < 4
  }

  /** `Image.new('RGB', size, color=(0, 0, 0))`. */
  function BlackFrame(size: Size): Image {
    Fresh(BlackFill, size)
  }

  /** The preview size used when none was configured. */
  const DefaultPreviewSize := Size(640, 480)

  /** The rotations the camera accepts. */
  predicate ValidRotation(r: int) {
    r == 0 || r == 90 || r == 180 || r == 270
  }

  /** The `ValueError` text for a rotation outside 0, 90, 180 and 270. */
  function InvalidRotationError(r: int): string {
    "Invalid rotation value: " + Text.IntToString(r) + " (should be 0, 90, 180 or 270)"
  }

  /** Turns an image `k` quarter turns counter-clockwise. */
  function Turn(img: Image, k: int): Image {
    var size := if k % 2 == 1 then Size(img.size.height, img.size.width) else img.size;
    Image(img.pixels, size, (img.quarterTurns + k) % 4, img.mirrored)
  }

  /** `_rotate_image`: 90, 180 and 270 are the matching transposes; any other value leaves the image as it is. */
  function RotateImage(img: Image, rotation: int): (r: Image)
    ensures Oriented(img) ==> Oriented(r)
    ensures r.pixels == img.pixels
  {
    if rotation == 90 then Turn(img, 1)
    else if rotation == 180 then Turn(img, 2)
    else if rotation == 270 then Turn(img, 3)
    else img
  }

  /** `_flip_image`: the left-right transpose. */
  function FlipImage(img: Image): (r: Image)
    ensures Oriented(img) ==> Oriented(r)
    ensures r.pixels == img.pixels && r.size == img.size && r.mirrored != img.mirrored
  {
    Image(img.pixels, img.size, (4 - img.quarterTurns % 4) % 4, !img.mirrored)
  }

  /** `image.resize(size)`. */
  function Resize(img: Image, size: Size): Image {
    img.(size := size)
  }

  /** A rotation leaves the image unchanged exactly when it is not 90, 180 or 270. */
  lemma RotateIdentityIff(img: Image, rotation: int)
    requires Oriented(img)
    ensures RotateImage(img, rotation) == img <==> rotation != 90 && rotation != 180 && rotation != 270
  {
  }

  /** A quarter turn exchanges width and height; a half turn keeps them. */
  lemma RotateSize(img: Image, rotation: int)
    ensures rotation == 90 || rotation == 270 ==>
      RotateImage(img, rotation).size == Size(img.size.height, img.size.width)
    ensures rotation != 90 && rotation != 270 ==> RotateImage(img, rotation).size == img.size
  {
  }

  /** Turning by 90 and then by 270, or twice by 180, gives the image back. */
  lemma RotateInverse(img: Image)
    requires Oriented(img)
    ensures RotateImage(RotateImage(img, 90), 270) == img
    ensures RotateImage(RotateImage(img, 270), 90) == img
    ensures RotateImage(RotateImage(img, 180), 180) == img
  {
  }

  /** Flipping twice gives the image back. */
  lemma FlipInvolution(img: Image)
    requires Oriented(img)
    ensures FlipImage(FlipImage(img)) == img
  {
  }

  /** Mirroring reverses the sense of a rotation: flip after 90 is 270 after flip. */
  lemma FlipReversesRotation(img: Image)
    requires Oriented(img)
    ensures FlipImage(RotateImage(img, 90)) == RotateImage(FlipImage(img), 270)
    ensures FlipImage(RotateImage(img, 180)) == RotateImage(FlipImage(img), 180)
  {
    var q := img.quarterTurns;
    assert q == 0 || q == 1 || q == 2 || q == 3;
  }

  /** What `get_camera_info` reports; `model`, `port` and the two capability flags only when the camera's abilities could be read. */
  datatype CameraInfo = CameraInfo(
    connected: bool, initialized: bool, resolution: Option<Size>, previewResolution: Option<Size>,
    previewIso: int, captureIso: int, abilities: Option<AbilitiesInfo>)

  datatype AbilitiesInfo = AbilitiesInfo(model: string, port: string, previewSupported: bool, viewfinderControl: bool)
}

=== FILE: gphoto2_camera.dfy ===
/**
 * The gPhoto2 camera of the booth camera service, with the state of its base
 * class folded in: settings from `initialize`, camera detection and the
 * capability flags, configuration values coerced by widget kind, preview
 * frames with the black-frame fallback, photo capture and disconnection.
 *
 * The camera's configuration tree is a map from (section, option) to a
 * widget; `refuses` lists the settings whose write the driver rejects.
 * What the driver does on detection and initialisation is a `Hardware`
 * value; the result of each preview, capture, download and delete is a
 * parameter of the call that makes it.
 */
module GPhotoCamera {
  import opened Wrappers
  import opened Text
  import opened CameraBase

  // ---------------------------------------------------------------------------
  // Values and widgets

  /**
   * A Python value as it reaches `set_config_value`. A float is carried as
   * the decimal text it was made from.
   */
  datatype PyValue = IntV(i: int) | BoolV(b: bool) | FloatV(text: string) | StrV(s: string) | NoneV

  datatype WidgetKind = Toggle | Radio(choices: seq<string>) | Range | TextEntry | Date | OtherKind

  datatype Widget = Widget(kind: WidgetKind, current: PyValue)

  datatype Key = Key(section: string, option: string)

  /** The digits of a float's text before the decimal point, with its sign. */
  function IntegerPart(t: string): string {
    if t == [] || t[0] == '.' then [] else [t[0]] + IntegerPart(t[1..])
  }

  /** `int(v)`. */
  function ToInt(v: PyValue): (r: Result<PyValue>)
    ensures r.Ok? ==> r.value.IntV?
  {
    match v
    case IntV(i) => Ok(v)
    case BoolV(b) => Ok(IntV(if b then 1 else 0))
    case FloatV(t) =>
      if ParseInt(IntegerPart(t)).Some? then Ok(IntV(ParseInt(IntegerPart(t)).value))
      else Err("cannot convert float " + t + " to integer")
    case StrV(s) =>
      if ParseInt(s).Some? then Ok(IntV(ParseInt(s).value))
      else Err("invalid literal for int() with base 10: '" + s + "'")
    case NoneV => Err("int() argument must be a string, a bytes-like object or a real number, not 'NoneType'")
  }

  /** `str(v)`. */
  function ToStr(v: PyValue): string {
    match v
    case IntV(i) => IntToString(i)
    case BoolV(b) => if b then "True" else "False"
    case FloatV(t) => t
    case StrV(s) => s
    case NoneV => "None"
  }

  /** `float(v)`, as a tag: the float made from the value's text. */
  function ToFloat(v: PyValue): (r: Result<PyValue>)
    ensures r.Ok? ==> r.value.FloatV?
  {
    if v.NoneV? then Err("float() argument must be a string or a real number, not 'NoneType'")
    else Ok(FloatV(ToStr(v)))
  }

  /** The choice a radio widget is given: the text if it is a choice, else the "Memory card" aliases, else the text. */
  function RadioChoice(choices: seq<string>, text: string): string {
    if text in choices then text
    else if text == "Memory card" && "card" in choices then "card"
    else if text == "Memory card" && "card+sdram" in choices then "card+sdram"
    else text
  }

  /** The value `set_config_value` hands to the widget, coerced by the widget's kind. */
  function Coerce(w: Widget, value: PyValue): Result<PyValue> {
    match w.kind
    case Toggle => ToInt(value)
    case Radio(choices) => Ok(StrV(RadioChoice(choices, ToStr(value))))
    case Range => ToFloat(value)
    case TextEntry => Ok(StrV(ToStr(value)))
    case Date => ToInt(value)
    case OtherKind =>
      match w.current
      case IntV(_) => ToInt(value)
      case BoolV(_) => ToInt(value)
      case FloatV(_) => ToFloat(value)
      case StrV(_) => Ok(StrV(ToStr(value)))
      case NoneV => Ok(value)
  }

  /**
   * Toggle and date widgets get integers, range widgets floats, text and
   * radio widgets strings; any other widget gets the type of its current
   * value (a boolean counts as an integer), or the value as it is when the
   * current value is none of those.
   */
  lemma CoercionByKind(w: Widget, value: PyValue)
    ensures (w.kind.Toggle? || w.kind.Date?) ==> Coerce(w, value) == ToInt(value)
    ensures w.kind.Range? ==> Coerce(w, value) == ToFloat(value)
    ensures w.kind.TextEntry? ==> Coerce(w, value) == Ok(StrV(ToStr(value)))
    ensures w.kind.OtherKind? && (w.current.IntV? || w.current.BoolV?) ==> Coerce(w, value) == ToInt(value)
    ensures w.kind.OtherKind? && w.current.NoneV? ==> Coerce(w, value) == Ok(value)
    ensures Coerce(w, value).Ok? && (w.kind.Toggle? || w.kind.Date?) ==> Coerce(w, value).value.IntV?
    ensures Coerce(w, value).Ok? && (w.kind.Radio? || w.kind.TextEntry?) ==> Coerce(w, value).value.StrV?
    ensures Coerce(w, value).Ok? && w.kind.Range? ==> Coerce(w, value).value.FloatV?
  {
    var r := Coerce(w, value);
    if w.kind.Toggle? || w.kind.Date? {
      assert r == ToInt(value);
    } else if w.kind.Range? {
      assert r == ToFloat(value);
    } else if w.kind.OtherKind? && (w.current.IntV? || w.current.BoolV?) {
      assert r == ToInt(value);
    }
  }

  /**
   * A radio value that is a choice is kept; "Memory card" that is not a
   * choice becomes "card" when that is one, else "card+sdram" when that is
   * one; anything else is kept as text. The result is a choice or the text.
   */
  lemma RadioAliases(choices: seq<string>, text: string)
    ensures text in choices ==> RadioChoice(choices, text) == text
    ensures text !in choices && text != "Memory card" ==> RadioChoice(choices, text) == text
    ensures text == "Memory card" && text !in choices ==>
      RadioChoice(choices, text) ==
        (if "card" in choices then "card" else if "card+sdram" in choices then "card+sdram" else text)
    ensures RadioChoice(choices, text) in choices || RadioChoice(choices, text) == text
    ensures RadioChoice(choices, text) != text ==> RadioChoice(choices, text) in choices && text == "Memory card"
  {
  }

  lemma {:induction false} IntegerPartOfDigits(s: string)
    requires AllDigits(s)
    ensures IntegerPart(s) == s
    decreases |s|
  {
    if s != [] {
      IntegerPartOfDigits(s[1..]);
    }
  }

  /** Printing an integer and converting it back gives the integer. */
  lemma ToIntOfPrinted(i: int)
    ensures ToInt(StrV(IntToString(i))) == Ok(IntV(i))
  {
    ParseIntOfIntToString(i);
  }

  /** Coercing a value the widget has already coerced changes nothing. */
  lemma CoerceIdempotent(w: Widget, value: PyValue)
    requires Coerce(w, value).Ok?
    ensures Coerce(w, Coerce(w, value).value) == Coerce(w, value)
  {
    var v := Coerce(w, value).value;
    match w.kind {
      case Radio(choices) =>
        var text := RadioChoice(choices, ToStr(value));
        assert v == StrV(text) && ToStr(v) == text;
        RadioAliases(choices, ToStr(value));
      case Toggle =>
        assert v.IntV? && ToInt(v) == Ok(v);
      case Date =>
        assert v.IntV? && ToInt(v) == Ok(v);
      case Range =>
        assert v.FloatV? && ToStr(v) == v.text;
      case TextEntry =>
        assert v.StrV? && ToStr(v) == v.s;
      case OtherKind =>
    }
  }

  // ---------------------------------------------------------------------------
  // Reading and writing settings

  /** The `ValueError` text for a setting the driver will not write. */
  function UnsupportedOption(key: Key): string {
    "Unsupported option " + key.section + "/" + key.option
  }

  /** The `ValueError` text for a setting the driver will not read. */
  function UnknownOption(key: Key): string {
    "Unknown option " + key.section + "/" + key.option
  }

  /**
   * `set_config_value` on a camera that is present: a missing setting or a
   * refused write raises "Unsupported option"; a failed conversion raises
   * the conversion's own error; otherwise the tree holds the coerced value.
   */
  function SetResult(settings: map<Key, Widget>, refuses: set<Key>, key: Key, value: PyValue): Result<map<Key, Widget>> {
    if key !in settings then Err(UnsupportedOption(key))
    else
      var coerced := Coerce(settings[key], value);
      if coerced.Err? then Err(coerced.error)
      else if key in refuses then Err(UnsupportedOption(key))
      else Ok(settings[key := settings[key].(current := coerced.value)])
  }

  /** `get_config_value` on a camera that is present. */
  function GetResult(settings: map<Key, Widget>, key: Key): Result<PyValue> {
    if key in settings then Ok(settings[key].current) else Err(UnknownOption(key))
  }

  /** The tree after a write whose failure is caught and ignored. */
  function Apply(settings: map<Key, Widget>, refuses: set<Key>, key: Key, value: PyValue): map<Key, Widget> {
    var r := SetResult(settings, refuses, key, value);
    if r.Ok? then r.value else settings
  }

  /**
   * A successful write is read back as the coerced value; no other setting
   * changes; and writing the same value again changes nothing more, except
   * when a boolean went into a widget of no known kind whose value was
   * `None` (a boolean is an integer to Python, so the second write stores
   * 0 or 1).
   */
  lemma SetThenGet(settings: map<Key, Widget>, refuses: set<Key>, key: Key, value: PyValue)
    requires SetResult(settings, refuses, key, value).Ok?
    ensures var after := SetResult(settings, refuses, key, value).value;
      && GetResult(after, key) == Coerce(settings[key], value)
      && after.Keys == settings.Keys
      && (forall k :: k in settings && k != key ==> after[k] == settings[k])
      && (!(settings[key].kind.OtherKind? && settings[key].current.NoneV? && value.BoolV?) ==>
            SetResult(after, refuses, key, value) == Ok(after))
  {
    var after := SetResult(settings, refuses, key, value).value;
    var w := settings[key];
    if !(w.kind.OtherKind? && w.current.NoneV? && value.BoolV?) {
      CoerceSameKind(w, after[key], value);
      assert after[key := after[key].(current := Coerce(w, value).value)] == after;
    }
  }

  /** Coercion depends on the widget's kind and on the type, not the value, of its current content. */
  lemma CoerceSameKind(w: Widget, w': Widget, value: PyValue)
    requires w.kind == w'.kind && Coerce(w, value).Ok?
    requires w'.current == Coerce(w, value).value
    requires !(w.kind.OtherKind? && w.current.NoneV? && value.BoolV?)
    ensures Coerce(w', value) == Coerce(w, value)
  {
    if w.kind.OtherKind? {
      match w.current {
        case IntV(_) =>
          assert w'.current.IntV? && Coerce(w', value) == ToInt(value);
        case BoolV(_) =>
          assert w'.current.IntV? && Coerce(w', value) == ToInt(value);
        case FloatV(_) =>
          assert w'.current.FloatV? && Coerce(w', value) == ToFloat(value);
        case StrV(_) =>
          assert w'.current.StrV? && Coerce(w', value) == Ok(StrV(ToStr(value)));
        case NoneV =>
          assert w'.current == value;
      }
    }
  }

  /**
   * A failed write leaves the tree as it was. It raises "Unsupported option"
   * unless the value could not be converted, in which case it raises the
   * conversion's error; a missing setting is always "Unsupported option".
   */
  lemma SetErrors(settings: map<Key, Widget>, refuses: set<Key>, key: Key, value: PyValue)
    requires SetResult(settings, refuses, key, value).Err?
    ensures Apply(settings, refuses, key, value) == settings
    ensures var e := SetResult(settings, refuses, key, value).error;
      e == UnsupportedOption(key) || (key in settings && Coerce(settings[key], value) == Err(e))
    ensures key !in settings ==> SetResult(settings, refuses, key, value) == Err(UnsupportedOption(key))
  {
  }

  // ---------------------------------------------------------------------------
  // Detection and initialisation

  datatype Detected = Detected(name: string, port: string)

  /**
   * What the driver does when the camera is set up: the cameras it detects;
   * the text of the error raised while selecting the port, initialising or
   * reading the abilities, if any; whether the abilities include preview
   * capture; the configuration tree; and the settings it refuses to write.
   */
  datatype Hardware = Hardware(detected: seq<Detected>, initError: Option<string>, previewCapable: bool,
                               settings: map<Key, Widget>, refuses: set<Key>)

  const ViewfinderKey := Key("actions", "viewfinder")
  const IsoKey := Key("imgsettings", "iso")
  const CaptureTargetKey := Key("settings", "capturetarget")

  /** The error `_specific_initialization` raises, if any. */
  function InitError(hw: Hardware): Option<string> {
    if hw.detected == [] then Some("No gPhoto2 compatible camera detected")
    else if hw.initError.Some? then Some("Failed to initialize camera: " + hw.initError.value)
    else None
  }

  /** `_configure_camera`: the capture target, then the preview ISO when it is non-zero; failures are ignored. */
  function Configured(settings: map<Key, Widget>, refuses: set<Key>, previewIso: int): map<Key, Widget> {
    var s1 := Apply(settings, refuses, CaptureTargetKey, StrV("Memory card"));
    if previewIso != 0 then Apply(s1, refuses, IsoKey, IntV(previewIso)) else s1
  }

  /** Rotation, then the flip if asked, then the resize if a size is set. */
  function Processed(img: Image, rotation: int, flip: bool, size: Option<Size>): (r: Image)
    ensures Oriented(img) ==> Oriented(r)
    ensures r.pixels == img.pixels
    ensures size.Some? ==> r.size == size.value
    ensures size.None? ==> r.size == RotateImage(img, rotation).size
  {
    var rotated := RotateImage(img, rotation);
    var flipped := if flip then FlipImage(rotated) else rotated;
    if size.Some? then Resize(flipped, size.value) else flipped
  }

  /** The error text of a call on the camera object once it has been dropped. */
  function NoCamera(attribute: string): string {
    "'NoneType' object has no attribute '" + attribute + "'"
  }

  datatype CameraFile = CameraFile(folder: string, name: string)

  /** What `initialize` raises, if anything: the first bad rotation, else the camera's own initialisation error. */
  function InitializeOutcome(rotation: (int, int), hw: Hardware): Status {
    if !ValidRotation(rotation.0) then Failure(InvalidRotationError(rotation.0))
    else if !ValidRotation(rotation.1) then Failure(InvalidRotationError(rotation.1))
    else if InitError(hw).Some? then Failure(InitError(hw).value)
    else Success
  }

  /**
   * `initialize` succeeds exactly when both rotations are allowed and a
   * camera is detected and initialises; a bad rotation is reported before
   * anything about the camera.
   */
  lemma InitializeSucceedsIff(rotation: (int, int), hw: Hardware)
    ensures InitializeOutcome(rotation, hw) == Success <==>
      ValidRotation(rotation.0) && ValidRotation(rotation.1) && hw.detected != [] && hw.initError.None?
    ensures !ValidRotation(rotation.0) || !ValidRotation(rotation.1) ==>
      exists r :: r in {rotation.0, rotation.1} && !ValidRotation(r) && InitializeOutcome(rotation, hw) == Failure(InvalidRotationError(r))
  {
  }

  /** The validation loop of `initialize`: the first rotation that is not allowed, if any. */
  method FirstInvalidRotation(rotations: seq<int>) returns (bad: Option<int>)
    ensures bad.None? <==> forall j :: 0 <= j < |rotations| ==> ValidRotation(rotations[j])
    ensures bad.Some? ==> exists k :: 0 <= k < |rotations| && rotations[k] == bad.value && !ValidRotation(bad.value) &&
                                      (forall j :: 0 <= j < k ==> ValidRotation(rotations[j]))
  {
    for i := 0 to |rotations|
      invariant forall j :: 0 <= j < i ==> ValidRotation(rotations[j])
    {
      if !ValidRotation(rotations[i]) {
        return Some(rotations[i]);
      }
    }
    return None;
  }

  /** The rotation check of `initialize`: the error for the first rotation that is not allowed, if any. */
  method ValidateRotations(rotation: (int, int)) returns (invalid: Option<Status>)
    ensures invalid.None? <==> ValidRotation(rotation.0) && ValidRotation(rotation.1)
    ensures invalid.Some? ==> invalid.value == InitializeOutcome(rotation, Hardware([], None, false, map[], {}))
  {
    var rotations := [rotation.0, rotation.1];
    var bad := FirstInvalidRotation(rotations);
    assert rotations[0] == rotation.0 && rotations[1] == rotation.1;
    if bad.Some? {
      ghost var k :| 0 <= k < 2 && rotations[k] == bad.value && !ValidRotation(bad.value) &&
                     (forall j :: 0 <= j < k ==> ValidRotation(rotations[j]));
      assert k == 1 ==> ValidRotation(rotations[0]);
      return Some(Failure(InvalidRotationError(bad.value)));
    }
    return None;
  }

  /**
   * The error `capture_photo` raises on a camera that is present, if any:
   * the first of the shot, the download and the deletion (when photos are
   * deleted from the camera) that fails, as "Photo capture failed".
   */
  function CaptureFailure(shot: Result<CameraFile>, download: Result<Image>, deleted: Status, deleteInternalMemory: bool): (e: Option<string>)
    ensures e.None? <==> shot.Ok? && download.Ok? && (deleteInternalMemory ==> deleted.Success?)
    ensures shot.Err? ==> e == Some("Photo capture failed: " + shot.error)
    ensures shot.Ok? && download.Err? ==> e == Some("Photo capture failed: " + download.error)
    ensures shot.Ok? && download.Ok? && deleteInternalMemory && deleted.Failure? ==> e == Some("Photo capture failed: " + deleted.error)
  {
    if shot.Err? then Some("Photo capture failed: " + shot.error)
    else if download.Err? then Some("Photo capture failed: " + download.error)
    else if deleteInternalMemory && deleted.Failure? then Some("Photo capture failed: " + deleted.error)
    else None
  }

  /** The tree after `get_preview_frame` on a camera that is present: the viewfinder switched on when the camera has one. */
  function PreviewSettings(settings: map<Key, Widget>, refuses: set<Key>, previewViewfinder: bool): (s: map<Key, Widget>)
    ensures s.Keys == settings.Keys
    ensures forall k :: k in settings && k != ViewfinderKey ==> s[k] == settings[k]
  {
    if previewViewfinder then Apply(settings, refuses, ViewfinderKey, IntV(1)) else settings
  }

  /**
   * The tree after `capture_photo`: the viewfinder off (when the camera has
   * one) and the capture ISO written first, and the preview ISO written
   * back after a successful capture; refused writes change nothing.
   */
  function CaptureSettings(settings: map<Key, Widget>, refuses: set<Key>, previewViewfinder: bool,
                           previewIso: int, captureIso: int, succeeded: bool): (s: map<Key, Widget>)
    ensures s.Keys == settings.Keys
    ensures forall k :: k in settings && k != ViewfinderKey && k != IsoKey ==> s[k] == settings[k]
  {
    var s1 := if previewViewfinder then Apply(settings, refuses, ViewfinderKey, IntV(0)) else settings;
    var s2 := if captureIso != previewIso then Apply(s1, refuses, IsoKey, IntV(captureIso)) else s1;
    if succeeded && captureIso != previewIso then Apply(s2, refuses, IsoKey, IntV(previewIso)) else s2
  }

  class GPhoto2Camera {
    // The base class's settings
    var resolution: Option<Size>
    var previewResolution: Option<Size>
    var deleteInternalMemory: bool
    var previewRotation: int
    var captureRotation: int
    var previewIso: int
    var captureIso: int
    var previewFlip: bool
    var captureFlip: bool
    var initialized: bool

    /** `_camera`: the camera in use, if any. */
    var camera: Option<Detected>
    var previewCompatible: bool
    var previewViewfinder: bool

    /** The camera's configuration tree and the writes it refuses. */
    var settings: map<Key, Widget>
    var refuses: set<Key>

    /** The camera is only ever initialized while a camera is held. */
    ghost predicate Valid()
      reads this
    {
      initialized ==> camera.Some?
    }

    /** `__init__` of both classes: the base class's defaults and no camera. */
    constructor ()
      ensures Valid()
      ensures resolution.None? && previewResolution.None? && !deleteInternalMemory
      ensures previewRotation == 0 && captureRotation == 0 && previewIso == 400 && captureIso == 100
      ensures !previewFlip && !captureFlip && !initialized
      ensures camera.None? && !previewCompatible && !previewViewfinder
      ensures settings == map[] && refuses == {}
    {
      resolution := None;
      previewResolution := None;
      deleteInternalMemory := false;
      previewRotation := 0;
      captureRotation := 0;
      previewIso := 400;
      captureIso := 100;
      previewFlip := false;
      captureFlip := false;
      initialized := false;
      camera := None;
      previewCompatible := false;
      previewViewfinder := false;
      settings := map[];
      refuses := {};
    }

    /** `is_connected`: a camera is held. */
    predicate IsConnected()
      reads this
    {
      camera.Some?
    }

    /** `set_config_value`. */
    method SetConfigValue(key: Key, value: PyValue) returns (st: Status)
      modifies this`settings
      ensures camera.None? ==> st == Failure(NoCamera("get_config")) && settings == old(settings)
      ensures camera.Some? ==>
        var r := SetResult(old(settings), refuses, key, value);
        && (st == Success <==> r.Ok?)
        && (r.Err? ==> st == Failure(r.error))
        && settings == Apply(old(settings), refuses, key, value)
    {
      if camera.None? {
        return Failure(NoCamera("get_config"));
      }
      var r := SetResult(settings, refuses, key, value);
      if r.Err? {
        return Failure(r.error);
      }
      settings := r.value;
      return Success;
    }

    /** `get_config_value`. */
    method GetConfigValue(key: Key) returns (r: Result<PyValue>)
      ensures camera.None? ==> r == Err(NoCamera("get_config"))
      ensures camera.Some? ==> r == GetResult(settings, key)
      ensures camera.Some? ==> (r.Ok? <==> key in settings) && (r.Err? ==> r.error == UnknownOption(key))
    {
      if camera.None? {
        return Err(NoCamera("get_config"));
      }
      r := GetResult(settings, key);
    }

    /**
     * `_specific_initialization`: without a detected camera, raises and
     * keeps the camera it had; otherwise takes the first detected camera,
     * which stays held even when initialising it then fails. On success the
     * preview flag is the abilities' preview bit, the viewfinder flag is set
     * exactly when preview is supported and the viewfinder setting can be
     * read (it keeps its old value when preview is unsupported), and the
     * camera is configured.
     */
    method SpecificInitialization(hw: Hardware) returns (st: Status)
      requires Valid()
      modifies this`camera, this`settings, this`refuses, this`previewCompatible, this`previewViewfinder
      ensures Valid()
      ensures st == (if InitError(hw).Some? then Failure(InitError(hw).value) else Success)
      ensures hw.detected == [] ==> unchanged(this)
      ensures hw.detected != [] ==> camera == Some(hw.detected[0]) && refuses == hw.refuses
      ensures hw.detected != [] && hw.initError.Some? ==>
        settings == hw.settings && previewCompatible == old(previewCompatible) && previewViewfinder == old(previewViewfinder)
      ensures st == Success ==>
        && previewCompatible == hw.previewCapable
        && previewViewfinder == (if hw.previewCapable then ViewfinderKey in hw.settings else old(previewViewfinder))
        && settings == Configured(hw.settings, hw.refuses, previewIso)
    {
      if hw.detected == [] {
        return Failure("No gPhoto2 compatible camera detected");
      }
      camera := Some(hw.detected[0]);
      settings := hw.settings;
      refuses := hw.refuses;
      if hw.initError.Some? {
        return Failure("Failed to initialize camera: " + hw.initError.value);
      }
      previewCompatible := hw.previewCapable;
      if previewCompatible {
        var probe := GetConfigValue(ViewfinderKey);
        previewViewfinder := probe.Ok?;
      }
      var ignored := SetConfigValue(CaptureTargetKey, StrV("Memory card"));
      if previewIso != 0 {
        ignored := SetConfigValue(IsoKey, IntV(previewIso));
      }
      return Success;
    }

    /** The assignments that open `initialize`. */
    method StoreSettings(resolution: Size, previewResolution: Size, iso: (int, int), rotation: (int, int),
                         flip: bool, deleteInternalMemory: bool)
      modifies this`resolution, this`previewResolution, this`previewIso, this`captureIso, this`previewRotation,
               this`captureRotation, this`previewFlip, this`captureFlip, this`deleteInternalMemory
      ensures this.resolution == Some(resolution) && this.previewResolution == Some(previewResolution)
      ensures previewIso == iso.0 && captureIso == iso.1
      ensures previewRotation == rotation.0 && captureRotation == rotation.1
      ensures previewFlip == flip && captureFlip == flip && this.deleteInternalMemory == deleteInternalMemory
    {
      this.resolution := Some(resolution);
      this.previewResolution := Some(previewResolution);
      previewIso, captureIso := iso.0, iso.1;
      previewRotation, captureRotation := rotation.0, rotation.1;
      previewFlip := flip;
      captureFlip := flip;
      this.deleteInternalMemory := deleteInternalMemory;
    }

    /**
     * `initialize` of the base class: stores every setting, rejects a
     * rotation outside 0, 90, 180 and 270 (the preview rotation first)
     * before touching the camera, then runs the camera's own
     * initialisation; only when that succeeds is the camera initialized.
     */
    method Initialize(resolution: Size, previewResolution: Size, iso: (int, int), rotation: (int, int),
                      flip: bool, deleteInternalMemory: bool, hw: Hardware) returns (st: Status)
      requires Valid()
      modifies this
      ensures Valid()
      ensures this.resolution == Some(resolution) && this.previewResolution == Some(previewResolution)
      ensures previewIso == iso.0 && captureIso == iso.1
      ensures previewRotation == rotation.0 && captureRotation == rotation.1
      ensures previewFlip == flip && captureFlip == flip && this.deleteInternalMemory == deleteInternalMemory
      ensures st == InitializeOutcome(rotation, hw)
      ensures !(ValidRotation(rotation.0) && ValidRotation(rotation.1)) ==> camera == old(camera) && settings == old(settings)
      ensures ValidRotation(rotation.0) && ValidRotation(rotation.1) && hw.detected != [] ==> camera == Some(hw.detected[0])
      ensures st.Failure? ==> initialized == old(initialized)
      ensures st == Success ==>
        && initialized && IsConnected()
        && previewCompatible == hw.previewCapable
        && previewViewfinder == (if hw.previewCapable then ViewfinderKey in hw.settings else old(previewViewfinder))
        && settings == Configured(hw.settings, hw.refuses, iso.0)
    {
      StoreSettings(resolution, previewResolution, iso, rotation, flip, deleteInternalMemory);
      var invalid := ValidateRotations(rotation);
      if invalid.Some? {
        return invalid.value;
      }
      st := Connect(hw);
    }

    /** `_initialize_specific`, then the flag `initialized` when it reports success. */
    method Connect(hw: Hardware) returns (st: Status)
      requires Valid()
      modifies this`camera, this`settings, this`refuses, this`previewCompatible, this`previewViewfinder, this`initialized
      ensures Valid()
      ensures st == (if InitError(hw).Some? then Failure(InitError(hw).value) else Success)
      ensures hw.detected != [] ==> camera == Some(hw.detected[0])
      ensures st.Failure? ==> initialized == old(initialized)
      ensures hw.detected == [] ==> camera == old(camera) && settings == old(settings)
      ensures st == Success ==>
        && initialized && IsConnected()
        && previewCompatible == hw.previewCapable
        && previewViewfinder == (if hw.previewCapable then ViewfinderKey in hw.settings else old(previewViewfinder))
        && settings == Configured(hw.settings, hw.refuses, previewIso)
    {
      st := SpecificInitialization(hw);
      if st.Success? {
        initialized := true;
      }
    }

    /**
     * `get_preview_frame`, where `frame` is what capturing and decoding a
     * preview gives: without preview support, a black frame of the preview
     * size (640x480 when none is set), with the camera left alone;
     * otherwise the viewfinder is switched on when it can be (a failure is
     * ignored) and the frame is rotated, flipped and resized as configured.
     * A driver failure raises "Preview capture failed".
     */
    method GetPreviewFrame(frame: Result<Image>) returns (r: Result<Image>)
      modifies this`settings
      ensures !previewCompatible ==>
        && r == Ok(BlackFrame(if previewResolution.Some? then previewResolution.value else DefaultPreviewSize))
        && settings == old(settings)
      ensures previewCompatible && camera.None? ==> r == Err(NoCamera("capture_preview")) && settings == old(settings)
      ensures previewCompatible && camera.Some? ==>
        && settings == (if previewViewfinder then Apply(old(settings), refuses, ViewfinderKey, IntV(1)) else old(settings))
        && settings == PreviewSettings(old(settings), refuses, previewViewfinder)
        && (frame.Err? ==> r == Err("Preview capture failed: " + frame.error))
        && (frame.Ok? ==> r == Ok(Processed(frame.value, previewRotation, previewFlip, previewResolution)))
    {
      if !previewCompatible {
        return Ok(BlackFrame(if previewResolution.Some? then previewResolution.value else DefaultPreviewSize));
      }
      if previewViewfinder {
        var ignored := SetConfigValue(ViewfinderKey, IntV(1));
      }
      if camera.None? {
        return Err(NoCamera("capture_preview"));
      }
      if frame.Err? {
        return Err("Preview capture failed: " + frame.error);
      }
      return Ok(Processed(frame.value, previewRotation, previewFlip, previewResolution));
    }

    /**
     * `capture_photo`, where `shot` is where the camera stored the photo,
     * `download` what fetching and decoding it gives and `deleted` the
     * outcome of deleting it from the camera. The viewfinder is switched off
     * and the capture ISO set first (failures ignored); the photo is
     * rotated, flipped and resized as configured; the preview ISO is written
     * back only after a successful capture. Driver failures raise "Photo
     * capture failed".
     */
    method CapturePhoto(shot: Result<CameraFile>, download: Result<Image>, deleted: Status) returns (r: Result<Image>)
      modifies this`settings
      ensures camera.None? ==> r == Err(NoCamera("capture")) && settings == old(settings)
      ensures camera.Some? ==>
        var s1 := if previewViewfinder then Apply(old(settings), refuses, ViewfinderKey, IntV(0)) else old(settings);
        var s2 := if captureIso != previewIso then Apply(s1, refuses, IsoKey, IntV(captureIso)) else s1;
        && (shot.Err? ==> r == Err("Photo capture failed: " + shot.error))
        && (shot.Ok? && download.Err? ==> r == Err("Photo capture failed: " + download.error))
        && (shot.Ok? && download.Ok? && deleteInternalMemory && deleted.Failure? ==>
              r == Err("Photo capture failed: " + deleted.error))
        && (r.Err? ==> settings == s2)
        && (r.Ok? <==> shot.Ok? && download.Ok? && (deleteInternalMemory ==> deleted.Success?))
        && (r.Ok? ==>
              && r.value == Processed(download.value, captureRotation, captureFlip, resolution)
              && settings == (if captureIso != previewIso then Apply(s2, refuses, IsoKey, IntV(previewIso)) else s2))
        && (r.Err? <==> CaptureFailure(shot, download, deleted, deleteInternalMemory).Some?)
        && (r.Err? ==> r.error == CaptureFailure(shot, download, deleted, deleteInternalMemory).value)
        && settings == CaptureSettings(old(settings), refuses, previewViewfinder, previewIso, captureIso, r.Ok?)
    {
      if previewViewfinder {
        var ignored := SetConfigValue(ViewfinderKey, IntV(0));
      }
      if captureIso != previewIso {
        var ignored := SetConfigValue(IsoKey, IntV(captureIso));
      }
      if camera.None? {
        return Err(NoCamera("capture"));
      }
      if shot.Err? {
        return Err("Photo capture failed: " + shot.error);
      }
      if download.Err? {
        return Err("Photo capture failed: " + download.error);
      }
      if deleteInternalMemory && deleted.Failure? {
        return Err("Photo capture failed: " + deleted.error);
      }
      var image := Processed(download.value, captureRotation, captureFlip, resolution);
      if captureIso != previewIso {
        var ignored := SetConfigValue(IsoKey, IntV(previewIso));
      }
      return Ok(image);
    }

    /** `disconnect`: drops the camera (a failing `exit` is ignored) and with it the initialized flag. */
    method Disconnect()
      requires Valid()
      modifies this
      ensures Valid() && !IsConnected() && !initialized
      ensures old(camera).None? ==> unchanged(this)
      ensures settings == old(settings) && previewCompatible == old(previewCompatible)
    {
      if camera.Some? {
        camera := None;
        initialized := false;
      }
    }

    /**
     * `get_camera_info`: the base class's report, with the camera's model and
     * port and the two capability flags added when a camera is held and its
     * abilities (`abilities`) can be read.
     */
    function GetCameraInfo(abilities: Result<Detected>): (info: CameraInfo)
      reads this
      ensures info.connected == IsConnected() && info.initialized == initialized
      ensures info.resolution == resolution && info.previewResolution == previewResolution
      ensures info.previewIso == previewIso && info.captureIso == captureIso
      ensures info.abilities.Some? <==> IsConnected() && abilities.Ok?
      ensures info.abilities.Some? ==>
        info.abilities.value == AbilitiesInfo(abilities.value.name, abilities.value.port, previewCompatible, previewViewfinder)
    {
      var base := CameraInfo(camera.Some?, initialized, resolution, previewResolution, previewIso, captureIso, None);
      if camera.Some? && abilities.Ok? then
        base.(abilities := Some(AbilitiesInfo(abilities.value.name, abilities.value.port, previewCompatible, previewViewfinder)))
      else base
    }
  }

  /**
   * Writing an integer does not change how the widget coerces the next
   * integer: its kind is kept, and a widget of no known kind now holds the
   * type its first coercion gave.
   */
  lemma CoerceIntAfterWrite(w: Widget, first: int, second: int)
    requires Coerce(w, IntV(first)).Ok?
    ensures Coerce(w.(current := Coerce(w, IntV(first)).value), IntV(second)) == Coerce(w, IntV(second))
  {
    if w.kind.OtherKind? && w.current.NoneV? {
      assert w.(current := Coerce(w, IntV(first)).value).current == IntV(first);
    } else {
      CoerceSameKind(w, w.(current := Coerce(w, IntV(first)).value), IntV(first));
    }
  }

  /**
   * The capture ISO and the preview ISO, written in turn to an ISO widget
   * of any kind that accepts them: after the first write the setting reads
   * back as the capture ISO coerced by the widget, and after the second as
   * the preview ISO coerced by the widget (a radio widget, for instance,
   * holds the matching choice text).
   */
  lemma CaptureIsoRestored(settings: map<Key, Widget>, refuses: set<Key>, previewIso: int, captureIso: int)
    requires IsoKey in settings && IsoKey !in refuses
    ensures var s2 := Apply(settings, refuses, IsoKey, IntV(captureIso));
      && (Coerce(settings[IsoKey], IntV(captureIso)).Ok? ==>
            GetResult(s2, IsoKey) == Coerce(settings[IsoKey], IntV(captureIso)))
      && (Coerce(settings[IsoKey], IntV(previewIso)).Ok? ==>
            GetResult(Apply(s2, refuses, IsoKey, IntV(previewIso)), IsoKey) == Coerce(settings[IsoKey], IntV(previewIso)))
  {
    var w := settings[IsoKey];
    if Coerce(w, IntV(captureIso)).Ok? {
      CoerceIntAfterWrite(w, captureIso, previewIso);
    }
  }
}

=== FILE: handler.dfy ===
/**
 * The websocket front of the booth camera service: the set of connected
 * clients, the one preview stream that feeds them, and the dispatch of the
 * requests they send.
 *
 * Every message sent is recorded in `outbox` with the clients that received
 * it; `failing` names the clients whose socket refuses a send at that
 * moment. Timestamps, JSON and base64 encoding are not modelled.
 */
module Handler {
  import opened Wrappers
  import opened CameraBase
  import opened GPhotoCamera
  import opened Manager

  /** A connected websocket, by identity. */
  type Client = nat

  /** What the handler sends; `requestId` echoes the request's id. */
  datatype Message =
    | Connected
    | CameraInfoMessage(requestId: Option<string>, data: ManagerInfo)
    | PreviewStarted(requestId: Option<string>)
    | PreviewStopped(requestId: Option<string>)
    | PhotoCaptured(requestId: Option<string>, filename: string, filepath: string, image: Image)
    | SettingUpdated(requestId: Option<string>, section: string, option: string, value: PyValue)
    | SettingValue(requestId: Option<string>, section: string, option: string, value: PyValue)
    | PreviewFrame(image: Image, frameNumber: nat)
    | ErrorMessage(requestId: Option<string>, error: string)

  /** A message and the clients it reached. */
  datatype Outgoing = Outgoing(to: set<Client>, message: Message)

  /** A request, as the JSON object's fields; a missing field or a JSON `null` is `None`. */
  datatype Request = Request(
    kind: Option<string>, requestId: Option<string>,
    section: Option<string>, option: Option<string>, value: Option<PyValue>,
    filename: Option<string>)

  /** What a client's socket gives: a JSON object, text that is not JSON, JSON of another type, or a failure. */
  datatype Inbound = Object(request: Request) | NotJson | NotObject(typeName: string) | ReceiveFailed(error: string)

  /**
   * What the outside world does while one request is served: the capture
   * and preview outcomes of the camera, whether saving fails, the
   * `%Y%m%d_%H%M%S` stamp of the default file name, the camera's abilities,
   * and the clients whose sends fail.
   */
  datatype World = World(
    shot: Result<CameraFile>, download: Result<Image>, deleted: Status, saveError: Option<string>,
    stamp: string, abilities: Result<Detected>, failing: set<Client>)

  /** One pass of the stream loop: the preview the camera gives and the clients whose sends fail. */
  datatype Tick = Tick(frame: Result<Image>, failing: set<Client>)

  /** The request types and their handlers. */
  datatype Kind = StartPreview | StopPreview | CapturePhoto | GetCameraInfo | SetCameraSetting | GetCameraSetting

  /** The handler table of `handle_message`. */
  function Route(kind: Option<string>): (k: Option<Kind>)
    ensures k.Some? <==> (kind.Some? && kind.value in
      {"start_preview", "stop_preview", "capture_photo", "get_camera_info", "set_camera_setting", "get_camera_setting"})
  {
    if kind == Some("start_preview") then Some(StartPreview)
    else if kind == Some("stop_preview") then Some(StopPreview)
    else if kind == Some("capture_photo") then Some(CapturePhoto)
    else if kind == Some("get_camera_info") then Some(GetCameraInfo)
    else if kind == Some("set_camera_setting") then Some(SetCameraSetting)
    else if kind == Some("get_camera_setting") then Some(GetCameraSetting)
    else None
  }

  /** The name each handler is registered under. */
  function KindName(k: Kind): string {
    match k
    case StartPreview => "start_preview"
    case StopPreview => "stop_preview"
    case CapturePhoto => "capture_photo"
    case GetCameraInfo => "get_camera_info"
    case SetCameraSetting => "set_camera_setting"
    case GetCameraSetting => "get_camera_setting"
  }

  /** Each handler is reached by exactly its own name. */
  lemma RouteByName(k: Kind, kind: Option<string>)
    ensures Route(Some(KindName(k))) == Some(k)
    ensures Route(kind) == Some(k) ==> kind == Some(KindName(k))
  {
  }

  /** `f"Unknown message type: {msg_type}"`, where a missing type prints as `None`. */
  function UnknownType(kind: Option<string>): string {
    "Unknown message type: " + (if kind.Some? then kind.value else "None")
  }

  /** Python truthiness of an optional string: present and non-empty. */
  predicate Truthy(s: Option<string>) {
    s.Some? && s.value != ""
  }

  /** `all([section, option, value is not None])`. */
  predicate SetRequestComplete(r: Request) {
    Truthy(r.section) && Truthy(r.option) && r.value.Some?
  }

  /** `all([section, option])`. */
  predicate GetRequestComplete(r: Request) {
    Truthy(r.section) && Truthy(r.option)
  }

  /** The file name a capture is saved under: the request's, else `photo_<stamp>.jpg`. */
  function CaptureFilename(r: Request, stamp: string): (name: string)
    ensures r.filename.Some? ==> name == r.filename.value
    ensures r.filename.None? ==> Text.StartsWith(name, "photo_") && Text.EndsWith(name, ".jpg")
  {
    if r.filename.Some? then r.filename.value else "photo_" + stamp + ".jpg"
  }

  class CameraWebSocketHandler {
    const manager: CameraManager
    var connections: set<Client>
    var isStreaming: bool
    /** The running stream task, by the number of tasks created before it. */
    var previewTask: Option<nat>
    var tasksCreated: nat
    var frameCount: nat
    var outbox: seq<Outgoing>

    /** At most one stream task runs: the last one created, exactly while streaming. */
    ghost predicate Valid()
      reads this, manager, manager.camera
    {
      && manager.Valid()
      && (isStreaming <==> previewTask.Some?)
      && (previewTask.Some? ==> previewTask.value + 1 == tasksCreated)
    }

    constructor (manager: CameraManager)
      requires manager.Valid()
      ensures Valid() && this.manager == manager
      ensures connections == {} && !isStreaming && previewTask.None? && tasksCreated == 0
      ensures frameCount == 0 && outbox == []
    {
      this.manager := manager;
      connections := {};
      isStreaming := false;
      previewTask := None;
      tasksCreated := 0;
      frameCount := 0;
      outbox := [];
    }

    /** `send_message`: a failed send is swallowed. */
    method Send(client: Client, message: Message, failing: set<Client>)
      modifies this`outbox
      ensures outbox == old(outbox) + [Outgoing({client} - failing, message)]
    {
      outbox := outbox + [Outgoing({client} - failing, message)];
    }

    /** `send_error`. */
    method SendError(client: Client, error: string, requestId: Option<string>, failing: set<Client>)
      modifies this`outbox
      ensures outbox == old(outbox) + [Outgoing({client} - failing, ErrorMessage(requestId, error))]
    {
      Send(client, ErrorMessage(requestId, error), failing);
    }

    /**
     * `broadcast_message`, and the sending step of the stream loop: every
     * client is sent the message; those whose send fails are dropped from
     * the set, the others stay.
     */
    method Broadcast(message: Message, failing: set<Client>)
      modifies this`connections, this`outbox
      ensures connections == old(connections) - failing
      ensures outbox == old(outbox) + [Outgoing(old(connections) - failing, message)]
    {
      var pending := connections;
      var delivered: set<Client> := {};
      var disconnected: set<Client> := {};
      while pending != {}
        invariant pending <= connections
        invariant connections == old(connections) && outbox == old(outbox)
        invariant delivered == (connections - pending) - failing
        invariant disconnected == (connections - pending) * failing
        decreases pending
      {
        var ws :| ws in pending;
        if ws in failing {
          disconnected := disconnected + {ws};
        } else {
          delivered := delivered + {ws};
        }
        pending := pending - {ws};
      }
      assert connections - pending == connections;
      outbox := outbox + [Outgoing(delivered, message)];
      connections := connections - disconnected;
    }

    /** `stop_preview_stream`: the flag is cleared and the task dropped. */
    method StopPreviewStream()
      modifies this`isStreaming, this`previewTask
      ensures !isStreaming && previewTask.None?
    {
      isStreaming := false;
      previewTask := None;
    }

    /** Starts the stream task: one new task, which becomes the running one. */
    method StartStreamTask()
      modifies this`isStreaming, this`previewTask, this`tasksCreated
      ensures isStreaming && previewTask == Some(old(tasksCreated)) && tasksCreated == old(tasksCreated) + 1
    {
      isStreaming := true;
      previewTask := Some(tasksCreated);
      tasksCreated := tasksCreated + 1;
    }

    /**
     * `handle_start_preview`: refused with an error, and nothing else
     * changed, unless the camera is ready; otherwise a stream task is
     * created only if none is running, and the start is confirmed.
     */
    method HandleStartPreview(client: Client, requestId: Option<string>, failing: set<Client>)
      requires Valid()
      modifies this`isStreaming, this`previewTask, this`tasksCreated, this`outbox
      ensures Valid()
      ensures !manager.IsCameraReady() ==>
        && outbox == old(outbox) + [Outgoing({client} - failing, ErrorMessage(requestId, "Camera not connected"))]
        && isStreaming == old(isStreaming) && previewTask == old(previewTask) && tasksCreated == old(tasksCreated)
      ensures manager.IsCameraReady() ==>
        && outbox == old(outbox) + [Outgoing({client} - failing, PreviewStarted(requestId))]
        && isStreaming
        && tasksCreated == old(tasksCreated) + (if old(isStreaming) then 0 else 1)
        && (old(isStreaming) ==> previewTask == old(previewTask))
    {
      if !manager.IsCameraReady() {
        SendError(client, "Camera not connected", requestId, failing);
        return;
      }
      if !isStreaming {
        StartStreamTask();
      }
      Send(client, PreviewStarted(requestId), failing);
    }

    /** `handle_stop_preview`: the stream is stopped, whether or not it ran, and the stop confirmed. */
    method HandleStopPreview(client: Client, requestId: Option<string>, failing: set<Client>)
      requires Valid()
      modifies this`isStreaming, this`previewTask, this`outbox
      ensures Valid() && !isStreaming && previewTask.None?
      ensures outbox == old(outbox) + [Outgoing({client} - failing, PreviewStopped(requestId))]
    {
      StopPreviewStream();
      Send(client, PreviewStopped(requestId), failing);
    }

    /**
     * `handle_capture_photo`: unless the camera is ready, an error and no
     * other change. Otherwise a running stream is stopped first; the photo
     * is taken and saved and sent back; and the stream is started again,
     * as a new task, only when it was running and the capture and the save
     * both succeeded. The save is the corrected `save_photo`, whose outcome is
     * `world.saveError`; `HandleCapturePhotoAsWritten` is the handler with
     * the save as written.
     */
    method HandleCapturePhoto(client: Client, request: Request, world: World)
      requires Valid()
      modifies this`isStreaming, this`previewTask, this`tasksCreated, this`outbox, manager, {manager.camera}`settings
      ensures Valid() && manager.camera == old(manager.camera)
      ensures !old(manager.IsCameraReady()) ==>
        && outbox == old(outbox) + [Outgoing({client} - world.failing, ErrorMessage(request.requestId, "Camera not connected"))]
        && isStreaming == old(isStreaming) && previewTask == old(previewTask) && tasksCreated == old(tasksCreated)
      ensures old(manager.IsCameraReady()) ==> |outbox| == |old(outbox)| + 1 && outbox[..|old(outbox)|] == old(outbox)
      ensures old(manager.IsCameraReady()) ==>
        var captured := world.shot.Ok? && world.download.Ok? && (manager.camera.deleteInternalMemory ==> world.deleted.Success?);
        var filename := CaptureFilename(request, world.stamp);
        && (outbox[|outbox| - 1].message.PhotoCaptured? <==> captured && world.saveError.None?)
        && (captured && world.saveError.None? ==>
              outbox[|outbox| - 1] == Outgoing({client} - world.failing,
                PhotoCaptured(request.requestId, filename, JoinPath(PhotosDir(manager.config), filename),
                              Processed(world.download.value, manager.camera.captureRotation, manager.camera.captureFlip,
                                        manager.camera.resolution))))
        && (captured && world.saveError.Some? ==>
              outbox[|outbox| - 1] ==
                Outgoing({client} - world.failing, ErrorMessage(request.requestId, "Failed to capture photo: " + world.saveError.value)))
        && (!captured ==>
              outbox[|outbox| - 1] ==
                Outgoing({client} - world.failing,
                  ErrorMessage(request.requestId, "Failed to capture photo: " +
                    CaptureFailure(world.shot, world.download, world.deleted, manager.camera.deleteInternalMemory).value)))
      ensures old(manager.IsCameraReady()) && outbox[|outbox| - 1].message.PhotoCaptured? ==>
        && outbox[|outbox| - 1].message.filename == CaptureFilename(request, world.stamp)
        && world.saveError.None?
        && isStreaming == old(isStreaming)
        && tasksCreated == old(tasksCreated) + (if old(isStreaming) then 1 else 0)
      ensures old(manager.IsCameraReady()) && !outbox[|outbox| - 1].message.PhotoCaptured? ==>
        && outbox[|outbox| - 1].message.ErrorMessage?
        && !isStreaming && previewTask.None? && tasksCreated == old(tasksCreated)
    {
      if !manager.IsCameraReady() {
        SendError(client, "Camera not connected", request.requestId, world.failing);
        return;
      }
      var wasStreaming := isStreaming;
      if isStreaming {
        StopPreviewStream();
      }
      var image := manager.CapturePhoto(world.shot, world.download, world.deleted);
      if image.Err? {
        SendError(client, "Failed to capture photo: " + image.error, request.requestId, world.failing);
        return;
      }
      var filename := CaptureFilename(request, world.stamp);
      var filepath := manager.SavePhoto(filename, world.saveError);
      if filepath.Err? {
        SendError(client, "Failed to capture photo: " + filepath.error, request.requestId, world.failing);
        return;
      }
      Send(client, PhotoCaptured(request.requestId, filename, filepath.value, image.value), world.failing);
      if wasStreaming {
        StartStreamTask();
      }
    }

    /**
     * `handle_capture_photo` as written, whose `save_photo` always raises
     * (`Manager.CameraManager.SavePhotoAsWritten`): on a ready camera every
     * request is answered with an error, a successful capture's with the
     * save's `TypeError`, and a stream stopped for the capture stays stopped.
     */
    method HandleCapturePhotoAsWritten(client: Client, request: Request, world: World)
      requires Valid()
      modifies this`isStreaming, this`previewTask, this`tasksCreated, this`outbox, manager, {manager.camera}`settings
      ensures Valid() && manager.camera == old(manager.camera)
      ensures !old(manager.IsCameraReady()) ==>
        && outbox == old(outbox) + [Outgoing({client} - world.failing, ErrorMessage(request.requestId, "Camera not connected"))]
        && isStreaming == old(isStreaming) && previewTask == old(previewTask) && tasksCreated == old(tasksCreated)
      ensures old(manager.IsCameraReady()) ==>
        var captured := world.shot.Ok? && world.download.Ok? && (manager.camera.deleteInternalMemory ==> world.deleted.Success?);
        && outbox == old(outbox) + [Outgoing({client} - world.failing, ErrorMessage(request.requestId, "Failed to capture photo: " +
             if captured then SaveCallError
             else CaptureFailure(world.shot, world.download, world.deleted, manager.camera.deleteInternalMemory).value))]
        && !isStreaming && previewTask.None? && tasksCreated == old(tasksCreated)
    {
      if !manager.IsCameraReady() {
        SendError(client, "Camera not connected", request.requestId, world.failing);
        return;
      }
      if isStreaming {
        StopPreviewStream();
      }
      var image := manager.CapturePhoto(world.shot, world.download, world.deleted);
      if image.Err? {
        SendError(client, "Failed to capture photo: " + image.error, request.requestId, world.failing);
        return;
      }
      var filename := CaptureFilename(request, world.stamp);
      // The save raises, so the `photo_captured` reply and the stream restart after it are never reached.
      var raised := manager.SavePhotoAsWritten(filename);
      SendError(client, "Failed to capture photo: " + raised, request.requestId, world.failing);
    }

    /** `send_camera_info`: the manager's report, answering `requestId`. */
    method SendCameraInfo(client: Client, requestId: Option<string>, world: World)
      modifies this`outbox
      ensures outbox == old(outbox) + [Outgoing({client} - world.failing,
                                                CameraInfoMessage(requestId, manager.GetCameraInfo(world.abilities)))]
    {
      Send(client, CameraInfoMessage(requestId, manager.GetCameraInfo(world.abilities)), world.failing);
    }

    /**
     * `handle_set_camera_setting`: an incomplete request is answered with
     * an error and the manager is not called; otherwise the setting is
     * written and the update confirmed, or the failure reported.
     */
    method HandleSetCameraSetting(client: Client, request: Request, world: World)
      requires Valid()
      modifies this`outbox, {manager.camera}`settings
      ensures Valid()
      ensures |outbox| == |old(outbox)| + 1 && outbox[..|old(outbox)|] == old(outbox)
      ensures !SetRequestComplete(request) ==>
        && outbox[|outbox| - 1] == Outgoing({client} - world.failing, ErrorMessage(request.requestId, "Missing section, option, or value"))
        && (manager.camera != null ==> manager.camera.settings == old(manager.camera.settings))
      ensures SetRequestComplete(request) && !manager.IsCameraReady() ==>
        outbox[|outbox| - 1].message == ErrorMessage(request.requestId, "Failed to set setting: " + "Camera not ready")
      ensures SetRequestComplete(request) && manager.IsCameraReady() ==>
        var key := Key(request.section.value, request.option.value);
        var r := SetResult(old(manager.camera.settings), manager.camera.refuses, key, request.value.value);
        && (r.Ok? ==>
              outbox[|outbox| - 1].message == SettingUpdated(request.requestId, key.section, key.option, request.value.value))
        && (r.Err? ==> outbox[|outbox| - 1].message == ErrorMessage(request.requestId, "Failed to set setting: " + r.error))
    {
      if !SetRequestComplete(request) {
        SendError(client, "Missing section, option, or value", request.requestId, world.failing);
        return;
      }
      var st := manager.SetSetting(Key(request.section.value, request.option.value), request.value.value);
      if st.Failure? {
        SendError(client, "Failed to set setting: " + st.error, request.requestId, world.failing);
        return;
      }
      Send(client, SettingUpdated(request.requestId, request.section.value, request.option.value, request.value.value), world.failing);
    }

    /**
     * `handle_get_camera_setting`: an incomplete request is answered with
     * an error and the manager is not called; otherwise the value read, or
     * the failure, is sent back.
     */
    method HandleGetCameraSetting(client: Client, request: Request, world: World)
      requires Valid()
      modifies this`outbox
      ensures |outbox| == |old(outbox)| + 1 && outbox[..|old(outbox)|] == old(outbox)
      ensures !GetRequestComplete(request) ==>
        outbox[|outbox| - 1] == Outgoing({client} - world.failing, ErrorMessage(request.requestId, "Missing section or option"))
      ensures GetRequestComplete(request) && !manager.IsCameraReady() ==>
        outbox[|outbox| - 1].message == ErrorMessage(request.requestId, "Failed to get setting: " + "Camera not ready")
      ensures GetRequestComplete(request) && manager.IsCameraReady() ==>
        var key := Key(request.section.value, request.option.value);
        var r := GetResult(manager.camera.settings, key);
        && (r.Ok? ==> outbox[|outbox| - 1].message == SettingValue(request.requestId, key.section, key.option, r.value))
        && (r.Err? ==> outbox[|outbox| - 1].message == ErrorMessage(request.requestId, "Failed to get setting: " + r.error))
    {
      if !GetRequestComplete(request) {
        SendError(client, "Missing section or option", request.requestId, world.failing);
        return;
      }
      var r := manager.GetSetting(Key(request.section.value, request.option.value));
      if r.Err? {
        SendError(client, "Failed to get setting: " + r.error, request.requestId, world.failing);
        return;
      }
      Send(client, SettingValue(request.requestId, request.section.value, request.option.value, r.value), world.failing);
    }

    /**
     * `handle_message`: the six known types go to their handlers; any other
     * is answered with "Unknown message type". No handler changes the set
     * of connections.
     */
    method HandleMessage(client: Client, request: Request, world: World)
      requires Valid()
      modifies this`isStreaming, this`previewTask, this`tasksCreated, this`outbox, manager, {manager.camera}`settings
      ensures Valid() && manager.camera == old(manager.camera) && connections == old(connections)
      ensures |outbox| == |old(outbox)| + 1 && outbox[..|old(outbox)|] == old(outbox)
      ensures Route(request.kind).None? ==>
        && outbox[|outbox| - 1] == Outgoing({client} - world.failing, ErrorMessage(request.requestId, UnknownType(request.kind)))
        && isStreaming == old(isStreaming) && tasksCreated == old(tasksCreated)
      ensures Route(request.kind) != Some(StartPreview) && Route(request.kind) != Some(CapturePhoto) ==>
        tasksCreated == old(tasksCreated)
    {
      var k := Route(request.kind);
      if k.None? {
        SendError(client, UnknownType(request.kind), request.requestId, world.failing);
        return;
      }
      match k.value
      case StartPreview => HandleStartPreview(client, request.requestId, world.failing);
      case StopPreview => HandleStopPreview(client, request.requestId, world.failing);
      case CapturePhoto => HandleCapturePhoto(client, request, world);
      case GetCameraInfo => SendCameraInfo(client, request.requestId, world);
      case SetCameraSetting => HandleSetCameraSetting(client, request, world);
      case GetCameraSetting => HandleGetCameraSetting(client, request, world);
    }

    /** One received item of the connection loop; a failure is answered with its text. */
    method HandleInbound(client: Client, item: Inbound, world: World)
      requires Valid()
      modifies this`isStreaming, this`previewTask, this`tasksCreated, this`outbox, manager, {manager.camera}`settings
      ensures Valid() && manager.camera == old(manager.camera) && connections == old(connections)
      ensures |outbox| == |old(outbox)| + 1 && outbox[..|old(outbox)|] == old(outbox)
      ensures item.NotJson? ==> outbox == old(outbox) + [Outgoing({client} - world.failing, ErrorMessage(None, "Invalid JSON message"))]
      ensures item.NotObject? ==>
        outbox == old(outbox) + [Outgoing({client} - world.failing, ErrorMessage(None, "'" + item.typeName + "' object has no attribute 'get'"))]
      ensures item.ReceiveFailed? ==> outbox == old(outbox) + [Outgoing({client} - world.failing, ErrorMessage(None, item.error))]
    {
      match item
      case Object(request) => HandleMessage(client, request, world);
      case NotJson => SendError(client, "Invalid JSON message", None, world.failing);
      case NotObject(typeName) => SendError(client, "'" + typeName + "' object has no attribute 'get'", None, world.failing);
      case ReceiveFailed(error) => SendError(client, error, None, world.failing);
    }

    /**
     * `handle_connection`, for a connection whose task is cancelled after
     * the items in `items`: the client joins the set and is greeted with a
     * confirmation and the camera's report; each item is handled in turn,
     * a failed receive being answered with its error like any other; on
     * cancellation the client leaves the set, and the stream is stopped
     * when no client is left. The receive loop has no exit of its own: a
     * client that has gone keeps the loop answering failed receives until
     * the task is cancelled.
     */
    method HandleConnection(client: Client, greeting: World, items: seq<(Inbound, World)>)
      requires Valid()
      modifies this`connections, this`isStreaming, this`previewTask, this`tasksCreated, this`outbox, manager, {manager.camera}`settings
      ensures Valid() && manager.camera == old(manager.camera)
      ensures connections == old(connections) - {client}
      ensures connections == {} ==> !isStreaming && previewTask.None?
      ensures |outbox| == |old(outbox)| + 2 + |items|
      ensures outbox[|old(outbox)|] == Outgoing({client} - greeting.failing, Connected)
      ensures outbox[|old(outbox)| + 1].message.CameraInfoMessage? && outbox[|old(outbox)| + 1].message.requestId.None?
    {
      connections := connections + {client};
      Send(client, Connected, greeting.failing);
      SendCameraInfo(client, None, greeting);
      ghost var greeted := outbox;
      var i := 0;
      while i < |items|
        invariant 0 <= i <= |items|
        invariant Valid() && manager.camera == old(manager.camera)
        invariant connections == old(connections) + {client}
        invariant |outbox| == |greeted| + i && outbox[..|greeted|] == greeted
      {
        HandleInbound(client, items[i].0, items[i].1);
        i := i + 1;
      }
      connections := connections - {client};
      if connections == {} && isStreaming {
        StopPreviewStream();
      }
    }

    /**
     * One pass of `preview_stream_loop`: with no client, nothing happens
     * (the loop sleeps) and no frame is asked for; otherwise a frame is
     * fetched and broadcast with the next frame number. A camera that is
     * not ready raises, and the pass ends without a frame.
     */
    method StreamTick(tick: Tick)
      requires Valid()
      modifies this`connections, this`frameCount, this`outbox, {manager.camera}`settings
      ensures Valid() && manager.camera == old(manager.camera)
      ensures old(connections) == {} ==>
        && connections == {} && frameCount == old(frameCount) && outbox == old(outbox)
        && (manager.camera != null ==> manager.camera.settings == old(manager.camera.settings))
      ensures old(connections) != {} && !manager.IsCameraReady() ==>
        connections == old(connections) && frameCount == old(frameCount) && outbox == old(outbox)
      ensures old(connections) != {} && manager.IsCameraReady() ==>
        && connections == old(connections) - tick.failing
        && frameCount == old(frameCount) + 1
        && |outbox| == |old(outbox)| + 1 && outbox[..|old(outbox)|] == old(outbox)
        && outbox[|old(outbox)|].to == old(connections) - tick.failing
        && outbox[|old(outbox)|].message.PreviewFrame?
        && outbox[|old(outbox)|].message.frameNumber == old(frameCount)
    {
      if connections == {} {
        return;
      }
      var image := manager.GetPreviewFrame(tick.frame);
      if image.Err? {
        return;
      }
      var message := PreviewFrame(image.value, frameCount);
      frameCount := frameCount + 1;
      Broadcast(message, tick.failing);
    }

    /**
     * `preview_stream_loop`, over the passes it makes before it is
     * cancelled: it runs only while streaming. Each frame sent carries the
     * next frame number, so the numbers sent are consecutive; a client
     * leaves the set only when a send to it failed, and every client whose
     * sends never failed stays.
     */
    method PreviewStreamLoop(ticks: seq<Tick>)
      requires Valid()
      modifies this`connections, this`frameCount, this`outbox, {manager.camera}`settings
      ensures Valid() && manager.camera == old(manager.camera)
      ensures !isStreaming ==> connections == old(connections) && frameCount == old(frameCount) && outbox == old(outbox)
      ensures connections <= old(connections)
      ensures forall c :: c in old(connections) - connections ==> exists j :: 0 <= j < |ticks| && c in ticks[j].failing
      ensures forall c :: c in old(connections) && (forall j :: 0 <= j < |ticks| ==> c !in ticks[j].failing) ==> c in connections
      ensures frameCount == old(frameCount) + (|outbox| - |old(outbox)|)
      ensures |old(outbox)| <= |outbox| && outbox[..|old(outbox)|] == old(outbox)
      ensures forall j :: |old(outbox)| <= j < |outbox| ==>
        outbox[j].message.PreviewFrame? && outbox[j].message.frameNumber == old(frameCount) + (j - |old(outbox)|)
    {
      var i := 0;
      while i < |ticks| && isStreaming
        invariant 0 <= i <= |ticks|
        invariant Valid() && manager.camera == old(manager.camera)
        invariant isStreaming == old(isStreaming) && (!isStreaming ==> i == 0)
        invariant i == 0 ==> connections == old(connections) && frameCount == old(frameCount) && outbox == old(outbox)
        invariant connections <= old(connections)
        invariant forall c :: c in old(connections) - connections ==> exists j :: 0 <= j < i && c in ticks[j].failing
        invariant forall c :: c in old(connections) && (forall j :: 0 <= j < i ==> c !in ticks[j].failing) ==> c in connections
        invariant frameCount == old(frameCount) + (|outbox| - |old(outbox)|)
        invariant |old(outbox)| <= |outbox| && outbox[..|old(outbox)|] == old(outbox)
        invariant forall j :: |old(outbox)| <= j < |outbox| ==>
          outbox[j].message.PreviewFrame? && outbox[j].message.frameNumber == old(frameCount) + (j - |old(outbox)|)
      {
        StreamTick(ticks[i]);
        i := i + 1;
      }
    }
  }
}

=== FILE: manager.dfy ===
/**
 * The camera manager of the booth camera service: connects a gPhoto2 camera
 * with a bounded number of attempts, restarts and shuts it down, and guards
 * every camera operation with a readiness check.
 *
 * `hw(k)` is what the camera hardware does on the connection attempt made
 * when `k` attempts have failed since the counter was last reset. Waiting
 * between attempts is recorded, not performed.
 */
module Manager {
  import opened Wrappers
  import opened Text
  import opened CameraBase
  import opened GPhotoCamera

  /** The manager's configuration; a missing entry takes its default. */
  datatype ManagerConfig = ManagerConfig(
    maxRestartAttempts: Option<int>, restartDelay: Option<int>,
    resolution: Option<Size>, previewResolution: Option<Size>,
    previewIso: Option<int>, captureIso: Option<int>,
    previewRotation: Option<int>, captureRotation: Option<int>,
    flip: Option<bool>, deleteInternalMemory: Option<bool>, photosDir: Option<string>)

  function Get<T>(o: Option<T>, default: T): T {
    if o.Some? then o.value else default
  }

  function MaxAttempts(c: ManagerConfig): int { Get(c.maxRestartAttempts, 3) }
  function RestartDelay(c: ManagerConfig): int { Get(c.restartDelay, 5) }
  function Rotation(c: ManagerConfig): (int, int) { (Get(c.previewRotation, 0), Get(c.captureRotation, 0)) }
  function PhotosDir(c: ManagerConfig): string { Get(c.photosDir, "/app/photos") }

  /** The `TypeError` Python raises for `image.save(filepath, 'JPEG', 95)`: `Image.save` takes `self`, `fp` and `format` only. */
  const SaveCallError := "Image.save() takes from 2 to 3 positional arguments but 4 were given"

  /**
   * `os.path.join(dir, name)` for two parts: an absolute name replaces the
   * directory, and a separator is put in only where one is missing.
   */
  function JoinPath(dir: string, name: string): (p: string)
    ensures StartsWith(name, "/") ==> p == name
    ensures !StartsWith(name, "/") ==> EndsWith(p, name) && StartsWith(p, dir)
    ensures !StartsWith(name, "/") && dir != "" && !EndsWith(dir, "/") ==> p == dir + "/" + name
  {
    if StartsWith(name, "/") then name
    else if dir == "" || EndsWith(dir, "/") then dir + name
    else dir + "/" + name
  }

  /**
   * The `while` loop of `_try_connect_camera`, from `k` failed attempts:
   * the count afterwards and how the loop ended, `None` when it made no
   * attempt at all.
   */
  function ConnectFrom(k: nat, max: int, rotation: (int, int), hw: nat -> Hardware): (r: (nat, Option<Status>))
    ensures k <= r.0
    ensures k < max ==> r.0 <= max && r.1.Some?
    decreases max - k
  {
    if k >= max then (k, None)
    else
      var st := InitializeOutcome(rotation, hw(k));
      if st.Success? then (k, Some(Success))
      else
        var next: nat := k + 1;
        if next < max then ConnectFrom(next, max, rotation, hw)
        else (next, Some(Failure("Failed to initialize camera after " + IntToString(max) + " attempts: " + st.error)))
  }

  /** Every attempt from `k0` up to `k` failed. */
  ghost predicate FailedFrom(k0: nat, k: nat, rotation: (int, int), hw: nat -> Hardware) {
    forall j :: k0 <= j < k ==> InitializeOutcome(rotation, hw(j)).Failure?
  }

  /** Attempts that failed before the last allowed one leave the rest of the loop to the next attempt. */
  lemma {:induction false} ConnectFromSkip(k0: nat, k: nat, max: int, rotation: (int, int), hw: nat -> Hardware)
    requires k0 <= k < max && FailedFrom(k0, k, rotation, hw)
    ensures ConnectFrom(k0, max, rotation, hw) == ConnectFrom(k, max, rotation, hw)
    decreases k - k0
  {
    if k0 < k {
      ConnectFromSkip(k0 + 1, k, max, rotation, hw);
    }
  }

  lemma MulSucc(d: int, n: int)
    ensures d * (n + 1) == d * n + d
  {
  }

  /** The loop ends in success exactly at the first attempt that succeeds, all earlier ones having failed. */
  lemma {:induction false} ConnectSucceedsAtFirstSuccess(k: nat, max: int, rotation: (int, int), hw: nat -> Hardware)
    requires k < max
    ensures var r := ConnectFrom(k, max, rotation, hw);
      && (r.1 == Some(Success) <==> exists j :: k <= j < max && InitializeOutcome(rotation, hw(j)) == Success)
      && (r.1 == Some(Success) ==> InitializeOutcome(rotation, hw(r.0)) == Success)
      && (forall j :: k <= j < r.0 ==> InitializeOutcome(rotation, hw(j)).Failure?)
    decreases max - k
  {
    if InitializeOutcome(rotation, hw(k)).Failure? && k + 1 < max {
      ConnectSucceedsAtFirstSuccess(k + 1, max, rotation, hw);
    }
  }

  /**
   * When every attempt fails, the loop makes exactly `max - k` attempts
   * and raises with the last attempt's error.
   */
  lemma {:induction false} ConnectAllFail(k: nat, max: int, rotation: (int, int), hw: nat -> Hardware)
    requires k < max
    requires forall j :: k <= j < max ==> InitializeOutcome(rotation, hw(j)).Failure?
    ensures ConnectFrom(k, max, rotation, hw) ==
      (max as nat, Some(Failure("Failed to initialize camera after " + IntToString(max) + " attempts: " +
                                InitializeOutcome(rotation, hw(max - 1)).error)))
    decreases max - k
  {
    if k + 1 < max {
      ConnectAllFail(k + 1, max, rotation, hw);
    }
  }

  /** With the counter already at the maximum, the loop makes no attempt. */
  lemma ConnectExhausted(k: nat, max: int, rotation: (int, int), hw: nat -> Hardware)
    requires k >= max
    ensures ConnectFrom(k, max, rotation, hw) == (k, None)
  {
  }

  /** `_try_connect_camera` as written: a loop that makes no attempt returns normally. */
  function TryConnectAsWritten(k: nat, max: int, rotation: (int, int), hw: nat -> Hardware): (nat, Status) {
    var r := ConnectFrom(k, max, rotation, hw);
    (r.0, if r.1.Some? then r.1.value else Success)
  }

  /** The error raised when no attempt is left. */
  function NoAttemptLeft(max: int): string {
    "Failed to initialize camera after " + IntToString(max) + " attempts"
  }

  /** `_try_connect_camera` as intended: it reports success only after an attempt succeeded. */
  function TryConnect(k: nat, max: int, rotation: (int, int), hw: nat -> Hardware): (nat, Status) {
    var r := ConnectFrom(k, max, rotation, hw);
    (r.0, if r.1.Some? then r.1.value else Failure(NoAttemptLeft(max)))
  }

  /** As written, connecting with the attempts used up "succeeds" although no camera was initialized. */
  lemma ExhaustedConnectAsWrittenSucceeds(max: int, rotation: (int, int), hw: nat -> Hardware)
    requires max >= 0
    ensures TryConnectAsWritten(max as nat, max, rotation, hw) == (max as nat, Success)
  {
  }

  /** As intended, a connection reports success only when an attempt initialized the camera. */
  lemma TryConnectSuccessMeansInitialized(k: nat, max: int, rotation: (int, int), hw: nat -> Hardware)
    ensures TryConnect(k, max, rotation, hw).1 == Success ==>
      k < max && InitializeOutcome(rotation, hw(TryConnect(k, max, rotation, hw).0)) == Success
  {
    if k < max {
      ConnectSucceedsAtFirstSuccess(k, max, rotation, hw);
    }
  }

  /** What the manager's `get_camera_info` reports. */
  datatype ManagerInfo = NotConnected(initialized: bool) | Info(info: CameraInfo)

  class CameraManager {
    const config: ManagerConfig
    var camera: GPhoto2Camera?
    var restartAttempts: nat
    var initialized: bool
    /** The seconds spent waiting between attempts. */
    ghost var waitedS: int

    ghost predicate Valid()
      reads this, camera
    {
      camera != null ==> camera.Valid()
    }

    /** `__init__`: no camera, no attempt made, not initialized. */
    constructor (config: ManagerConfig)
      ensures Valid() && this.config == config
      ensures camera == null && restartAttempts == 0 && !initialized && waitedS == 0
    {
      this.config := config;
      camera := null;
      restartAttempts := 0;
      initialized := false;
      waitedS := 0;
    }

    /**
     * The `while` loop of `_try_connect_camera`: each attempt builds a new
     * camera and initializes it with the configured settings; a failure
     * counts, and is followed by a wait unless it was the last allowed.
     */
    method ConnectLoop(hw: nat -> Hardware) returns (outcome: Option<Status>)
      requires Valid()
      modifies this`camera, this`restartAttempts, this`waitedS
      ensures Valid()
      ensures (restartAttempts, outcome) == ConnectFrom(old(restartAttempts), MaxAttempts(config), Rotation(config), hw)
      ensures outcome == Some(Success) ==> camera != null && camera.initialized && camera.IsConnected()
      ensures outcome.None? ==> camera == old(camera)
      ensures waitedS == old(waitedS) + RestartDelay(config) *
        (restartAttempts - old(restartAttempts) - (if outcome.Some? && outcome.value.Failure? then 1 else 0))
    {
      var max := MaxAttempts(config);
      var delay := RestartDelay(config);
      ghost var rotation := Rotation(config);
      ghost var k0, w0 := restartAttempts, waitedS;
      while restartAttempts < max
        invariant Valid()
        invariant k0 <= restartAttempts
        invariant restartAttempts > k0 ==> restartAttempts < max && FailedFrom(k0, restartAttempts, rotation, hw)
        invariant waitedS == w0 + delay * (restartAttempts - k0)
        invariant restartAttempts == k0 ==> camera == old(camera)
        decreases max - restartAttempts
      {
        var st := Attempt(hw);
        if st.Success? {
          ConnectFromSkip(k0, restartAttempts, max, rotation, hw);
          return Some(Success);
        }
        ghost var before := restartAttempts;
        restartAttempts := restartAttempts + 1;
        if restartAttempts < max {
          MulSucc(delay, before - k0);
          waitedS := waitedS + delay;
        } else {
          ConnectFromSkip(k0, before, max, rotation, hw);
          return Some(Failure("Failed to initialize camera after " + IntToString(max) + " attempts: " + st.error));
        }
      }
      return None;
    }

    /** One attempt of the loop: a new camera, initialized with the configured settings. */
    method Attempt(hw: nat -> Hardware) returns (st: Status)
      requires Valid()
      modifies this`camera
      ensures Valid() && camera != null && fresh(camera)
      ensures st == InitializeOutcome(Rotation(config), hw(restartAttempts))
      ensures st == Success ==> camera.initialized && camera.IsConnected()
    {
      var c := new GPhoto2Camera();
      camera := c;
      st := c.Initialize(Get(config.resolution, Size(5184, 3456)), Get(config.previewResolution, Size(1280, 720)),
                         (Get(config.previewIso, 400), Get(config.captureIso, 100)), Rotation(config),
                         Get(config.flip, false), Get(config.deleteInternalMemory, false), hw(restartAttempts));
    }

    /** `_try_connect_camera` as written: a loop that made no attempt returns normally. */
    method TryConnectCameraAsWritten(hw: nat -> Hardware) returns (st: Status)
      requires Valid()
      modifies this
      ensures Valid() && initialized == old(initialized)
      ensures (restartAttempts, st) == TryConnectAsWritten(old(restartAttempts), MaxAttempts(config), Rotation(config), hw)
      ensures old(restartAttempts) < MaxAttempts(config) && st == Success ==>
        camera != null && camera.initialized && camera.IsConnected()
      ensures old(restartAttempts) >= MaxAttempts(config) ==> st == Success && camera == old(camera)
    {
      var outcome := ConnectLoop(hw);
      st := if outcome.Some? then outcome.value else Success;
    }

    /** `_try_connect_camera`, raising when no attempt was left to make. */
    method TryConnectCamera(hw: nat -> Hardware) returns (st: Status)
      requires Valid()
      modifies this
      ensures Valid() && initialized == old(initialized)
      ensures (restartAttempts, st) == TryConnect(old(restartAttempts), MaxAttempts(config), Rotation(config), hw)
      ensures st == Success ==> camera != null && camera.initialized && camera.IsConnected()
    {
      var outcome := ConnectLoop(hw);
      st := if outcome.Some? then outcome.value else Failure(NoAttemptLeft(MaxAttempts(config)));
    }

    /** `initialize` as written, on top of the loop as written. */
    method InitializeAsWritten(hw: nat -> Hardware) returns (st: Status)
      requires Valid()
      modifies this
      ensures Valid()
      ensures old(initialized) ==> st == Success && unchanged(this)
      ensures !old(initialized) ==>
        var r := TryConnectAsWritten(old(restartAttempts), MaxAttempts(config), Rotation(config), hw);
        && st == r.1
        && (st == Success ==> initialized && restartAttempts == 0)
        && (st.Failure? ==> !initialized && restartAttempts == r.0)
    {
      if initialized {
        return Success;
      }
      st := TryConnectCameraAsWritten(hw);
      if st.Success? {
        initialized := true;
        restartAttempts := 0;
      }
    }

    /**
     * `initialize`: does nothing when already initialized; otherwise
     * connects, and on success marks the manager initialized and clears the
     * attempt count; a failure is raised.
     */
    method Initialize(hw: nat -> Hardware) returns (st: Status)
      requires Valid()
      modifies this
      ensures Valid()
      ensures old(initialized) ==> st == Success && unchanged(this)
      ensures !old(initialized) ==>
        var r := TryConnect(old(restartAttempts), MaxAttempts(config), Rotation(config), hw);
        && st == r.1
        && (st == Success ==> initialized && restartAttempts == 0 && IsCameraReady())
        && (st.Failure? ==> !initialized && restartAttempts == r.0 && !IsCameraReady())
    {
      if initialized {
        return Success;
      }
      st := TryConnectCamera(hw);
      if st.Success? {
        initialized := true;
        restartAttempts := 0;
      }
    }

    /**
     * `restart_camera` as written: drops the camera (after disconnecting
     * it, whatever that gives), clears the count and the initialized flag,
     * and connects again with the loop as written; reports whether that
     * returned normally and never raises. With no attempt allowed it
     * reports success with no camera at all.
     */
    method RestartCameraAsWritten(hw: nat -> Hardware) returns (ok: bool)
      requires Valid()
      modifies this, camera
      ensures Valid()
      ensures var r := TryConnectAsWritten(0, MaxAttempts(config), Rotation(config), hw);
        restartAttempts == r.0 && (ok <==> r.1 == Success)
      ensures ok <==> initialized
      ensures MaxAttempts(config) > 0 ==> (ok <==> IsCameraReady())
      ensures MaxAttempts(config) <= 0 ==> ok && camera == null && !IsCameraReady()
    {
      if camera != null {
        camera.Disconnect();
        camera := null;
      }
      restartAttempts := 0;
      initialized := false;
      var st := TryConnectCameraAsWritten(hw);
      if st.Success? {
        initialized := true;
        return true;
      }
      return false;
    }

    /**
     * `restart_camera` corrected: as written, except that connecting fails
     * when the loop made no attempt, so it reports true exactly when the
     * camera is then ready.
     */
    method RestartCamera(hw: nat -> Hardware) returns (ok: bool)
      requires Valid()
      modifies this, camera
      ensures Valid()
      ensures var r := TryConnect(0, MaxAttempts(config), Rotation(config), hw);
        restartAttempts == r.0 && (ok <==> r.1 == Success)
      ensures ok <==> initialized
      ensures ok ==> IsCameraReady()
      ensures !ok ==> !IsCameraReady()
    {
      if camera != null {
        camera.Disconnect();
        camera := null;
      }
      restartAttempts := 0;
      initialized := false;
      var st := TryConnectCamera(hw);
      if st.Success? {
        initialized := true;
        return true;
      }
      return false;
    }

    /** `is_camera_ready`: initialized, holding a camera, and that camera connected. */
    predicate IsCameraReady()
      reads this, camera
    {
      initialized && camera != null && camera.IsConnected()
    }

    /**
     * `get_preview_frame`: raises unless ready; a camera failure gives a
     * black 640x480 frame instead of an error.
     */
    method GetPreviewFrame(frame: Result<Image>) returns (r: Result<Image>)
      requires Valid()
      modifies {camera}`settings
      ensures Valid()
      ensures !IsCameraReady() ==> r == Err("Camera not ready")
      ensures IsCameraReady() ==> r.Ok?
      ensures IsCameraReady() && camera.previewCompatible && frame.Ok? ==>
        r == Ok(Processed(frame.value, camera.previewRotation, camera.previewFlip, camera.previewResolution))
      ensures IsCameraReady() && frame.Err? ==>
        r == Ok(BlackFrame(if camera.previewCompatible then Size(640, 480)
                           else if camera.previewResolution.Some? then camera.previewResolution.value else DefaultPreviewSize))
      ensures camera != null ==>
        camera.settings ==
          if IsCameraReady() && camera.previewCompatible
          then PreviewSettings(old(camera.settings), camera.refuses, camera.previewViewfinder)
          else old(camera.settings)
    {
      if !IsCameraReady() {
        return Err("Camera not ready");
      }
      r := camera.GetPreviewFrame(frame);
      if r.Err? {
        r := Ok(BlackFrame(Size(640, 480)));
      }
    }

    /**
     * `capture_photo`: raises unless ready; a capture failure marks the
     * manager uninitialized, so it is no longer ready, and is raised.
     * (`stop_preview`, which it calls first, has no effect on this camera.)
     */
    method CapturePhoto(shot: Result<CameraFile>, download: Result<Image>, deleted: Status) returns (r: Result<Image>)
      requires Valid()
      modifies this, {camera}`settings
      ensures Valid() && camera == old(camera) && restartAttempts == old(restartAttempts)
      ensures !old(IsCameraReady()) ==> r == Err("Camera not ready") && initialized == old(initialized)
      ensures old(IsCameraReady()) ==> (r.Ok? <==> shot.Ok? && download.Ok? && (camera.deleteInternalMemory ==> deleted.Success?))
      ensures old(IsCameraReady()) && r.Ok? ==>
        IsCameraReady() && r.value == Processed(download.value, camera.captureRotation, camera.captureFlip, camera.resolution)
      ensures old(IsCameraReady()) && r.Err? ==> !initialized && !IsCameraReady()
      ensures old(IsCameraReady()) && r.Err? ==>
        r.error == CaptureFailure(shot, download, deleted, camera.deleteInternalMemory).value
      ensures camera != null ==>
        camera.settings ==
          if old(IsCameraReady())
          then CaptureSettings(old(camera.settings), camera.refuses, camera.previewViewfinder,
                               camera.previewIso, camera.captureIso, r.Ok?)
          else old(camera.settings)
    {
      if !IsCameraReady() {
        return Err("Camera not ready");
      }
      r := camera.CapturePhoto(shot, download, deleted);
      if r.Err? {
        initialized := false;
      }
    }

    /**
     * `save_photo` as written: `image.save(filepath, 'JPEG', 95)` passes the
     * quality as a third positional argument, which `Image.save(fp,
     * format=None, **params)` does not take, so the call raises before
     * anything is written, and the error is re-raised: the method always
     * raises, and `raised` is what.
     */
    method SavePhotoAsWritten(filename: string) returns (raised: string)
      ensures raised == SaveCallError
    {
      return SaveCallError;
    }

    /**
     * `save_photo` corrected to `image.save(filepath, 'JPEG', quality=95)`:
     * the photo goes to `filename` under the photos directory; `writeError`
     * is how writing the JPEG fails, if it does.
     */
    method SavePhoto(filename: string, writeError: Option<string>) returns (r: Result<string>)
      ensures writeError.None? ==> r == Ok(JoinPath(PhotosDir(config), filename))
      ensures writeError.Some? ==> r == Err(writeError.value)
    {
      if writeError.Some? {
        return Err(writeError.value);
      }
      return Ok(JoinPath(PhotosDir(config), filename));
    }

    /** `set_setting`: raises unless ready, then writes through the camera. */
    method SetSetting(key: Key, value: PyValue) returns (st: Status)
      requires Valid()
      modifies {camera}`settings
      ensures Valid()
      ensures !IsCameraReady() ==> st == Failure("Camera not ready") && (camera != null ==> camera.settings == old(camera.settings))
      ensures IsCameraReady() ==>
        var r := SetResult(old(camera.settings), camera.refuses, key, value);
        && (st == Success <==> r.Ok?)
        && (r.Err? ==> st == Failure(r.error))
        && camera.settings == Apply(old(camera.settings), camera.refuses, key, value)
    {
      if !IsCameraReady() {
        return Failure("Camera not ready");
      }
      st := camera.SetConfigValue(key, value);
    }

    /** `get_setting`: raises unless ready, then reads through the camera. */
    method GetSetting(key: Key) returns (r: Result<PyValue>)
      requires Valid()
      ensures !IsCameraReady() ==> r == Err("Camera not ready")
      ensures IsCameraReady() ==> r == GetResult(camera.settings, key)
    {
      if !IsCameraReady() {
        return Err("Camera not ready");
      }
      r := camera.GetConfigValue(key);
    }

    /** `get_camera_info`: "not connected" unless ready, else the camera's own report. */
    function GetCameraInfo(abilities: Result<Detected>): (r: ManagerInfo)
      reads this, camera
      ensures !IsCameraReady() ==> r == NotConnected(initialized)
      ensures IsCameraReady() ==> r.Info? && r.info.connected && r.info.initialized == camera.initialized
    {
      if !IsCameraReady() then NotConnected(initialized) else Info(camera.GetCameraInfo(abilities))
    }

    /** `shutdown`: disconnects and drops the camera (whatever disconnecting gives) and ends uninitialized. */
    method Shutdown()
      requires Valid()
      modifies this, camera
      ensures Valid() && camera == null && !initialized && !IsCameraReady()
      ensures restartAttempts == old(restartAttempts)
    {
      if camera != null {
        camera.Disconnect();
        camera := null;
      }
      initialized := false;
    }
  }

  /**
   * With the attempts used up by a first `initialize` that failed, a second
   * one as written reports success without any attempt, and the manager
   * then counts as initialized.
   */
  method SecondInitializeAsWritten(hw: nat -> Hardware) returns (first: Status, second: Status)
    requires forall k :: InitializeOutcome((0, 0), hw(k)).Failure?
    ensures first.Failure? && second == Success
  {
    var m := new CameraManager(ManagerConfig(None, None, None, None, None, None, None, None, None, None, None));
    first := m.InitializeAsWritten(hw);
    ConnectAllFail(0, 3, (0, 0), hw);
    second := m.InitializeAsWritten(hw);
  }

  /** With the guard, the second `initialize` raises as the first did. */
  method SecondInitialize(hw: nat -> Hardware) returns (first: Status, second: Status)
    requires forall k :: InitializeOutcome((0, 0), hw(k)).Failure?
    ensures first.Failure? && second.Failure?
  {
    var m := new CameraManager(ManagerConfig(None, None, None, None, None, None, None, None, None, None, None));
    first := m.Initialize(hw);
    ConnectAllFail(0, 3, (0, 0), hw);
    second := m.Initialize(hw);
  }

  /** With `max_restart_attempts` set to 0, a restart as written reports success and leaves no camera. */
  method RestartWithoutAttemptsAsWritten(hw: nat -> Hardware) returns (ok: bool, ready: bool)
    ensures ok && !ready
  {
    var m := new CameraManager(ManagerConfig(Some(0), None, None, None, None, None, None, None, None, None, None));
    ok := m.RestartCameraAsWritten(hw);
    ready := m.IsCameraReady();
  }

  /** With the guard, the same restart reports failure. */
  method RestartWithoutAttempts(hw: nat -> Hardware) returns (ok: bool, ready: bool)
    ensures !ok && !ready
  {
    var m := new CameraManager(ManagerConfig(Some(0), None, None, None, None, None, None, None, None, None, None));
    ok := m.RestartCamera(hw);
    ready := m.IsCameraReady();
  }
}

=== FILE: service.dfy ===
/**
 * The HTTP and websocket endpoints of the camera service: the decisions they
 * take around the one global gPhoto2 backend.
 *
 * The camera a backend drives is given as `CameraDevice`; the clock, the
 * file system's answers and the driver's capture outcomes are parameters.
 * Response bodies are the values the endpoints return, without their JSON
 * encoding.
 */
module Service {
  import opened Wrappers
  import opened Text
  import opened Backend

  /** What a camera does when a backend drives it. */
  datatype CameraDevice = CameraDevice(
    libraryAvailable: bool, initError: Option<string>,
    rejects: map<string, string>, readings: map<string, string>)

  /** An endpoint's answer: its body, or an HTTP error with its status code and detail. */
  datatype Reply<+T> = Body(value: T) | HttpError(code: int, detail: string)

  /** `{"success": True, "message": ...}`. */
  datatype Done = Done(message: string)

  /** `CameraStatusResponse`: only `connected=False`, or the backend's full status. */
  datatype StatusReply = NotConnected | Reported(status: CameraStatus)

  /** The fields of a configuration update; an absent field is `None`. */
  datatype ConfigUpdate = ConfigUpdate(
    isoLiveview: Option<string>, shutterSpeedLiveview: Option<string>,
    isoCapture: Option<string>, shutterSpeedCapture: Option<string>,
    disableViewfinderBeforeCapture: Option<bool>)

  datatype CaptureRequest = CaptureRequest(sessionId: string, sequenceNumber: int, outputDirectory: string)

  datatype CaptureReply = CaptureReply(
    success: bool, imagePath: Option<string>, metadata: Option<Metadata>, error: Option<string>, captureTimeMs: int)

  /** What the live view stream sends: a JPEG frame, or a JSON error object. */
  datatype StreamOut = Bytes(data: seq<bv8>) | JsonError(error: string)

  /** Why the live view stream ended. */
  datatype StreamEnd = StartFailed(error: string) | CameraDisconnected | LiveviewInactive | TooManyErrors | ClientLeft

  /**
   * One pass of the stream loop: the time, what the driver's preview gives,
   * and whether sending a frame to the client raises (as it does once the
   * client has left).
   */
  datatype StreamTick = StreamTick(nowMs: int, preview: Preview, sendFails: bool)

  /** The frame errors the stream tolerates. */
  const MaxStreamErrors := 50

  /** Python truthiness of an optional string. */
  predicate Given(s: Option<string>) {
    s.Some? && s.value != ""
  }

  /**
   * `update_config`'s merge: each ISO and shutter field is overwritten only
   * by a non-empty value, the viewfinder flag only by a present one, and no
   * other field changes.
   */
  function MergeConfig(c: CameraConfig, u: ConfigUpdate): (r: CameraConfig)
    ensures r.isoLiveview == (if Given(u.isoLiveview) then u.isoLiveview.value else c.isoLiveview)
    ensures r.shutterSpeedLiveview == (if Given(u.shutterSpeedLiveview) then u.shutterSpeedLiveview.value else c.shutterSpeedLiveview)
    ensures r.isoCapture == (if Given(u.isoCapture) then u.isoCapture.value else c.isoCapture)
    ensures r.shutterSpeedCapture == (if Given(u.shutterSpeedCapture) then u.shutterSpeedCapture.value else c.shutterSpeedCapture)
    ensures r.disableViewfinderBeforeCapture ==
      (if u.disableViewfinderBeforeCapture.Some? then u.disableViewfinderBeforeCapture.value else c.disableViewfinderBeforeCapture)
    ensures r.(isoLiveview := c.isoLiveview, shutterSpeedLiveview := c.shutterSpeedLiveview, isoCapture := c.isoCapture,
               shutterSpeedCapture := c.shutterSpeedCapture, disableViewfinderBeforeCapture := c.disableViewfinderBeforeCapture) == c
  {
    var c1 := if Given(u.isoLiveview) then c.(isoLiveview := u.isoLiveview.value) else c;
    var c2 := if Given(u.shutterSpeedLiveview) then c1.(shutterSpeedLiveview := u.shutterSpeedLiveview.value) else c1;
    var c3 := if Given(u.isoCapture) then c2.(isoCapture := u.isoCapture.value) else c2;
    var c4 := if Given(u.shutterSpeedCapture) then c3.(shutterSpeedCapture := u.shutterSpeedCapture.value) else c3;
    if u.disableViewfinderBeforeCapture.Some? then c4.(disableViewfinderBeforeCapture := u.disableViewfinderBeforeCapture.value) else c4
  }

  /** Applying the same update twice is applying it once; an empty update changes nothing. */
  lemma MergeIdempotent(c: CameraConfig, u: ConfigUpdate)
    ensures MergeConfig(MergeConfig(c, u), u) == MergeConfig(c, u)
    ensures MergeConfig(c, ConfigUpdate(None, None, None, None, None)) == c
  {
  }

  /** A later update wins over an earlier one on every field it gives. */
  lemma MergeLaterWins(c: CameraConfig, u: ConfigUpdate, v: ConfigUpdate)
    requires Given(v.isoLiveview) && Given(v.shutterSpeedLiveview) && Given(v.isoCapture) && Given(v.shutterSpeedCapture)
    requires v.disableViewfinderBeforeCapture.Some?
    ensures MergeConfig(MergeConfig(c, u), v) == MergeConfig(c, v)
  {
  }

  /** An exception raised inside an endpoint's `try`: an `HTTPException`, or any other with its text. */
  datatype Raised = HttpRaised(code: int, detail: string) | OtherRaised(message: string)

  /** `str(e)`: an `HTTPException` prints as "<code>: <detail>". */
  function Describe(e: Raised): string {
    if e.HttpRaised? then IntToString(e.code) + ": " + e.detail else e.message
  }

  /** The endpoints' `except Exception as e: raise HTTPException(500, str(e))`, as written. */
  function CatchAllAsWritten<T>(e: Raised): (r: Reply<T>)
    ensures r.HttpError? && r.code == 500
  {
    HttpError(500, Describe(e))
  }

  /** The same handler letting an `HTTPException` through unchanged. */
  function CatchAll<T>(e: Raised): (r: Reply<T>)
    ensures e.HttpRaised? ==> r == HttpError(e.code, e.detail)
    ensures e.OtherRaised? ==> r == HttpError(500, e.message)
  {
    if e.HttpRaised? then HttpError(e.code, e.detail) else HttpError(500, e.message)
  }

  /** As written, a 503 raised in the `try` reaches the client as a 500 whose detail starts with "503: ". */
  lemma CatchAllAsWrittenMasks503<T>(detail: string)
    ensures CatchAllAsWritten<T>(HttpRaised(503, detail)) == HttpError(500, "503: " + detail)
    ensures CatchAll<T>(HttpRaised(503, detail)) == HttpError(503, detail)
  {
  }

  /** `f"{session_id}_{sequence_number}_{timestamp}.jpg"`. */
  function CaptureFilename(sessionId: string, sequenceNumber: int, timestamp: int): string {
    sessionId + "_" + IntToString(sequenceNumber) + "_" + IntToString(timestamp) + ".jpg"
  }

  /** The index of the first `_` in `s`, or `|s|` when there is none. */
  function UnderscoreAt(s: string): (i: nat)
    ensures i <= |s|
  {
    if s == [] then 0 else if s[0] == '_' then 0 else 1 + UnderscoreAt(s[1..])
  }

  /** A string without `_`, then `_`: the first `_` is the one that follows it. */
  lemma {:induction false} UnderscoreAtAfter(a: string, b: string)
    requires forall k :: 0 <= k < |a| ==> a[k] != '_'
    ensures UnderscoreAt(a + "_" + b) == |a|
  {
    if a != [] {
      assert (a + "_" + b)[1..] == a[1..] + "_" + b;
      UnderscoreAtAfter(a[1..], b);
    }
  }

  /** Two strings without `_` followed by `_`: the split is unique. */
  lemma SplitAtUnderscore(a: string, b: string, a': string, b': string)
    requires forall k :: 0 <= k < |a| ==> a[k] != '_'
    requires forall k :: 0 <= k < |a'| ==> a'[k] != '_'
    requires a + "_" + b == a' + "_" + b'
    ensures a == a' && b == b'
  {
    var s := a + "_" + b;
    UnderscoreAtAfter(a, b);
    UnderscoreAtAfter(a', b');
    assert a == s[..|a|] == a';
    assert b == s[|a| + 1..] == b';
  }

  /** Within a session, the file name determines the sequence number and the timestamp. */
  lemma CaptureFilenameInjective(sessionId: string, n: int, t: int, n': int, t': int)
    requires CaptureFilename(sessionId, n, t) == CaptureFilename(sessionId, n', t')
    ensures n == n' && t == t'
  {
    var name := CaptureFilename(sessionId, n, t);
    var p := sessionId + "_";
    var a, b, a', b' := IntToString(n), IntToString(t), IntToString(n'), IntToString(t');
    assert name == p + (a + "_" + b) + ".jpg";
    assert name == p + (a' + "_" + b') + ".jpg";
    assert a + "_" + b == name[|p|..|name| - 4] == a' + "_" + b';
    forall k | 0 <= k < |a| ensures a[k] != '_' {
      IntToStringChars(n, k);
    }
    forall k | 0 <= k < |a'| ensures a'[k] != '_' {
      IntToStringChars(n', k);
    }
    SplitAtUnderscore(a, b, a', b');
    IntToStringInjective(n, n');
    IntToStringInjective(t, t');
  }

  // ---------------------------------------------------------------------------
  // Paths, as pathlib parses, joins and prints them

  /** A POSIX path as `PurePosixPath` holds it: its root (`""`, `"/"` or `"//"`) and its components. */
  datatype PurePath = PurePath(root: string, parts: seq<string>)

  /** A component pathlib keeps: not empty, not `.`, and without a separator. */
  predicate Plain(part: string) {
    part != "" && part != "." && forall k :: 0 <= k < |part| ==> part[k] != '/'
  }

  /** Every component of `p` is one pathlib keeps. */
  predicate Normal(p: PurePath) {
    forall k :: 0 <= k < |p.parts| ==> Plain(p.parts[k])
  }

  /** The index of the first `/` in `s`, or `|s|` when there is none. */
  function SlashAt(s: string): (i: nat)
    ensures i <= |s| && (i < |s| ==> s[i] == '/')
    ensures forall k :: 0 <= k < i ==> s[k] != '/'
  {
    if s == [] then 0 else if s[0] == '/' then 0 else 1 + SlashAt(s[1..])
  }

  /** The components of `s`: the pieces between separators, without the empty ones and `.`. */
  function Components(s: string): (c: seq<string>)
    ensures forall k :: 0 <= k < |c| ==> Plain(c[k])
    decreases |s|
  {
    var i := SlashAt(s);
    var head := s[..i];
    (if head == "" || head == "." then [] else [head]) + (if i < |s| then Components(s[i + 1..]) else [])
  }

  /** The root of `s`: two leading separators stay two, one or three and more become one. */
  function Root(s: string): (r: string)
    ensures r == "" || r == "/" || r == "//"
    ensures r != "" <==> s != [] && s[0] == '/'
  {
    if s == [] || s[0] != '/' then ""
    else if |s| >= 2 && s[1] == '/' && (|s| == 2 || s[2] != '/') then "//"
    else "/"
  }

  /** `PurePosixPath(s)`. */
  function ParsePath(s: string): (p: PurePath)
    ensures Normal(p)
  {
    PurePath(Root(s), Components(s))
  }

  /** `a / b`: an absolute `b` replaces `a`; otherwise its components follow those of `a`. */
  function PathJoin(a: PurePath, b: PurePath): (p: PurePath)
    ensures Normal(a) && Normal(b) ==> Normal(p)
    ensures b.root == "" ==> p.root == a.root && p.parts == a.parts + b.parts
  {
    if b.root != "" then b else PurePath(a.root, a.parts + b.parts)
  }

  /** The components joined with `/`. */
  function JoinParts(parts: seq<string>): string
    decreases |parts|
  {
    if parts == [] then "" else if |parts| == 1 then parts[0] else parts[0] + "/" + JoinParts(parts[1..])
  }

  /** `str(p)`: the root and the components, or `.` for the empty relative path. */
  function PathString(p: PurePath): string {
    if p.root == "" && p.parts == [] then "." else p.root + JoinParts(p.parts)
  }

  /** `str(Path(directory) / filename)`. */
  function OutputPath(directory: string, filename: string): (p: string)
    ensures ParsePath(p) == PathJoin(ParsePath(directory), ParsePath(filename))
  {
    var joined := PathJoin(ParsePath(directory), ParsePath(filename));
    ParsePrint(joined);
    PathString(joined)
  }

  /** A separator in front changes no component. */
  lemma ComponentsAfterSlash(s: string)
    ensures Components("/" + s) == Components(s)
  {
    assert ("/" + s)[1..] == s;
  }

  /** Components joined with `/` split back into themselves. */
  lemma {:induction false} ComponentsOfJoin(parts: seq<string>)
    requires forall k :: 0 <= k < |parts| ==> Plain(parts[k])
    ensures Components(JoinParts(parts)) == parts
    ensures parts != [] ==> JoinParts(parts)[0] != '/'
    decreases |parts|
  {
    if |parts| == 1 {
      assert SlashAt(parts[0]) == |parts[0]| by { SlashFree(parts[0]); }
      assert parts[0][..|parts[0]|] == parts[0];
    } else if |parts| > 1 {
      var s := JoinParts(parts);
      assert s == parts[0] + ("/" + JoinParts(parts[1..]));
      SlashAtConcat(parts[0], "/" + JoinParts(parts[1..]));
      assert s[..|parts[0]|] == parts[0];
      assert s[|parts[0]| + 1..] == JoinParts(parts[1..]);
      ComponentsOfJoin(parts[1..]);
      assert parts == [parts[0]] + parts[1..];
    }
  }

  lemma {:induction false} SlashFree(s: string)
    requires forall k :: 0 <= k < |s| ==> s[k] != '/'
    ensures SlashAt(s) == |s|
    decreases |s|
  {
    if s != [] {
      SlashFree(s[1..]);
    }
  }

  lemma {:induction false} SlashAtConcat(a: string, b: string)
    requires forall k :: 0 <= k < |a| ==> a[k] != '/'
    requires b != [] && b[0] == '/'
    ensures SlashAt(a + b) == |a|
    decreases |a|
  {
    if a != [] {
      assert (a + b)[1..] == a[1..] + b;
      SlashAtConcat(a[1..], b);
    }
  }

  /** Printing a path pathlib could hold and parsing it again gives the same path back. */
  lemma ParsePrint(p: PurePath)
    requires Normal(p) && (p.root == "" || p.root == "/" || p.root == "//")
    ensures ParsePath(PathString(p)) == p
  {
    var j := JoinParts(p.parts);
    ComponentsOfJoin(p.parts);
    var s := PathString(p);
    if p.root == "" && p.parts == [] {
      assert SlashAt(s) == 1;
      assert Components(s) == [];
    } else if p.root == "" {
      assert s == j;
    } else if p.root == "/" {
      RootedComponents(j, 1);
    } else {
      RootedComponents(j, 2);
    }
  }

  /** `n` separators, then components joined with `/`: the root has `n` separators and the components are kept. */
  lemma RootedComponents(j: string, n: nat)
    requires n == 1 || n == 2
    requires j != [] ==> j[0] != '/'
    ensures var s := (if n == 1 then "/" else "//") + j;
      Root(s) == (if n == 1 then "/" else "//") && Components(s) == Components(j)
  {
    ComponentsAfterSlash(j);
    if n == 2 {
      ComponentsAfterSlash("/" + j);
      assert "//" + j == "/" + ("/" + j);
    }
  }

  /** A plain component parses as itself, relative. */
  lemma PlainPath(f: string)
    requires Plain(f)
    ensures ParsePath(f) == PurePath("", [f])
  {
    SlashFree(f);
    assert f[..|f|] == f;
  }

  /** A leading `./` changes no component. */
  lemma DotPrefix(s: string)
    ensures Components("./" + s) == Components(s)
  {
    var d := "./" + s;
    assert d[0] == '.' && d[1] == '/';
    assert SlashAt(d) == 1;
    assert d[..1] == "." && d[2..] == s;
  }

  /** Printing a path with one more component at its end. */
  lemma PathStringSnoc(root: string, parts: seq<string>, last: string)
    requires last != ""
    ensures PathString(PurePath(root, parts + [last])) ==
      if parts == [] then root + last else root + JoinParts(parts) + "/" + last
  {
    JoinSnoc(parts, last);
  }

  /** A file name that is one plain component ends the output path, after a separator unless it is all of it. */
  lemma OutputPathEndsWithName(directory: string, filename: string)
    requires Plain(filename)
    ensures var p := OutputPath(directory, filename);
      p == filename || EndsWith(p, "/" + filename)
  {
    PlainPath(filename);
    var d := ParsePath(directory);
    PrintedEndsWithName(d.root, d.parts, filename);
  }

  lemma PrintedEndsWithName(root: string, parts: seq<string>, last: string)
    requires root == "" || root == "/" || root == "//"
    requires last != ""
    ensures var p := PathString(PurePath(root, parts + [last]));
      p == last || EndsWith(p, "/" + last)
  {
    PathStringSnoc(root, parts, last);
    if parts != [] {
      EndsWithAppend(root + JoinParts(parts), "/" + last);
    } else if root != "" {
      assert root + last == root[..|root| - 1] + ("/" + last);
      EndsWithAppend(root[..|root| - 1], "/" + last);
    }
  }

  lemma EndsWithAppend(a: string, b: string)
    ensures EndsWith(a + b, b)
  {
    assert (a + b)[|a + b| - |b|..] == b;
  }

  lemma {:induction false} JoinSnoc(parts: seq<string>, last: string)
    ensures JoinParts(parts + [last]) == if parts == [] then last else JoinParts(parts) + "/" + last
    decreases |parts|
  {
    if |parts| > 1 {
      assert (parts + [last])[1..] == parts[1..] + [last];
      JoinSnoc(parts[1..], last);
    } else if |parts| == 1 {
      assert parts + [last] == [parts[0], last];
    }
  }

  /** `Path("./photos")`, the request's default directory, is the relative path `photos`. */
  lemma DefaultDirectory()
    ensures ParsePath("./photos") == PurePath("", ["photos"])
  {
    assert Plain("photos");
    PlainPath("photos");
    DotPrefix("photos");
    assert "./photos" == "./" + "photos";
  }

  /** `Path(".")` is the empty relative path. */
  lemma DotDirectory()
    ensures ParsePath(".") == PurePath("", [])
  {
    assert SlashAt(".") == 1;
  }

  /** The request's default directory `./photos` loses its `./`. */
  lemma DefaultOutputPath(filename: string)
    requires Plain(filename)
    ensures OutputPath("./photos", filename) == "photos/" + filename
  {
    PlainPath(filename);
    DefaultDirectory();
    PathStringSnoc("", ["photos"], filename);
  }

  /** The directory `.` adds nothing to the file name. */
  lemma DotOutputPath(filename: string)
    requires Plain(filename)
    ensures OutputPath(".", filename) == filename
  {
    PlainPath(filename);
    DotDirectory();
    PathStringSnoc("", [], filename);
  }

  /** A capture file name whose session id has no separator is one plain component. */
  lemma CaptureFilenamePlain(sessionId: string, sequenceNumber: int, timestamp: int)
    requires forall k :: 0 <= k < |sessionId| ==> sessionId[k] != '/'
    ensures Plain(CaptureFilename(sessionId, sequenceNumber, timestamp))
  {
    var a, b := IntToString(sequenceNumber), IntToString(timestamp);
    var name := CaptureFilename(sessionId, sequenceNumber, timestamp);
    assert name == sessionId + "_" + a + "_" + b + ".jpg";
    forall k | 0 <= k < |a| ensures a[k] != '/' {
      IntToStringChars(sequenceNumber, k);
    }
    forall k | 0 <= k < |b| ensures b[k] != '/' {
      IntToStringChars(timestamp, k);
    }
    assert name[|name| - 1] == 'g';
  }

  /** With the request's default directory, a capture is saved as `photos/<session>_<sequence>_<timestamp>.jpg`. */
  lemma DefaultCapturePath(sessionId: string, sequenceNumber: int, timestamp: int)
    requires forall k :: 0 <= k < |sessionId| ==> sessionId[k] != '/'
    ensures OutputPath("./photos", CaptureFilename(sessionId, sequenceNumber, timestamp)) ==
      "photos/" + CaptureFilename(sessionId, sequenceNumber, timestamp)
  {
    CaptureFilenamePlain(sessionId, sequenceNumber, timestamp);
    DefaultOutputPath(CaptureFilename(sessionId, sequenceNumber, timestamp));
  }

  // ---------------------------------------------------------------------------
  // The live view stream, as a function of its passes

  /** The frame a pass sends: a non-empty frame the backend returned. */
  function PassSent(frame: Result<Option<seq<bv8>>>): (sent: Option<seq<bv8>>)
    ensures sent.Some? <==> frame.Ok? && frame.value.Some? && |frame.value.value| > 0
    ensures sent.Some? ==> sent.value == frame.value.value
  {
    if frame.Ok? && frame.value.Some? && |frame.value.value| > 0 then Some(frame.value.value) else None
  }

  /**
   * The error count after a pass: a frame error adds one, a frame sent
   * clears it unless its send raises, which adds one, and a missing frame
   * leaves it alone.
   */
  function PassCount(frame: Result<Option<seq<bv8>>>, sendFails: bool, errorCount: nat): (count: nat)
    ensures frame.Err? ==> count == errorCount + 1
    ensures PassSent(frame).Some? ==> count == (if sendFails then errorCount + 1 else 0)
    ensures frame.Ok? && PassSent(frame).None? ==> count == errorCount
  {
    if frame.Err? then errorCount + 1
    else if PassSent(frame).Some? then (if sendFails then errorCount + 1 else 0)
    else errorCount
  }

  /** The error message that ends a stream after too many frame errors. */
  const TooManyFrameErrors := "Too many frame errors (" + IntToString(MaxStreamErrors + 1) + ")"

  /** What the stream sends and why it ends. */
  datatype StreamReply = StreamReply(out: seq<StreamOut>, end: StreamEnd)

  /**
   * The stream loop over the passes in `ticks` once live view has been
   * started, for a connected backend with frame rate cap `cap` in frame
   * state `s`, with `errorCount` errors already counted.
   */
  function StreamRun(cap: int, s: FrameState, errorCount: nat, ticks: seq<StreamTick>): StreamReply
    decreases |ticks|
  {
    if ticks == [] then StreamReply([], ClientLeft)
    else if !s.active then StreamReply([JsonError("Live view not active")], LiveviewInactive)
    else
      var q := FrameRequest(cap, s, ticks[0].nowMs, ticks[0].preview);
      var sent := PassSent(q.result);
      var count := PassCount(q.result, ticks[0].sendFails, errorCount);
      var head := if sent.Some? then [Bytes(sent.value)] else [];
      if count > MaxStreamErrors then StreamReply(head + [JsonError(TooManyFrameErrors)], TooManyErrors)
      else var rest := StreamRun(cap, q.next, count, ticks[1..]); StreamReply(head + rest.out, rest.end)
  }

  /** The frames the backend hands out over the passes in `ticks`, in order, whatever the stream does with them. */
  function Delivered(cap: int, s: FrameState, ticks: seq<StreamTick>): seq<seq<bv8>>
    decreases |ticks|
  {
    if ticks == [] then []
    else
      var q := FrameRequest(cap, s, ticks[0].nowMs, ticks[0].preview);
      (if q.result.Ok? && q.result.value.Some? then [q.result.value.value] else []) + Delivered(cap, q.next, ticks[1..])
  }

  /** The frames among what the stream sends, in order. */
  function Frames(out: seq<StreamOut>): seq<seq<bv8>>
  {
    if out == [] then []
    else (if out[0].Bytes? then [out[0].data] else []) + Frames(out[1..])
  }

  lemma {:induction false} FramesAppend(a: seq<StreamOut>, b: seq<StreamOut>)
    ensures Frames(a + b) == Frames(a) + Frames(b)
  {
    if a == [] {
      assert a + b == b;
    } else {
      assert (a + b)[1..] == a[1..] + b;
      FramesAppend(a[1..], b);
    }
  }

  /** Once live view is off, the backend hands out no more frames. */
  lemma {:induction false} InactiveDeliversNothing(cap: int, s: FrameState, ticks: seq<StreamTick>)
    requires !s.active
    ensures Delivered(cap, s, ticks) == []
    decreases |ticks|
  {
    if ticks != [] {
      InactiveDeliversNothing(cap, s, ticks[1..]);
    }
  }

  /**
   * The stream sends exactly the frames the backend delivers, in order:
   * those of the passes it made before it ended, and all of them when it
   * ends because the client left or live view went off.
   */
  lemma {:induction false} StreamSendsDeliveredFrames(cap: int, s: FrameState, errorCount: nat, ticks: seq<StreamTick>)
    ensures var r := StreamRun(cap, s, errorCount, ticks);
      && (exists n :: 0 <= n <= |ticks| && Frames(r.out) == Delivered(cap, s, ticks[..n]))
      && (r.end.ClientLeft? || r.end.LiveviewInactive? ==> Frames(r.out) == Delivered(cap, s, ticks))
    decreases |ticks|
  {
    var r := StreamRun(cap, s, errorCount, ticks);
    if ticks == [] {
      assert Frames(r.out) == Delivered(cap, s, ticks[..0]);
    } else if !s.active {
      InactiveDeliversNothing(cap, s, ticks);
      assert Frames(r.out) == Delivered(cap, s, ticks[..0]);
    } else {
      var q := FrameRequest(cap, s, ticks[0].nowMs, ticks[0].preview);
      var sent := PassSent(q.result);
      var count := PassCount(q.result, ticks[0].sendFails, errorCount);
      var head := if sent.Some? then [Bytes(sent.value)] else [];
      var first := if q.result.Ok? && q.result.value.Some? then [q.result.value.value] else [];
      assert Frames(head) == first;
      assert Delivered(cap, s, ticks[..1]) == first + Delivered(cap, q.next, []) by {
        assert ticks[..1][1..] == [];
      }
      if count > MaxStreamErrors {
        FramesAppend(head, [JsonError(TooManyFrameErrors)]);
        assert Frames(r.out) == Delivered(cap, s, ticks[..1]);
      } else {
        var rest := StreamRun(cap, q.next, count, ticks[1..]);
        StreamSendsDeliveredFrames(cap, q.next, count, ticks[1..]);
        FramesAppend(head, rest.out);
        var n :| 0 <= n <= |ticks[1..]| && Frames(rest.out) == Delivered(cap, q.next, ticks[1..][..n]);
        assert ticks[..n + 1][1..] == ticks[1..][..n];
        assert Frames(r.out) == Delivered(cap, s, ticks[..n + 1]);
      }
    }
  }

  /** Every pass from `s` over `ticks` counts as an error, and live view stays on for each. */
  ghost predicate AllCounted(cap: int, s: FrameState, ticks: seq<StreamTick>)
    decreases |ticks|
  {
    ticks == [] ||
    (var q := FrameRequest(cap, s, ticks[0].nowMs, ticks[0].preview);
     && s.active
     && PassCount(q.result, ticks[0].sendFails, 0) == 1
     && AllCounted(cap, q.next, ticks[1..]))
  }

  /**
   * The error budget: enough passes in a row that count as errors, with
   * live view on, end the stream with "Too many frame errors".
   */
  lemma {:induction false} CountedErrorsEndStream(cap: int, s: FrameState, errorCount: nat, ticks: seq<StreamTick>, k: nat)
    requires 0 < k <= |ticks| && errorCount + k > MaxStreamErrors && AllCounted(cap, s, ticks[..k])
    ensures var r := StreamRun(cap, s, errorCount, ticks);
      r.end == TooManyErrors && |r.out| > 0 && r.out[|r.out| - 1] == JsonError(TooManyFrameErrors)
    decreases k
  {
    var q := FrameRequest(cap, s, ticks[0].nowMs, ticks[0].preview);
    assert ticks[..k][1..] == ticks[1..][..k - 1];
    var count := PassCount(q.result, ticks[0].sendFails, errorCount);
    assert count == errorCount + 1;
    if count <= MaxStreamErrors {
      CountedErrorsEndStream(cap, q.next, count, ticks[1..], k - 1);
    }
  }

  /** With frame rate cap zero every request raises, so the stream sends nothing and gives up after 51 passes. */
  lemma {:induction false} ZeroCapExhaustsBudget(s: FrameState, ticks: seq<StreamTick>)
    requires s.active && |ticks| > MaxStreamErrors
    ensures StreamRun(0, s, 0, ticks) == StreamReply([JsonError(TooManyFrameErrors)], TooManyErrors)
  {
    ZeroCapAllCounted(s, ticks[..MaxStreamErrors + 1]);
    ZeroCapSendsNothing(s, 0, ticks);
    CountedErrorsEndStream(0, s, 0, ticks, MaxStreamErrors + 1);
  }

  lemma {:induction false} ZeroCapAllCounted(s: FrameState, ticks: seq<StreamTick>)
    requires s.active
    ensures AllCounted(0, s, ticks)
    decreases |ticks|
  {
    if ticks != [] {
      ZeroCapAllCounted(s, ticks[1..]);
    }
  }

  lemma {:induction false} ZeroCapSendsNothing(s: FrameState, errorCount: nat, ticks: seq<StreamTick>)
    requires s.active
    ensures var r := StreamRun(0, s, errorCount, ticks); |r.out| <= 1 && (r.out != [] ==> r.end.TooManyErrors?)
    decreases |ticks|
  {
    if ticks != [] && errorCount + 1 <= MaxStreamErrors {
      ZeroCapSendsNothing(s, errorCount + 1, ticks[1..]);
    }
  }

  /** Every frame in `out` has at least the minimum size. */
  predicate LargeFrames(out: seq<StreamOut>) {
    forall j :: 0 <= j < |out| && out[j].Bytes? ==> |out[j].data| >= MinFrameBytes
  }

  /** Everything in `out` is a frame. */
  predicate OnlyFrames(out: seq<StreamOut>) {
    forall j :: 0 <= j < |out| ==> out[j].Bytes?
  }

  /** Everything in `out` but the last entry is a frame. */
  predicate FramesBeforeLast(out: seq<StreamOut>) {
    forall j :: 0 <= j < |out| - 1 ==> out[j].Bytes?
  }

  /** Frames followed by what the rest of a stream sends. */
  lemma FramesThen(head: seq<StreamOut>, rest: seq<StreamOut>)
    requires OnlyFrames(head)
    ensures LargeFrames(head) && LargeFrames(rest) ==> LargeFrames(head + rest)
    ensures OnlyFrames(head + rest) <==> OnlyFrames(rest)
    ensures FramesBeforeLast(rest) ==> FramesBeforeLast(head + rest)
  {
    if !OnlyFrames(rest) {
      var j :| 0 <= j < |rest| && !rest[j].Bytes?;
      assert (head + rest)[|head| + j] == rest[j];
    }
    forall j | |head| <= j < |head + rest| ensures (head + rest)[j] == rest[j - |head|] {
    }
  }

  /** Every frame the stream sends has at least the minimum size. */
  lemma {:induction false} StreamFramesLarge(cap: int, s: FrameState, errorCount: nat, ticks: seq<StreamTick>)
    ensures LargeFrames(StreamRun(cap, s, errorCount, ticks).out)
    decreases |ticks|
  {
    if ticks != [] && s.active {
      var q := FrameRequest(cap, s, ticks[0].nowMs, ticks[0].preview);
      var sent := PassSent(q.result);
      var head := if sent.Some? then [Bytes(sent.value)] else [];
      assert LargeFrames(head);
      var count := PassCount(q.result, ticks[0].sendFails, errorCount);
      if count <= MaxStreamErrors {
        StreamFramesLarge(cap, q.next, count, ticks[1..]);
        FramesThen(head, StreamRun(cap, q.next, count, ticks[1..]).out);
      } else {
        FramesThen(head, [JsonError(TooManyFrameErrors)]);
      }
    }
  }

  /**
   * Only frames precede the one error message, which ends the stream; a
   * stream ends without one exactly when the client left.
   */
  lemma {:induction false} StreamErrorLast(cap: int, s: FrameState, errorCount: nat, ticks: seq<StreamTick>)
    ensures FramesBeforeLast(StreamRun(cap, s, errorCount, ticks).out)
    ensures StreamRun(cap, s, errorCount, ticks).end.ClientLeft? <==> OnlyFrames(StreamRun(cap, s, errorCount, ticks).out)
    decreases |ticks|
  {
    if ticks != [] && !s.active {
      assert ![JsonError("Live view not active")][0].Bytes?;
    } else if ticks != [] {
      var q := FrameRequest(cap, s, ticks[0].nowMs, ticks[0].preview);
      var sent := PassSent(q.result);
      var head := if sent.Some? then [Bytes(sent.value)] else [];
      var count := PassCount(q.result, ticks[0].sendFails, errorCount);
      if count <= MaxStreamErrors {
        StreamErrorLast(cap, q.next, count, ticks[1..]);
        FramesThen(head, StreamRun(cap, q.next, count, ticks[1..]).out);
      } else {
        assert ![JsonError(TooManyFrameErrors)][0].Bytes?;
        FramesThen(head, [JsonError(TooManyFrameErrors)]);
      }
    }
  }

  /**
   * How the stream ends: "Live view not active" or "Too many frame
   * errors" as its last message, the latter only after more than
   * `MaxStreamErrors - errorCount` passes; a stream that has started never
   * ends for a failed start or a disconnect.
   */
  lemma {:induction false} StreamEndMessage(cap: int, s: FrameState, errorCount: nat, ticks: seq<StreamTick>)
    ensures var r := StreamRun(cap, s, errorCount, ticks);
      && (r.end.LiveviewInactive? ==> |r.out| > 0 && r.out[|r.out| - 1] == JsonError("Live view not active"))
      && (r.end.TooManyErrors? ==> |r.out| > 0 && r.out[|r.out| - 1] == JsonError(TooManyFrameErrors))
      && (r.end.TooManyErrors? ==> errorCount + |ticks| > MaxStreamErrors)
      && !r.end.StartFailed? && !r.end.CameraDisconnected?
    decreases |ticks|
  {
    if ticks != [] && s.active {
      var q := FrameRequest(cap, s, ticks[0].nowMs, ticks[0].preview);
      var count := PassCount(q.result, ticks[0].sendFails, errorCount);
      if count <= MaxStreamErrors {
        StreamEndMessage(cap, q.next, count, ticks[1..]);
      }
    }
  }

  /**
   * With a nonzero cap and no failed send, a frame error turns live view
   * off, so the next pass ends the stream: the count never reaches the
   * budget.
   */
  lemma {:induction false} CappedStreamKeepsBudget(cap: int, s: FrameState, errorCount: nat, ticks: seq<StreamTick>)
    requires cap != 0 && errorCount < MaxStreamErrors
    requires forall j :: 0 <= j < |ticks| ==> !ticks[j].sendFails
    ensures !StreamRun(cap, s, errorCount, ticks).end.TooManyErrors?
    decreases |ticks|
  {
    if ticks != [] && s.active {
      var q := FrameRequest(cap, s, ticks[0].nowMs, ticks[0].preview);
      var count := PassCount(q.result, ticks[0].sendFails, errorCount);
      if q.result.Err? {
        if |ticks| > 1 {
          assert !q.next.active;
        }
      } else {
        CappedStreamKeepsBudget(cap, q.next, count, ticks[1..]);
      }
    }
  }

  /** What a started stream sends: frames of at least the minimum size, and at most one error, last. */
  lemma StartedStreamFrames(cap: int, s: FrameState, ticks: seq<StreamTick>, out: seq<StreamOut>, end: StreamEnd)
    requires StreamReply(out, end) == StreamRun(cap, s, 0, ticks)
    ensures forall j :: 0 <= j < |out| && out[j].Bytes? ==> |out[j].data| >= MinFrameBytes
    ensures forall j :: 0 <= j < |out| - 1 ==> out[j].Bytes?
    ensures end.ClientLeft? <==> (forall j :: 0 <= j < |out| ==> out[j].Bytes?)
  {
    StreamFramesLarge(cap, s, 0, ticks);
    StreamErrorLast(cap, s, 0, ticks);
  }

  /** How a started stream ends, and that a capped stream whose sends succeed never exhausts its budget. */
  lemma StartedStreamEnd(cap: int, s: FrameState, ticks: seq<StreamTick>, out: seq<StreamOut>, end: StreamEnd)
    requires StreamReply(out, end) == StreamRun(cap, s, 0, ticks)
    ensures !end.StartFailed? && !end.CameraDisconnected?
    ensures end.LiveviewInactive? ==> |out| > 0 && out[|out| - 1] == JsonError("Live view not active")
    ensures end.TooManyErrors? ==> |out| > 0 && out[|out| - 1] == JsonError(TooManyFrameErrors) && |ticks| > MaxStreamErrors
    ensures cap != 0 && (forall j :: 0 <= j < |ticks| ==> !ticks[j].sendFails) ==> !end.TooManyErrors?
  {
    StreamEndMessage(cap, s, 0, ticks);
    if cap != 0 && forall j :: 0 <= j < |ticks| ==> !ticks[j].sendFails {
      CappedStreamKeepsBudget(cap, s, 0, ticks);
    }
  }

  /** One frame request of the stream: the backend's answer for the pass's time and preview. */
  method FetchFrame(b: GPhoto2Backend, tick: StreamTick) returns (r: Result<Option<seq<bv8>>>)
    requires b.Valid() && b.IsConnected() && b.liveviewActive
    modifies b
    ensures b.Valid() && b.IsConnected() && b.config == old(b.config)
    ensures var q := FrameRequest(b.config.frameRateCap, old(b.FrameSnap()), tick.nowMs, tick.preview);
      r == q.result && b.FrameSnap() == q.next
  {
    r := b.GetLiveviewFrame(tick.nowMs, tick.preview);
  }

  /**
   * The `try` of one stream pass with live view on: the frame sent, if
   * any, and the error count afterwards.
   */
  method FramePass(b: GPhoto2Backend, tick: StreamTick, errorCount: nat) returns (sent: Option<seq<bv8>>, count: nat)
    requires b.Valid() && b.IsConnected() && b.liveviewActive
    modifies b
    ensures b.Valid() && b.IsConnected() && b.config == old(b.config)
    ensures var q := FrameRequest(b.config.frameRateCap, old(b.FrameSnap()), tick.nowMs, tick.preview);
      && b.FrameSnap() == q.next
      && (q.result.Err? ==> sent.None? && count == errorCount + 1)
      && (q.result == Ok(None) ==> sent.None? && count == errorCount)
      && (q.result.Ok? && q.result.value.Some? && |q.result.value.value| > 0 ==>
            sent == q.result.value && count == (if tick.sendFails then errorCount + 1 else 0))
      && sent == PassSent(q.result) && count == PassCount(q.result, tick.sendFails, errorCount)
  {
    var frame := FetchFrame(b, tick);
    if frame.Err? {
      return None, errorCount + 1;
    }
    if frame.value.Some? && |frame.value.value| > 0 {
      sent := Some(frame.value.value);
      count := if tick.sendFails then errorCount + 1 else 0;
      return;
    }
    return None, errorCount;
  }

  /** The stream so far: `out` sent, with the passes in `ticks` still to come from state `s`, makes up `whole`. */
  ghost predicate StreamSoFar(whole: StreamReply, out: seq<StreamOut>, cap: int, s: FrameState, errorCount: nat, ticks: seq<StreamTick>) {
    var rest := StreamRun(cap, s, errorCount, ticks);
    whole == StreamReply(out + rest.out, rest.end)
  }

  /** One pass of the stream, as the loop takes it. */
  lemma StreamSoFarStep(whole: StreamReply, out: seq<StreamOut>, cap: int, s: FrameState, errorCount: nat, ticks: seq<StreamTick>)
    requires StreamSoFar(whole, out, cap, s, errorCount, ticks) && ticks != []
    ensures !s.active ==> whole == StreamReply(out + [JsonError("Live view not active")], LiveviewInactive)
    ensures s.active ==>
      var q := FrameRequest(cap, s, ticks[0].nowMs, ticks[0].preview);
      var sent := PassSent(q.result);
      var count := PassCount(q.result, ticks[0].sendFails, errorCount);
      var out' := if sent.Some? then out + [Bytes(sent.value)] else out;
      && (count > MaxStreamErrors ==> whole == StreamReply(out' + [JsonError(TooManyFrameErrors)], TooManyErrors))
      && (count <= MaxStreamErrors ==> StreamSoFar(whole, out', cap, q.next, count, ticks[1..]))
  {
  }

  /**
   * One pass of the `while True` loop of `liveview_stream` on a connected
   * backend: the stream ends when live view is off or the errors run out,
   * and otherwise goes on with the passes in `rest`.
   */
  method StreamPass(b: GPhoto2Backend, tick: StreamTick, out: seq<StreamOut>, errorCount: nat,
                    ghost whole: StreamReply, ghost rest: seq<StreamTick>)
    returns (out': seq<StreamOut>, end: Option<StreamEnd>, count: nat)
    requires b.Valid() && b.IsConnected() && errorCount <= MaxStreamErrors
    requires StreamSoFar(whole, out, b.config.frameRateCap, b.FrameSnap(), errorCount, [tick] + rest)
    modifies b
    ensures b.Valid() && b.config == old(b.config) && b.IsConnected()
    ensures end.Some? ==> whole == StreamReply(out', end.value)
    ensures end == Some(LiveviewInactive) ==> !b.liveviewActive
    ensures end.None? ==> count <= MaxStreamErrors && StreamSoFar(whole, out', b.config.frameRateCap, b.FrameSnap(), count, rest)
  {
    StreamSoFarStep(whole, out, b.config.frameRateCap, b.FrameSnap(), errorCount, [tick] + rest);
    assert ([tick] + rest)[0] == tick && ([tick] + rest)[1..] == rest;
    if !b.liveviewActive {
      return out + [JsonError("Live view not active")], Some(LiveviewInactive), errorCount;
    }
    var sent;
    sent, count := FramePass(b, tick, errorCount);
    out' := if sent.Some? then out + [Bytes(sent.value)] else out;
    if count > MaxStreamErrors {
      assert count == MaxStreamErrors + 1;
      out' := out' + [JsonError("Too many frame errors (" + IntToString(count) + ")")];
      end := Some(TooManyErrors);
      return;
    }
    end := None;
  }

  /**
   * The `while True` loop of `liveview_stream` over the passes in `ticks`:
   * each pass ends the stream when the backend is gone or disconnected, and
   * otherwise is a `StreamPass`; the stream goes as `StreamRun` says from the
   * backend's frame state.
   */
  method StreamLoop(b: GPhoto2Backend?, ticks: seq<StreamTick>) returns (out: seq<StreamOut>, end: StreamEnd)
    requires b != null ==> b.Valid()
    modifies b
    ensures b != null ==> b.Valid() && b.config == old(b.config) && b.IsConnected() == old(b.IsConnected())
    ensures b == null || !old(b.IsConnected()) ==>
      StreamReply(out, end) ==
        if ticks == [] then StreamReply([], ClientLeft) else StreamReply([JsonError("Camera disconnected")], CameraDisconnected)
    ensures b != null && old(b.IsConnected()) ==>
      StreamReply(out, end) == StreamRun(b.config.frameRateCap, old(b.FrameSnap()), 0, ticks)
    ensures end.LiveviewInactive? ==> b != null && !b.liveviewActive
  {
    out := [];
    ghost var whole := if b != null then StreamRun(b.config.frameRateCap, b.FrameSnap(), 0, ticks) else StreamReply([], ClientLeft);
    var errorCount: nat := 0;
    var i := 0;
    while i < |ticks|
      invariant 0 <= i <= |ticks|
      invariant b != null ==> b.Valid() && b.config == old(b.config) && b.IsConnected() == old(b.IsConnected())
      invariant errorCount <= MaxStreamErrors
      invariant b == null || !b.IsConnected() ==> i == 0 && out == []
      invariant b != null && b.IsConnected() ==> StreamSoFar(whole, out, b.config.frameRateCap, b.FrameSnap(), errorCount, ticks[i..])
    {
      if b == null || !b.IsConnected() {
        out := out + [JsonError("Camera disconnected")];
        return out, CameraDisconnected;
      }
      assert ticks[i..] == [ticks[i]] + ticks[i + 1..];
      var stop;
      out, stop, errorCount := StreamPass(b, ticks[i], out, errorCount, whole, ticks[i + 1..]);
      if stop.Some? {
        return out, stop.value;
      }
      i := i + 1;
    }
    return out, ClientLeft;
  }

  /** The service and its global `backend`. */
  class CameraService {
    var backend: GPhoto2Backend?

    ghost predicate Valid()
      reads this, backend
    {
      backend != null ==> backend.Valid()
    }

    constructor ()
      ensures Valid() && backend == null
    {
      backend := null;
    }

    /** `lifespan` start-up: a backend with the default configuration, which tries to connect; a failure is only logged. */
    method Startup(device: CameraDevice)
      modifies this
      ensures Valid() && backend != null && fresh(backend) && backend.config == DefaultConfig
      ensures backend.IsConnected() <==> device.libraryAvailable && device.initError.None? &&
                                         LiveviewRun(DefaultConfig, device.rejects).error.None?
    {
      var b := new GPhoto2Backend(None, device.rejects, device.readings);
      backend := b;
      var ignored := b.Initialize(device.libraryAvailable, device.initError);
    }

    /** `lifespan` shutdown: the backend, if any, is cleaned up. */
    method Shutdown()
      requires Valid()
      modifies backend
      ensures Valid() && (backend != null ==> !backend.IsConnected() && !backend.liveviewActive)
    {
      if backend != null {
        backend.Cleanup();
      }
    }

    /**
     * `connect_camera`: creates a backend when there is none and
     * initializes it unless it is connected; a failure is a 503 carrying
     * the error.
     */
    method Connect(device: CameraDevice) returns (r: Reply<Done>)
      requires Valid()
      modifies this, backend
      ensures Valid() && backend != null
      ensures old(backend) != null ==> backend == old(backend)
      ensures old(backend) != null && old(backend.IsConnected()) ==> r == Body(Done("Camera connected")) && unchanged(backend)
      ensures r == Body(Done("Camera connected")) <==> backend.IsConnected()
      ensures r.HttpError? ==> r.code == 503
      ensures r.HttpError? ==>
        && (!device.libraryAvailable ==> r.detail == "python-gphoto2 not installed. Install with: pip install python-gphoto2")
        && (device.libraryAvailable && device.initError.Some? ==> r.detail == device.initError.value)
        && (device.libraryAvailable && device.initError.None? ==> Some(r.detail) == LiveviewRun(backend.config, backend.rejects).error)
    {
      if backend == null {
        backend := new GPhoto2Backend(None, device.rejects, device.readings);
      }
      if !backend.IsConnected() {
        var st := backend.Initialize(device.libraryAvailable, device.initError);
        if st.Failure? {
          return HttpError(503, st.error);
        }
      }
      return Body(Done("Camera connected"));
    }

    /** `disconnect_camera`: the backend, if any, is cleaned up and dropped. */
    method Disconnect() returns (r: Reply<Done>)
      requires Valid()
      modifies this, backend
      ensures Valid() && backend == null && r == Body(Done("Camera disconnected"))
      ensures old(backend) != null ==> !old(backend).IsConnected() && !old(backend).liveviewActive
    {
      if backend != null {
        backend.Cleanup();
        backend := null;
      }
      return Body(Done("Camera disconnected"));
    }

    /** `get_status`: not connected without a backend, else the backend's status. */
    function GetStatus(): (r: StatusReply)
      reads this, backend
      ensures backend == null ==> r == NotConnected
      ensures backend != null ==> r.Reported? && (r.status.connected <==> backend.IsConnected())
      ensures backend != null && !backend.IsConnected() ==> r.status == DisconnectedStatus
    {
      if backend == null then NotConnected else Reported(backend.GetStatus())
    }

    /**
     * `start_liveview` as written: the 503 for a missing or disconnected
     * backend is raised inside the `try` and reaches the client as a 500
     * with detail "503: Camera not connected"; otherwise the backend, as
     * written, starts live view, and a failure to configure it is a 500.
     */
    method StartLiveviewAsWritten(nowMs: int) returns (r: Reply<Done>)
      requires Valid()
      modifies backend
      ensures Valid()
      ensures (backend == null || !old(backend.IsConnected())) ==> r == HttpError(500, "503: " + "Camera not connected")
      ensures backend != null && old(backend.IsConnected()) ==>
        && (r == Body(Done("Live view started")) <==> backend.liveviewActive)
        && (old(backend.liveviewActive) ==> r == Body(Done("Live view started")))
        && (!old(backend.liveviewActive) && LiveviewRun(backend.config, backend.rejects).error.Some? ==>
              r == HttpError(500, LiveviewRun(backend.config, backend.rejects).error.value))
        && backend.consecutiveErrors == old(backend.consecutiveErrors)
    {
      if backend == null || !backend.IsConnected() {
        CatchAllAsWrittenMasks503<Done>("Camera not connected");
        return CatchAllAsWritten(HttpRaised(503, "Camera not connected"));
      }
      var st := backend.StartLiveviewAsWritten(nowMs);
      if st.Failure? {
        return CatchAllAsWritten(OtherRaised(st.error));
      }
      return Body(Done("Live view started"));
    }

    /**
     * `start_liveview` corrected: the 503 reaches the client unchanged, and
     * the corrected backend start gives live view a fresh error budget.
     */
    method StartLiveview(nowMs: int) returns (r: Reply<Done>)
      requires Valid()
      modifies backend
      ensures Valid()
      ensures (backend == null || !old(backend.IsConnected())) ==> r == HttpError(503, "Camera not connected")
      ensures backend != null && old(backend.IsConnected()) ==>
        (r == Body(Done("Live view started")) <==> backend.liveviewActive)
      ensures r.HttpError? && r.code == 500 ==> backend != null && !backend.liveviewActive
      ensures backend != null && old(backend.IsConnected()) && !old(backend.liveviewActive) && backend.liveviewActive ==>
        backend.consecutiveErrors == 0
    {
      if backend == null || !backend.IsConnected() {
        return CatchAll(HttpRaised(503, "Camera not connected"));
      }
      var st := backend.StartLiveview(nowMs);
      if st.Failure? {
        return CatchAll(OtherRaised(st.error));
      }
      return Body(Done("Live view started"));
    }

    /** `stop_liveview`: answers success either way; only a connected backend is asked to stop. */
    method StopLiveview() returns (r: Reply<Done>)
      requires Valid()
      modifies backend
      ensures Valid()
      ensures (backend == null || !old(backend.IsConnected())) ==> r == Body(Done("Camera not connected"))
      ensures backend != null && old(backend.IsConnected()) ==> r == Body(Done("Live view stopped")) && !backend.liveviewActive
    {
      if backend == null || !backend.IsConnected() {
        return Body(Done("Camera not connected"));
      }
      backend.StopLiveview();
      return Body(Done("Live view stopped"));
    }

    /**
     * The part of `capture_photo` after the connection check, at `nowS`
     * seconds (`nowMs` milliseconds), taking `elapsedMs`: the output
     * directory is created (`mkdirError` if that fails, a 500) and the
     * backend captures to `<session>_<sequence>_<timestamp>.jpg` in it. When
     * live view was on, a failure to reconfigure it afterwards is a 500 and
     * leaves it off; otherwise the reply carries the capture result.
     */
    method CaptureToOutput(request: CaptureRequest, nowS: int, nowMs: int, stamp: string, mkdirError: Option<string>,
                           shot: Result<CameraFile>, events: seq<Event>, download: Status, elapsedMs: int)
      returns (r: Reply<CaptureReply>)
      requires Valid() && backend != null && backend.IsConnected()
      modifies backend
      ensures Valid()
      ensures mkdirError.Some? ==> r == HttpError(500, mkdirError.value) && unchanged(backend)
      ensures mkdirError.None? ==>
        var path := OutputPath(request.outputDirectory, CaptureFilename(request.sessionId, request.sequenceNumber, nowS));
        var c := CaptureResultOf(backend.config, backend.rejects, backend.readings, path, stamp, shot, events, download);
        var resume := if old(backend.liveviewActive) then LiveviewRun(backend.config, backend.rejects).error else None;
        && r == (if resume.Some? then HttpError(500, resume.value)
                 else Body(CaptureReply(c.success, c.imagePath, c.metadata, c.error, elapsedMs)))
        && (backend.liveviewActive <==> old(backend.liveviewActive) && resume.None?)
      ensures r.Body? && r.value.success ==>
        r.value.imagePath == Some(OutputPath(request.outputDirectory, CaptureFilename(request.sessionId, request.sequenceNumber, nowS)))
    {
      if mkdirError.Some? {
        return CatchAll(OtherRaised(mkdirError.value));
      }
      var path := OutputPath(request.outputDirectory, CaptureFilename(request.sessionId, request.sequenceNumber, nowS));
      var result := backend.CapturePhoto(path, nowMs, stamp, shot, events, download);
      if result.Err? {
        return CatchAll(OtherRaised(result.error));
      }
      var c := result.value;
      return Body(CaptureReply(c.success, c.imagePath, c.metadata, c.error, elapsedMs));
    }

    /**
     * `capture_photo` as written: the 503 for a missing or disconnected
     * backend reaches the client as a 500 with detail "503: Camera not
     * connected"; otherwise the capture to the generated path.
     */
    method CaptureAsWritten(request: CaptureRequest, nowS: int, nowMs: int, stamp: string, mkdirError: Option<string>,
                            shot: Result<CameraFile>, events: seq<Event>, download: Status, elapsedMs: int)
      returns (r: Reply<CaptureReply>)
      requires Valid()
      modifies backend
      ensures Valid()
      ensures (backend == null || !old(backend.IsConnected())) ==> r == HttpError(500, "503: " + "Camera not connected")
      ensures backend != null && old(backend.IsConnected()) && mkdirError.Some? ==>
        r == HttpError(500, mkdirError.value) && unchanged(backend)
      ensures backend != null && old(backend.IsConnected()) && mkdirError.None? ==>
        var path := OutputPath(request.outputDirectory, CaptureFilename(request.sessionId, request.sequenceNumber, nowS));
        var c := CaptureResultOf(backend.config, backend.rejects, backend.readings, path, stamp, shot, events, download);
        var resume := if old(backend.liveviewActive) then LiveviewRun(backend.config, backend.rejects).error else None;
        && r == (if resume.Some? then HttpError(500, resume.value)
                 else Body(CaptureReply(c.success, c.imagePath, c.metadata, c.error, elapsedMs)))
        && (backend.liveviewActive <==> old(backend.liveviewActive) && resume.None?)
      ensures r.Body? && r.value.success ==>
        r.value.imagePath == Some(OutputPath(request.outputDirectory, CaptureFilename(request.sessionId, request.sequenceNumber, nowS)))
    {
      if backend == null || !backend.IsConnected() {
        CatchAllAsWrittenMasks503<CaptureReply>("Camera not connected");
        return CatchAllAsWritten(HttpRaised(503, "Camera not connected"));
      }
      r := CaptureToOutput(request, nowS, nowMs, stamp, mkdirError, shot, events, download, elapsedMs);
    }

    /** `capture_photo` corrected: the 503 reaches the client unchanged; the rest is as written. */
    method Capture(request: CaptureRequest, nowS: int, nowMs: int, stamp: string, mkdirError: Option<string>,
                   shot: Result<CameraFile>, events: seq<Event>, download: Status, elapsedMs: int)
      returns (r: Reply<CaptureReply>)
      requires Valid()
      modifies backend
      ensures Valid()
      ensures (backend == null || !old(backend.IsConnected())) ==> r == HttpError(503, "Camera not connected")
      ensures backend != null && old(backend.IsConnected()) && mkdirError.Some? ==>
        r == HttpError(500, mkdirError.value) && unchanged(backend)
      ensures backend != null && old(backend.IsConnected()) && mkdirError.None? && !old(backend.liveviewActive) ==>
        var path := OutputPath(request.outputDirectory, CaptureFilename(request.sessionId, request.sequenceNumber, nowS));
        var c := CaptureResultOf(backend.config, backend.rejects, backend.readings, path, stamp, shot, events, download);
        r == Body(CaptureReply(c.success, c.imagePath, c.metadata, c.error, elapsedMs))
      ensures backend != null && old(backend.IsConnected()) && mkdirError.None? && old(backend.liveviewActive) ==>
        var path := OutputPath(request.outputDirectory, CaptureFilename(request.sessionId, request.sequenceNumber, nowS));
        var c := CaptureResultOf(backend.config, backend.rejects, backend.readings, path, stamp, shot, events, download);
        var resume := LiveviewRun(backend.config, backend.rejects).error;
        && (resume.Some? ==> r == HttpError(500, resume.value) && !backend.liveviewActive)
        && (resume.None? ==> r == Body(CaptureReply(c.success, c.imagePath, c.metadata, c.error, elapsedMs)) && backend.liveviewActive)
      ensures r.Body? && r.value.success ==>
        r.value.imagePath == Some(OutputPath(request.outputDirectory, CaptureFilename(request.sessionId, request.sequenceNumber, nowS)))
    {
      if backend == null || !backend.IsConnected() {
        return CatchAll(HttpRaised(503, "Camera not connected"));
      }
      r := CaptureToOutput(request, nowS, nowMs, stamp, mkdirError, shot, events, download, elapsedMs);
    }

    /** `update_config` as written: without a backend the 503 is turned into a 500. */
    method UpdateConfigAsWritten(update: ConfigUpdate) returns (r: Reply<Done>)
      requires Valid()
      modifies {backend}`config
      ensures Valid()
      ensures backend == null ==> r == HttpError(500, "503: " + "Camera not initialized")
      ensures backend != null ==> backend.config == MergeConfig(old(backend.config), update) && r == Body(Done("Configuration updated"))
    {
      if backend == null {
        CatchAllAsWrittenMasks503<Done>("Camera not initialized");
        return CatchAllAsWritten(HttpRaised(503, "Camera not initialized"));
      }
      backend.config := MergeConfig(backend.config, update);
      return Body(Done("Configuration updated"));
    }

    /** `update_config`: 503 without a backend, else the update is merged into the backend's configuration. */
    method UpdateConfig(update: ConfigUpdate) returns (r: Reply<Done>)
      requires Valid()
      modifies {backend}`config
      ensures Valid()
      ensures backend == null ==> r == HttpError(503, "Camera not initialized")
      ensures backend != null ==> backend.config == MergeConfig(old(backend.config), update) && r == Body(Done("Configuration updated"))
    {
      if backend == null {
        return CatchAll(HttpRaised(503, "Camera not initialized"));
      }
      backend.config := MergeConfig(backend.config, update);
      return Body(Done("Configuration updated"));
    }

    /**
     * The start of `liveview_stream`: live view is started, as written,
     * when the backend is connected and live view is off; the error of a
     * failed start ends the stream.
     */
    method StartStream(startMs: int) returns (failure: Option<string>)
      requires Valid()
      modifies backend
      ensures Valid()
      ensures (backend == null || !old(backend.IsConnected()) || old(backend.liveviewActive)) ==>
        failure.None? && (backend != null ==> unchanged(backend))
      ensures backend != null && old(backend.IsConnected()) && !old(backend.liveviewActive) ==>
        && (failure.None? <==> backend.liveviewActive)
        && failure == LiveviewRun(backend.config, backend.rejects).error
        && (failure.None? ==> backend.FrameSnap() == FrameState(true, startMs, old(backend.consecutiveErrors)))
      ensures backend != null ==> backend.config == old(backend.config) && backend.IsConnected() == old(backend.IsConnected())
    {
      if backend != null && backend.IsConnected() && !backend.liveviewActive {
        var st := backend.StartLiveviewAsWritten(startMs);
        if st.Failure? {
          return Some(st.error);
        }
      }
      return None;
    }

    /**
     * `liveview_stream`, over the passes in `ticks`; `out` is what the
     * server sends. Live view is started, as written, if it is off; then
     * each pass ends the stream with a JSON error when the backend is gone
     * or disconnected or live view is off, or makes one frame request, as
     * `StreamRun` describes: a frame is sent, and clears the error count
     * when the send goes through; a missing one is skipped; a frame error,
     * and equally a frame send that raises because the client has left,
     * counts, the stream ending once more than 50 are counted in a row.
     */
    method LiveviewStream(startMs: int, ticks: seq<StreamTick>) returns (out: seq<StreamOut>, end: StreamEnd)
      requires Valid()
      modifies backend
      ensures Valid()
      ensures backend == null || !old(backend.IsConnected()) ==>
        StreamReply(out, end) ==
          if ticks == [] then StreamReply([], ClientLeft) else StreamReply([JsonError("Camera disconnected")], CameraDisconnected)
      ensures backend != null && old(backend.IsConnected()) && old(backend.liveviewActive) ==>
        StreamReply(out, end) == StreamRun(backend.config.frameRateCap, old(backend.FrameSnap()), 0, ticks)
      ensures backend != null && old(backend.IsConnected()) && !old(backend.liveviewActive) ==>
        var failed := LiveviewRun(backend.config, backend.rejects).error;
        && (failed.Some? ==> out == [] && end == StartFailed(failed.value))
        && (failed.None? ==>
              StreamReply(out, end) ==
                StreamRun(backend.config.frameRateCap, FrameState(true, startMs, old(backend.consecutiveErrors)), 0, ticks))
      ensures forall j :: 0 <= j < |out| && out[j].Bytes? ==> |out[j].data| >= MinFrameBytes
      ensures forall j :: 0 <= j < |out| - 1 ==> out[j].Bytes?
      ensures end.ClientLeft? || end.StartFailed? <==> (forall j :: 0 <= j < |out| ==> out[j].Bytes?)
      ensures end.CameraDisconnected? ==> |out| > 0 && out[|out| - 1] == JsonError("Camera disconnected")
      ensures end.LiveviewInactive? ==>
        |out| > 0 && out[|out| - 1] == JsonError("Live view not active") && backend != null && !backend.liveviewActive
      ensures end.TooManyErrors? ==> |out| > 0 && out[|out| - 1] == JsonError(TooManyFrameErrors)
      ensures end.TooManyErrors? ==> |ticks| > MaxStreamErrors
      ensures backend != null && backend.config.frameRateCap != 0 && (forall j :: 0 <= j < |ticks| ==> !ticks[j].sendFails) ==>
        !end.TooManyErrors?
    {
      var failure := StartStream(startMs);
      if failure.Some? {
        return [], StartFailed(failure.value);
      }
      ghost var connected := backend != null && backend.IsConnected();
      ghost var cap := if backend != null then backend.config.frameRateCap else 0;
      ghost var s0 := if backend != null then backend.FrameSnap() else FrameState(false, 0, 0);
      out, end := StreamLoop(backend, ticks);
      if connected {
        StartedStreamFrames(cap, s0, ticks, out, end);
        StartedStreamEnd(cap, s0, ticks, out, end);
      } else if end.CameraDisconnected? {
        assert !out[|out| - 1].Bytes?;
      }
    }
  }
}

=== FILE: text.dfy ===
/**
 * The string operations the camera services rely on: `sub in s`, `s.lower()`,
 * `s.endswith(...)`, `str(n)` and `int(s)` for integers, and the first run of
 * digits that `re.search(r'(\d+)', s)` finds. Characters are code points;
 * only ASCII letters have a lower-case form here.
 */
module Text {
  import opened Wrappers

  // ---------------------------------------------------------------------------
  // Prefixes, suffixes and substrings

  predicate StartsWith(s: string, p: string) {
    |p| <= |s| && s[..|p|] == p
  }

  predicate EndsWith(s: string, p: string) {
    |p| <= |s| && s[|s| - |p|..] == p
  }

  /** Python's `sub in s`, by recursion on `s`. */
  predicate Contains(s: string, sub: string)
    decreases |s|
  {
    StartsWith(s, sub) || (|s| > 0 && Contains(s[1..], sub))
  }

  /** `sub` occurs in `s` starting at index `i`. */
  ghost predicate OccursAt(s: string, sub: string, i: int) {
    0 <= i && i + |sub| <= |s| && s[i..i + |sub|] == sub
  }

  /** `Contains` agrees with the occurrence-based reading of `sub in s`. */
  lemma {:induction false} ContainsIffOccurs(s: string, sub: string)
    ensures Contains(s, sub) <==> exists i :: OccursAt(s, sub, i)
    decreases |s|
  {
    if StartsWith(s, sub) {
      assert OccursAt(s, sub, 0);
    } else if |s| > 0 {
      ContainsIffOccurs(s[1..], sub);
      if Contains(s[1..], sub) {
        var j :| OccursAt(s[1..], sub, j);
        assert s[j + 1..j + 1 + |sub|] == s[1..][j..j + |sub|];
        assert OccursAt(s, sub, j + 1);
      }
      if exists i :: OccursAt(s, sub, i) {
        var i :| OccursAt(s, sub, i);
        assert i != 0;
        assert s[1..][i - 1..i - 1 + |sub|] == s[i..i + |sub|];
        assert OccursAt(s[1..], sub, i - 1);
      }
    }
  }

  /** An occurrence at a known index makes `sub` a substring. */
  lemma ContainsAt(s: string, sub: string, i: int)
    requires OccursAt(s, sub, i)
    ensures Contains(s, sub)
  {
    ContainsIffOccurs(s, sub);
  }

  /** A substring stays a substring when text is added around the string. */
  lemma ContainsWithin(before: string, s: string, after: string, sub: string)
    requires Contains(s, sub)
    ensures Contains(before + s + after, sub)
  {
    ContainsIffOccurs(s, sub);
    var i :| OccursAt(s, sub, i);
    var t := before + s + after;
    assert t[|before| + i..|before| + i + |sub|] == s[i..i + |sub|];
    assert OccursAt(t, sub, |before| + i);
    ContainsIffOccurs(t, sub);
  }

  /** A substring of a substring is a substring. */
  lemma ContainsTransitive(s: string, mid: string, sub: string)
    requires Contains(s, mid) && Contains(mid, sub)
    ensures Contains(s, sub)
  {
    ContainsIffOccurs(s, mid);
    ContainsIffOccurs(mid, sub);
    var i :| OccursAt(s, mid, i);
    var j :| OccursAt(mid, sub, j);
    forall k | 0 <= k < |sub|
      ensures s[i + j..i + j + |sub|][k] == sub[k]
    {
      assert sub[k] == mid[j + k] == s[i + j + k];
    }
    assert OccursAt(s, sub, i + j);
    ContainsIffOccurs(s, sub);
  }

  // ---------------------------------------------------------------------------
  // Lower case

  function LowerChar(c: char): char {
    if 'A' <= c <= 'Z' then (c as int + 32) as char else c
  }

  /** `s.lower()`, restricted to ASCII letters. */
  function Lower(s: string): (r: string)
    ensures |r| == |s|
    ensures forall i :: 0 <= i < |s| ==> r[i] == LowerChar(s[i])
  {
    if s == [] then [] else [LowerChar(s[0])] + Lower(s[1..])
  }

  /** Lowering twice is lowering once. */
  lemma LowerIdempotent(s: string)
    ensures Lower(Lower(s)) == Lower(s)
  {
    assert forall i :: 0 <= i < |s| ==> Lower(Lower(s))[i] == Lower(s)[i];
  }

  /** Lowering distributes over concatenation. */
  lemma LowerAppend(a: string, b: string)
    ensures Lower(a + b) == Lower(a) + Lower(b)
  {
    assert forall i :: 0 <= i < |a + b| ==> Lower(a + b)[i] == (Lower(a) + Lower(b))[i];
  }

  // ---------------------------------------------------------------------------
  // Decimal integers

  predicate IsDigit(c: char) {
    '0' <= c <= '9'
  }

  predicate AllDigits(s: string) {
    forall i :: 0 <= i < |s| ==> IsDigit(s[i])
  }

  function DigitChar(d: nat): (c: char)
    requires d < 10
    ensures IsDigit(c) && c as int - '0' as int == d
  {
    ('0' as int + d) as char
  }

  function DigitValue(c: char): nat
    requires IsDigit(c)
  {
    c as int - '0' as int
  }

  /** The value of a string of decimal digits, most significant first. */
  function DigitsValue(s: string): nat
    requires AllDigits(s)
  {
    if s == [] then 0 else DigitsValue(s[..|s| - 1]) * 10 + DigitValue(s[|s| - 1])
  }

  /** `str(n)` for a non-negative integer. */
  function NatToString(n: nat): (r: string)
    ensures |r| >= 1 && AllDigits(r)
  {
    if n < 10 then [DigitChar(n)] else NatToString(n / 10) + [DigitChar(n % 10)]
  }

  /** `str(i)` for any integer. */
  function IntToString(i: int): string {
    if i < 0 then "-" + NatToString(-i) else NatToString(i)
  }

  /** `int(s)` on an optionally signed run of ASCII digits; `None` where Python raises. */
  function ParseInt(s: string): Option<int> {
    if |s| > 0 && (s[0] == '-' || s[0] == '+') then
      var digits := s[1..];
      if |digits| > 0 && AllDigits(digits) then
        Some(if s[0] == '-' then -(DigitsValue(digits) as int) else DigitsValue(digits))
      else None
    else if |s| > 0 && AllDigits(s) then Some(DigitsValue(s))
    else None
  }

  lemma {:induction false} DigitsValueOfNatToString(n: nat)
    ensures DigitsValue(NatToString(n)) == n
    decreases n
  {
    if n >= 10 {
      DigitsValueOfNatToString(n / 10);
      var s := NatToString(n / 10) + [DigitChar(n % 10)];
      assert s[..|s| - 1] == NatToString(n / 10);
    }
  }

  /** `int(str(i)) == i`: printing then parsing an integer gives it back. */
  lemma ParseIntOfIntToString(i: int)
    ensures ParseInt(IntToString(i)) == Some(i)
  {
    if i < 0 {
      DigitsValueOfNatToString(-i);
      assert IntToString(i)[1..] == NatToString(-i);
    } else {
      DigitsValueOfNatToString(i);
    }
  }

  /** Distinct integers print differently. */
  lemma IntToStringInjective(i: int, j: int)
    requires IntToString(i) == IntToString(j)
    ensures i == j
  {
    ParseIntOfIntToString(i);
    ParseIntOfIntToString(j);
  }

  /** The printed form of an integer has no character other than a sign and digits. */
  lemma IntToStringChars(i: int, k: int)
    requires 0 <= k < |IntToString(i)|
    ensures IsDigit(IntToString(i)[k]) || IntToString(i)[k] == '-'
  {
  }

  // ---------------------------------------------------------------------------
  // The first number in a text, as `re.search(r'(\d+)', s)` finds it

  /** The longest prefix of `s` made of digits. */
  function LeadingDigits(s: string): (r: string)
    ensures AllDigits(r) && StartsWith(s, r)
    ensures |r| < |s| ==> !IsDigit(s[|r|])
  {
    if s != [] && IsDigit(s[0]) then [s[0]] + LeadingDigits(s[1..]) else []
  }

  /** The value of the first maximal run of digits in `s`, if there is one. */
  function FirstNumber(s: string): Option<nat> {
    if s == [] then None
    else if IsDigit(s[0]) then Some(DigitsValue(LeadingDigits(s)))
    else FirstNumber(s[1..])
  }

  /** A digit string followed by text that does not start with a digit: the digits are the leading run. */
  lemma {:induction false} LeadingDigitsOfDigitsThen(d: string, rest: string)
    requires AllDigits(d)
    requires rest == [] || !IsDigit(rest[0])
    ensures LeadingDigits(d + rest) == d
    decreases |d|
  {
    if d != [] {
      LeadingDigitsOfDigitsThen(d[1..], rest);
      assert (d + rest)[1..] == d[1..] + rest;
    }
  }

  /** A text that starts with `str(n)` followed by a non-digit (as in "50%") yields the number `n`. */
  lemma FirstNumberOfPrintedNat(n: nat, rest: string)
    requires rest == [] || !IsDigit(rest[0])
    ensures FirstNumber(NatToString(n) + rest) == Some(n)
  {
    LeadingDigitsOfDigitsThen(NatToString(n), rest);
    DigitsValueOfNatToString(n);
  }

  /** A text without any digit yields no number. */
  lemma {:induction false} FirstNumberNoDigits(s: string)
    requires forall i :: 0 <= i < |s| ==> !IsDigit(s[i])
    ensures FirstNumber(s) == None
    decreases |s|
  {
    if s != [] {
      FirstNumberNoDigits(s[1..]);
    }
  }
}

=== FILE: usb_reset.dfy ===
/**
 * The USB reset helper that revives a camera stuck on the bus: it finds the
 * camera's sysfs device directory by vendor ID, then switches the device's
 * `authorized` attribute off and on so the kernel enumerates it again.
 *
 * The sysfs tree is a value: the device directories that the
 * glob for `idVendor` files lists, in its order, and the files of every directory.
 * Sleeping is recorded, not performed.
 */
module UsbReset {
  import opened Wrappers

  /** A sysfs file: readable with its contents, or present but unreadable. */
  datatype FileNode = Readable(contents: string) | Unreadable

  /**
   * `listed`: the directories the glob for `idVendor` files yields, in order;
   * `dirs`: the files of each directory, by name (`power/control` for a
   * file below `power`).
   */
  datatype Sysfs = Sysfs(listed: seq<string>, dirs: map<string, map<string, FileNode>>)

  /** What opening and writing the `authorized` file gives. */
  datatype WriteOutcome = Written | PermissionDenied | IoFailure(error: string)

  /** A write to `<device>/authorized`. */
  datatype Write = Write(device: string, value: string)

  const DefaultVendorId := "04a9"
  const DefaultSettleTime := 3.0
  /** The pause between deauthorizing and reauthorizing. */
  const DisconnectWait := 1.0

  /** The attributes `get_device_info` reads from the device directory, and from its `power` directory. */
  const DeviceAttributes := ["idVendor", "idProduct", "manufacturer", "product", "serial", "speed", "busnum", "devnum"]
  const PowerAttributes := ["control", "autosuspend_delay_ms"]

  predicate Exists(fs: Sysfs, dir: string, name: string) {
    dir in fs.dirs && name in fs.dirs[dir]
  }

  /** `open(...).read()`: the contents, or `None` when the file is missing or unreadable. */
  function Read(fs: Sysfs, dir: string, name: string): Option<string> {
    if Exists(fs, dir, name) && fs.dirs[dir][name].Readable? then Some(fs.dirs[dir][name].contents) else None
  }

  /** Python's `str.isspace` for one character: the characters `str.strip()` removes. */
  predicate IsSpace(c: char) {
    || ('\t' <= c <= '\r') || ('\U{1C}' <= c <= ' ') || c == '\U{85}' || c == '\U{A0}' || c == '\U{1680}'
    || ('\U{2000}' <= c <= '\U{200A}') || c == '\U{2028}' || c == '\U{2029}' || c == '\U{202F}' || c == '\U{205F}'
    || c == '\U{3000}'
  }

  /** The length of the run of whitespace that starts `s`. */
  function LeadingSpace(s: string): (n: nat)
    ensures n <= |s| && (forall k :: 0 <= k < n ==> IsSpace(s[k])) && (n < |s| ==> !IsSpace(s[n]))
  {
    if s == [] || !IsSpace(s[0]) then 0 else 1 + LeadingSpace(s[1..])
  }

  /** The length of the run of whitespace that ends `s`. */
  function TrailingSpace(s: string): (n: nat)
    ensures n <= |s| && (forall k :: |s| - n <= k < |s| ==> IsSpace(s[k])) && (n < |s| ==> !IsSpace(s[|s| - n - 1]))
  {
    if s == [] || !IsSpace(s[|s| - 1]) then 0 else 1 + TrailingSpace(s[..|s| - 1])
  }

  /**
   * `s.strip()`: the slice of `s` left once the
   * whitespace at both ends is removed; a string that neither starts nor
   * ends with whitespace is returned unchanged.
   */
  function Strip(s: string): (r: string)
    ensures |r| <= |s|
    ensures r == "" || (!IsSpace(r[0]) && !IsSpace(r[|r| - 1]))
    ensures exists i, j :: (0 <= i <= j <= |s| && r == s[i..j] &&
                            (forall k :: 0 <= k < i ==> IsSpace(s[k])) && (forall k :: j <= k < |s| ==> IsSpace(s[k])))
    ensures s != "" && !IsSpace(s[0]) && !IsSpace(s[|s| - 1]) ==> r == s
  {
    var i := LeadingSpace(s);
    var j := |s| - TrailingSpace(s[i..]);
    s[i..j]
  }

  /** A listed directory that is the camera: its vendor reads as `vendor` and it has an `authorized` file. */
  predicate IsCamera(fs: Sysfs, dir: string, vendor: string) {
    var v := Read(fs, dir, "idVendor");
    v.Some? && Strip(v.value) == vendor && Exists(fs, dir, "authorized")
  }

  /** The first listed directory from `i` on that is the camera. */
  function FirstCamera(fs: Sysfs, vendor: string, i: nat): (r: Option<nat>)
    requires i <= |fs.listed|
    ensures r.Some? ==> i <= r.value < |fs.listed| && IsCamera(fs, fs.listed[r.value], vendor)
    ensures forall j :: i <= j < |fs.listed| && (r.None? || j < r.value) ==> !IsCamera(fs, fs.listed[j], vendor)
    decreases |fs.listed| - i
  {
    if i == |fs.listed| then None
    else if IsCamera(fs, fs.listed[i], vendor) then Some(i)
    else FirstCamera(fs, vendor, i + 1)
  }

  /** The `FileNotFoundError` raised when no directory is the camera. */
  function NotFound(vendor: string): string {
    "No USB device found with vendor ID '" + vendor + "'. Is the camera connected?"
  }

  /** The outcome of `find_camera_sysfs_path` on `fs`. */
  function Find(fs: Sysfs, vendor: string): (r: Result<string>)
    ensures r.Ok? <==> exists j :: 0 <= j < |fs.listed| && IsCamera(fs, fs.listed[j], vendor)
    ensures r.Ok? ==> IsCamera(fs, r.value, vendor) && r.value in fs.listed
    ensures r.Err? ==> r.error == NotFound(vendor)
  {
    var k := FirstCamera(fs, vendor, 0);
    if k.Some? then Ok(fs.listed[k.value]) else Err(NotFound(vendor))
  }

  /** The info keys that have a readable file behind them, and their stripped contents. */
  function AttributeInfo(fs: Sysfs, dir: string, names: seq<string>, prefix: string, keyPrefix: string): map<string, string> {
    if names == [] then map[]
    else
      var rest := AttributeInfo(fs, dir, names[..|names| - 1], prefix, keyPrefix);
      var name := names[|names| - 1];
      var v := Read(fs, dir, prefix + name);
      if v.Some? then rest[keyPrefix + name := Strip(v.value)] else rest
  }

  class UsbResetHelper {
    const vendorId: string
    const settleTime: real
    var cachedPath: Option<string>
    /** The writes made to `authorized` files, in order. */
    var writes: seq<Write>
    /** The seconds slept. */
    ghost var slept: real

    /** `__init__`: an absent or empty vendor ID means Canon's; the settle time defaults to 3 seconds. */
    constructor (vendorId: Option<string> := None, settleTime: real := DefaultSettleTime)
      ensures this.vendorId == (if vendorId.Some? && vendorId.value != "" then vendorId.value else DefaultVendorId)
      ensures this.settleTime == settleTime
      ensures cachedPath.None? && writes == [] && slept == 0.0
    {
      this.vendorId := if vendorId.Some? && vendorId.value != "" then vendorId.value else DefaultVendorId;
      this.settleTime := settleTime;
      cachedPath := None;
      writes := [];
      slept := 0.0;
    }

    /**
     * `find_camera_sysfs_path`: the listed directories are tried in order,
     * those whose vendor file cannot be read being skipped; the first that
     * is the camera is cached and returned.
     */
    method FindCameraSysfsPath(fs: Sysfs) returns (r: Result<string>)
      modifies this`cachedPath
      ensures r == Find(fs, vendorId)
      ensures r.Ok? ==> cachedPath == Some(r.value)
      ensures r.Err? ==> cachedPath == old(cachedPath)
    {
      var i := 0;
      while i < |fs.listed|
        invariant 0 <= i <= |fs.listed|
        invariant FirstCamera(fs, vendorId, i) == FirstCamera(fs, vendorId, 0)
        invariant cachedPath == old(cachedPath)
      {
        var dir := fs.listed[i];
        var vendor := Read(fs, dir, "idVendor");
        if vendor.Some? && Strip(vendor.value) == vendorId && Exists(fs, dir, "authorized") {
          cachedPath := Some(dir);
          return Ok(dir);
        }
        i := i + 1;
      }
      return Err(NotFound(vendorId));
    }

    /** The device a reset works on: the one given, else the cached one if still present, else a search. */
    function Target(sysfsPath: Option<string>, fs: Sysfs): Option<string>
      reads this
    {
      if sysfsPath.Some? then sysfsPath
      else if cachedPath.Some? && cachedPath.value != "" && Exists(fs, cachedPath.value, "authorized") then cachedPath
      else var f := Find(fs, vendorId); if f.Ok? then Some(f.value) else None
    }

    /**
     * `reset_usb_device`: writes "0" and then "1" to the target's
     * `authorized` file, waits for the device to settle and reports whether
     * the camera is found again in `after`. A failed search, a missing
     * `authorized` file or a failed write gives `false`; nothing is
     * raised. A failure of the second write leaves the device deauthorized.
     */
    method ResetUsbDevice(sysfsPath: Option<string>, before: Sysfs, first: WriteOutcome, second: WriteOutcome, after: Sysfs)
      returns (ok: bool)
      modifies this`cachedPath, this`writes, this`slept
      ensures var t := old(Target(sysfsPath, before));
        && (t.None? || !Exists(before, t.value, "authorized") ==> !ok && writes == old(writes) && slept == old(slept))
        && (t.Some? && Exists(before, t.value, "authorized") ==>
              && writes == old(writes) + (if first.Written? then [Write(t.value, "0")] else []) +
                                         (if first.Written? && second.Written? then [Write(t.value, "1")] else [])
              && (ok <==> first.Written? && second.Written? && Find(after, vendorId).Ok?)
              && (first.Written? && second.Written? ==> slept == old(slept) + DisconnectWait + settleTime))
      ensures ok ==> cachedPath == Some(Find(after, vendorId).value)
    {
      var path: string;
      if sysfsPath.None? {
        if cachedPath.Some? && cachedPath.value != "" && Exists(before, cachedPath.value, "authorized") {
          path := cachedPath.value;
        } else {
          var found := FindCameraSysfsPath(before);
          if found.Err? {
            return false;
          }
          path := found.value;
        }
      } else {
        path := sysfsPath.value;
      }
      if !Exists(before, path, "authorized") {
        return false;
      }
      if !first.Written? {
        return false;
      }
      writes := writes + [Write(path, "0")];
      slept := slept + DisconnectWait;
      if !second.Written? {
        return false;
      }
      writes := writes + [Write(path, "1")];
      slept := slept + settleTime;
      var again := FindCameraSysfsPath(after);
      return again.Ok?;
    }

    /**
     * `get_device_info`: empty when the camera is not found; otherwise its
     * directory under `sysfs_path` and each attribute, stripped, that could
     * be read, the `power` ones with a `power_` prefix.
     */
    method GetDeviceInfo(fs: Sysfs) returns (info: map<string, string>)
      modifies this`cachedPath
      ensures Find(fs, vendorId).Err? ==> info == map[] && cachedPath == old(cachedPath)
      ensures Find(fs, vendorId).Ok? ==>
        var dir := Find(fs, vendorId).value;
        && cachedPath == Some(dir)
        && info == AttributeInfo(fs, dir, DeviceAttributes, "", "") + AttributeInfo(fs, dir, PowerAttributes, "power/", "power_")
                   + map["sysfs_path" := dir]
    {
      var found := FindCameraSysfsPath(fs);
      if found.Err? {
        return map[];
      }
      var dir := found.value;
      var device := ReadAttributes(fs, dir, DeviceAttributes, "", "");
      var power := ReadAttributes(fs, dir, PowerAttributes, "power/", "power_");
      info := device + power + map["sysfs_path" := dir];
    }
  }

  /** The loop of `get_device_info` over `names`: each readable `<dir>/<prefix><name>`, stripped, under `<keyPrefix><name>`. */
  method ReadAttributes(fs: Sysfs, dir: string, names: seq<string>, prefix: string, keyPrefix: string) returns (m: map<string, string>)
    ensures m == AttributeInfo(fs, dir, names, prefix, keyPrefix)
  {
    m := map[];
    for i := 0 to |names|
      invariant m == AttributeInfo(fs, dir, names[..i], prefix, keyPrefix)
    {
      assert names[..i + 1][..i] == names[..i];
      var v := Read(fs, dir, prefix + names[i]);
      if v.Some? {
        m := m[keyPrefix + names[i] := Strip(v.value)];
      }
    }
    assert names[..|names|] == names;
  }

  /** An attribute appears in the info exactly when its file can be read, with its contents stripped. */
  lemma {:induction false} AttributeInfoReadable(fs: Sysfs, dir: string, names: seq<string>, prefix: string, keyPrefix: string, name: string)
    requires name in names
    ensures var info := AttributeInfo(fs, dir, names, prefix, keyPrefix);
      && (keyPrefix + name in info <==> Read(fs, dir, prefix + name).Some?)
      && (keyPrefix + name in info ==> info[keyPrefix + name] == Strip(Read(fs, dir, prefix + name).value))
  {
    var init := names[..|names| - 1];
    var last := names[|names| - 1];
    if name != last {
      assert (keyPrefix + name)[|keyPrefix|..] == name && (keyPrefix + last)[|keyPrefix|..] == last;
      assert name in init by {
        var i :| 0 <= i < |names| && names[i] == name;
        assert init[i] == name;
      }
      AttributeInfoReadable(fs, dir, init, prefix, keyPrefix, name);
    } else if name in init {
      AttributeInfoReadable(fs, dir, init, prefix, keyPrefix, name);
    } else {
      AttributeInfoKeys(fs, dir, init, prefix, keyPrefix);
    }
  }

  /** The info holds no key other than a prefixed attribute name. */
  lemma {:induction false} AttributeInfoKeys(fs: Sysfs, dir: string, names: seq<string>, prefix: string, keyPrefix: string)
    ensures forall k :: k in AttributeInfo(fs, dir, names, prefix, keyPrefix) ==> exists n :: n in names && k == keyPrefix + n
  {
    if names != [] {
      var init := names[..|names| - 1];
      var rest := AttributeInfo(fs, dir, init, prefix, keyPrefix);
      AttributeInfoKeys(fs, dir, init, prefix, keyPrefix);
      forall k | k in AttributeInfo(fs, dir, names, prefix, keyPrefix)
        ensures exists n :: n in names && k == keyPrefix + n
      {
        if k != keyPrefix + names[|names| - 1] {
          assert k in rest;
          var n :| n in init && k == keyPrefix + n;
          assert n in names;
        } else {
          assert names[|names| - 1] in names;
        }
      }
    }
  }
}

=== FILE: worker.dfy ===
/**
 * The serialized camera worker: one FIFO queue of device operations executed
 * one at a time by a single loop, with exponential-backoff retry of transient
 * USB I/O errors, and a rate-limited entry point for live-view frames.
 *
 * An operation's callable is represented by its identifier: what the device
 * does when operation `id` is executed for the `n`-th time (n = its retry count
 * at that moment) is given by a `device` function of `(id, n)`, chosen freely by
 * the caller, so every possible device behaviour is covered. Each operation's
 * future is an entry of the `futures` map, shared with the submitter.
 */
module Worker {
  import opened Wrappers
  import Text
  import Backend

  /** `CameraOperation.max_retries` default. */
  const DefaultMaxRetries: nat := 3
  /** Initial backoff (`_io_error_delay`, 0.1 s) and its cap (`_max_io_error_delay`, 1.0 s), in ms. */
  const IoErrorDelayMs: nat := 100
  const MaxIoErrorDelayMs: nat := 1000

  /** A queued call: `id` names the callable, its arguments and its future. */
  datatype Operation = Operation(id: nat, retryCount: nat, maxRetries: nat)

  /** A queue element: an operation or the `None` sentinel that `stop` enqueues. */
  datatype Entry = Op(op: Operation) | Sentinel

  /** What one execution of an operation's callable did. */
  datatype Outcome<T> = Returned(value: T) | Raised(message: string)

  /** The state of a `concurrent.futures.Future`. */
  datatype FutureState<T> = Pending | Done(value: T) | Failed(message: string)

  // ---------------------------------------------------------------------------
  // Error classification and backoff

  /** An exception text signals a transient USB I/O error. */
  predicate IsIoError(message: string) {
    var e := Text.Lower(message);
    Text.Contains(e, "i/o in progress") || Text.Contains(e, "-110") || Text.Contains(e, "io error")
  }

  /** Any message that mentions the timeout code -110 is transient, whatever surrounds it. */
  lemma IoErrorOfTimeoutCode(before: string, after: string)
    ensures IsIoError(before + "-110" + after)
  {
    Text.LowerAppend(before + "-110", after);
    Text.LowerAppend(before, "-110");
    assert Text.Lower("-110") == "-110";
    assert Text.Contains("-110", "-110");
    Text.ContainsWithin(Text.Lower(before), "-110", Text.Lower(after), "-110");
  }

  /** The classification ignores letter case: "I/O in progress" is transient. */
  lemma IoErrorIgnoresCase(message: string)
    ensures IsIoError(message) <==> IsIoError(Text.Lower(message))
  {
    Text.LowerIdempotent(message);
  }

  function Pow2(n: nat): (r: nat)
    ensures r >= 1
  {
    if n == 0 then 1 else 2 * Pow2(n - 1)
  }

  lemma {:induction false} Pow2Monotone(n: nat, m: nat)
    requires n <= m
    ensures Pow2(n) <= Pow2(m)
    decreases m
  {
    if n < m {
      Pow2Monotone(n, m - 1);
    }
  }

  /** The sleep before the `retryCount`-th retry: min(0.1 s * 2^(retryCount-1), 1.0 s). */
  function RetryDelayMs(retryCount: nat): (d: nat)
    requires retryCount >= 1
    ensures 0 < d <= MaxIoErrorDelayMs
  {
    var raw := IoErrorDelayMs * Pow2(retryCount - 1);
    if raw < MaxIoErrorDelayMs then raw else MaxIoErrorDelayMs
  }

  /** Later retries never wait less than earlier ones. */
  lemma RetryDelayMonotone(n: nat, m: nat)
    requires 1 <= n <= m
    ensures RetryDelayMs(n) <= RetryDelayMs(m)
  {
    Pow2Monotone(n - 1, m - 1);
  }

  /** The backoff doubles until it reaches the cap. */
  lemma RetryDelayDoubles(n: nat)
    requires n >= 1
    ensures RetryDelayMs(n + 1) == if 2 * RetryDelayMs(n) < MaxIoErrorDelayMs then 2 * RetryDelayMs(n) else MaxIoErrorDelayMs
  {
  }

  // ---------------------------------------------------------------------------
  // What happens to an operation after one execution

  datatype Disposition<T> = Resolve(value: T) | Reject(message: string) | Retry(next: Operation, delayMs: nat)

  /** The decision `_execute_operation` takes after running the callable once. */
  function Dispose<T>(op: Operation, outcome: Outcome<T>): Disposition<T> {
    match outcome
    case Returned(v) => Resolve(v)
    case Raised(m) =>
      if IsIoError(m) && op.retryCount < op.maxRetries then
        var next := op.(retryCount := op.retryCount + 1);
        Retry(next, RetryDelayMs(next.retryCount))
      else Reject(m)
  }

  /** The future state a final disposition settles. */
  function Settled<T>(d: Disposition<T>): FutureState<T>
    requires !d.Retry?
  {
    if d.Resolve? then Done(d.value) else Failed(d.message)
  }

  /**
   * An operation is retried exactly when it raised a transient error with
   * retries left; the retried copy has one more retry counted, never more than
   * the maximum, and waits the backoff for that count.
   */
  lemma RetryExactly<T>(op: Operation, outcome: Outcome<T>)
    ensures Dispose(op, outcome).Retry? <==> (outcome.Raised? && IsIoError(outcome.message) && op.retryCount < op.maxRetries)
    ensures Dispose(op, outcome).Retry? ==>
      && Dispose(op, outcome).next == op.(retryCount := op.retryCount + 1)
      && Dispose(op, outcome).next.retryCount <= op.maxRetries
      && Dispose(op, outcome).delayMs == RetryDelayMs(op.retryCount + 1)
    ensures outcome.Returned? ==> Dispose(op, outcome) == Resolve(outcome.value)
  {
  }

  /** The whole life of one operation on its own: final future state, executions, total backoff. */
  datatype Fate<T> = Fate(result: FutureState<T>, executions: nat, delayMs: nat)

  function RetriesLeft(op: Operation): nat {
    if op.retryCount < op.maxRetries then op.maxRetries - op.retryCount else 0
  }

  function FateOf<T>(op: Operation, device: (nat, nat) -> Outcome<T>): Fate<T>
    decreases RetriesLeft(op)
  {
    match Dispose(op, device(op.id, op.retryCount))
    case Resolve(v) => Fate(Done(v), 1, 0)
    case Reject(m) => Fate(Failed(m), 1, 0)
    case Retry(next, d) =>
      var f := FateOf(next, device);
      Fate(f.result, f.executions + 1, f.delayMs + d)
  }

  /**
   * Every operation is settled (never left pending) after at most
   * `max_retries - retry_count + 1` executions.
   */
  lemma {:induction false} FateBounded<T>(op: Operation, device: (nat, nat) -> Outcome<T>)
    ensures FateOf(op, device).result != Pending
    ensures 1 <= FateOf(op, device).executions <= RetriesLeft(op) + 1
    decreases RetriesLeft(op)
  {
    var d := Dispose(op, device(op.id, op.retryCount));
    if d.Retry? {
      FateBounded(d.next, device);
    }
  }

  /** A retry leaves the final outcome of the operation unchanged. */
  lemma FateOfRetry<T>(op: Operation, device: (nat, nat) -> Outcome<T>)
    requires Dispose(op, device(op.id, op.retryCount)).Retry?
    ensures FateOf(Dispose(op, device(op.id, op.retryCount)).next, device).result == FateOf(op, device).result
  {
  }

  /** A final disposition is the final outcome. */
  lemma FateOfSettled<T>(op: Operation, device: (nat, nat) -> Outcome<T>)
    requires !Dispose(op, device(op.id, op.retryCount)).Retry?
    ensures FateOf(op, device).result == Settled(Dispose(op, device(op.id, op.retryCount)))
  {
  }

  /**
   * Two transient failures followed by success, with the default three
   * retries, succeed on the third execution after 0.1 s + 0.2 s of backoff.
   */
  lemma TwoTransientFailuresThenSuccess<T>(id: nat, device: (nat, nat) -> Outcome<T>, v: T)
    requires device(id, 0).Raised? && IsIoError(device(id, 0).message)
    requires device(id, 1).Raised? && IsIoError(device(id, 1).message)
    requires device(id, 2) == Returned(v)
    ensures FateOf(Operation(id, 0, DefaultMaxRetries), device) == Fate(Done(v), 3, 300)
  {
    var op0 := Operation(id, 0, DefaultMaxRetries);
    var op1 := op0.(retryCount := 1);
    var op2 := op0.(retryCount := 2);
    assert Pow2(1) == 2;
    assert FateOf(op2, device) == Fate(Done(v), 1, 0);
    assert FateOf(op1, device) == Fate(Done(v), 2, 200);
  }

  /**
   * A device that keeps failing transiently is called four times (one try and
   * three retries), sleeping 0.1 + 0.2 + 0.4 s, and the future carries the last error.
   */
  lemma PersistentIoErrorGivesUp<T>(id: nat, device: (nat, nat) -> Outcome<T>)
    requires forall n :: 0 <= n <= DefaultMaxRetries ==> device(id, n).Raised? && IsIoError(device(id, n).message)
    ensures FateOf(Operation(id, 0, DefaultMaxRetries), device) == Fate(Failed(device(id, 3).message), 4, 700)
  {
    var op0 := Operation(id, 0, DefaultMaxRetries);
    assert device(id, 0).Raised? && device(id, 1).Raised? && device(id, 2).Raised? && device(id, 3).Raised?;
    assert Pow2(1) == 2 && Pow2(2) == 4;
    assert FateOf(op0.(retryCount := 3), device) == Fate(Failed(device(id, 3).message), 1, 0);
    assert FateOf(op0.(retryCount := 2), device) == Fate(Failed(device(id, 3).message), 2, 400);
    assert FateOf(op0.(retryCount := 1), device) == Fate(Failed(device(id, 3).message), 3, 600);
  }

  /** A non-transient error is never retried: one execution, and the future fails with it. */
  lemma TerminalErrorNotRetried<T>(op: Operation, device: (nat, nat) -> Outcome<T>)
    requires device(op.id, op.retryCount).Raised? && !IsIoError(device(op.id, op.retryCount).message)
    ensures FateOf(op, device) == Fate(Failed(device(op.id, op.retryCount).message), 1, 0)
  {
  }

  // ---------------------------------------------------------------------------
  // Queue measures and the worker's bookkeeping invariant

  /** Executions an entry can still cost: remaining tries of an operation, 1 for the sentinel. */
  function EntryBudget(e: Entry): nat {
    if e.Sentinel? then 1 else RetriesLeft(e.op) + 1
  }

  function Budget(q: seq<Entry>): nat {
    if q == [] then 0 else EntryBudget(q[0]) + Budget(q[1..])
  }

  lemma {:induction false} BudgetAppend(q: seq<Entry>, e: Entry)
    ensures Budget(q + [e]) == Budget(q) + EntryBudget(e)
    decreases |q|
  {
    if q != [] {
      assert (q + [e])[1..] == q[1..] + [e];
      BudgetAppend(q[1..], e);
    }
  }

  /** The identifiers of the operations in a queue, in order. */
  function OpIds(q: seq<Entry>): seq<nat> {
    if q == [] then [] else (if q[0].Op? then [q[0].op.id] else []) + OpIds(q[1..])
  }

  lemma {:induction false} OpIdsAppend(q: seq<Entry>, r: seq<Entry>)
    ensures OpIds(q + r) == OpIds(q) + OpIds(r)
    decreases |q|
  {
    if q == [] {
      assert q + r == r;
    } else {
      assert (q + r)[0] == q[0];
      assert (q + r)[1..] == q[1..] + r;
      OpIdsAppend(q[1..], r);
    }
  }

  lemma OpIdsCons(e: Entry, q: seq<Entry>)
    ensures OpIds([e] + q) == (if e.Op? then [e.op.id] else []) + OpIds(q)
  {
    assert ([e] + q)[1..] == q;
  }

  lemma {:induction false} OpIdsHas(q: seq<Entry>, i: nat)
    requires i < |q| && q[i].Op?
    ensures q[i].op.id in OpIds(q)
    decreases i
  {
    if i > 0 {
      OpIdsHas(q[1..], i - 1);
    }
  }

  lemma {:induction false} OpIdsFrom(q: seq<Entry>, id: nat) returns (i: nat)
    requires id in OpIds(q)
    ensures i < |q| && q[i].Op? && q[i].op.id == id
    decreases |q|
  {
    if q[0].Op? && q[0].op.id == id {
      i := 0;
    } else {
      var j := OpIdsFrom(q[1..], id);
      i := j + 1;
    }
  }

  predicate Distinct(s: seq<nat>) {
    forall i, j | 0 <= i < j < |s| :: s[i] != s[j]
  }

  lemma DistinctCons(x: nat, s: seq<nat>)
    requires Distinct([x] + s)
    ensures x !in s && Distinct(s)
  {
    forall j | 0 <= j < |s|
      ensures s[j] != x
    {
      assert ([x] + s)[0] == x && ([x] + s)[j + 1] == s[j];
    }
    forall i, j | 0 <= i < j < |s|
      ensures s[i] != s[j]
    {
      assert s[i] == ([x] + s)[i + 1];
      assert s[j] == ([x] + s)[j + 1];
    }
  }

  /** An operation waiting in the queue: its future is pending and its retries are within budget. */
  ghost predicate Waiting<T>(op: Operation, futures: map<nat, FutureState<T>>) {
    && op.id in futures
    && futures[op.id].Pending?
    && op.retryCount <= op.maxRetries
    && op.maxRetries == DefaultMaxRetries
  }

  /**
   * The bookkeeping the worker keeps: the operations in `pending` (the queue,
   * possibly with the one just taken off it) are distinct and waiting, every
   * future has an identifier already handed out, and every pending future
   * belongs to a queued operation.
   */
  ghost predicate Sound<T>(pending: seq<Entry>, futures: map<nat, FutureState<T>>, nextId: nat) {
    && (forall i | 0 <= i < |pending| && pending[i].Op? :: Waiting(pending[i].op, futures))
    && Distinct(OpIds(pending))
    && (forall id | id in futures :: id < nextId)
    && (forall id | id in futures && futures[id].Pending? :: id in OpIds(pending))
  }

  lemma SoundSubmit<T>(q: seq<Entry>, futures: map<nat, FutureState<T>>, nextId: nat)
    requires Sound(q, futures, nextId)
    ensures Sound(q + [Op(Operation(nextId, 0, DefaultMaxRetries))], futures[nextId := Pending], nextId + 1)
  {
    var e := Op(Operation(nextId, 0, DefaultMaxRetries));
    OpIdsAppend(q, [e]);
    OpIdsCons(e, []);
    if nextId in OpIds(q) {
      var i := OpIdsFrom(q, nextId);
      assert false;
    }
    var q' := q + [e];
    forall i | 0 <= i < |q'| && q'[i].Op?
      ensures Waiting(q'[i].op, futures[nextId := Pending])
    {
      if i < |q| {
        assert q'[i] == q[i];
        assert Waiting(q[i].op, futures);
      }
    }
  }

  lemma SoundSentinel<T>(q: seq<Entry>, futures: map<nat, FutureState<T>>, nextId: nat)
    requires Sound(q, futures, nextId)
    ensures Sound(q + [Sentinel], futures, nextId)
  {
    OpIdsAppend(q, [Sentinel]);
    OpIdsCons(Sentinel, []);
    var q' := q + [Sentinel];
    forall i | 0 <= i < |q'| && q'[i].Op?
      ensures Waiting(q'[i].op, futures)
    {
      assert q'[i] == q[i];
    }
  }

  lemma SoundPop<T>(e: Entry, q: seq<Entry>, futures: map<nat, FutureState<T>>, nextId: nat)
    requires Sound([e] + q, futures, nextId) && e.Sentinel?
    ensures Sound(q, futures, nextId)
  {
    OpIdsCons(e, q);
    assert OpIds([e] + q) == OpIds(q);
    forall i | 0 <= i < |q| && q[i].Op?
      ensures Waiting(q[i].op, futures)
    {
      assert ([e] + q)[i + 1] == q[i];
    }
  }

  lemma SoundSettle<T>(op: Operation, q: seq<Entry>, futures: map<nat, FutureState<T>>, nextId: nat, s: FutureState<T>)
    requires Sound([Op(op)] + q, futures, nextId) && !s.Pending?
    ensures Sound(q, futures[op.id := s], nextId)
  {
    OpIdsCons(Op(op), q);
    DistinctCons(op.id, OpIds(q));
    forall i | 0 <= i < |q| && q[i].Op?
      ensures Waiting(q[i].op, futures[op.id := s])
    {
      assert ([Op(op)] + q)[i + 1] == q[i];
      OpIdsHas(q, i);
    }
  }

  lemma SoundRequeue<T>(op: Operation, q: seq<Entry>, futures: map<nat, FutureState<T>>, nextId: nat)
    requires Sound([Op(op)] + q, futures, nextId) && op.retryCount < op.maxRetries
    ensures Sound(q + [Op(op.(retryCount := op.retryCount + 1))], futures, nextId)
  {
    var e := Op(op.(retryCount := op.retryCount + 1));
    var p := [Op(op)] + q;
    var q' := q + [e];
    OpIdsCons(Op(op), q);
    OpIdsAppend(q, [e]);
    OpIdsCons(e, []);
    DistinctCons(op.id, OpIds(q));
    assert Waiting(p[0].op, futures);
    forall i | 0 <= i < |q'| && q'[i].Op?
      ensures Waiting(q'[i].op, futures)
    {
      if i < |q| {
        assert q'[i] == p[i + 1];
      }
    }
  }

  /** Each queued operation by identifier (used to follow operations through retries). */
  ghost function OriginOf(q: seq<Entry>): map<nat, Operation> {
    if q == [] then map[]
    else if q[0].Op? then OriginOf(q[1..])[q[0].op.id := q[0].op]
    else OriginOf(q[1..])
  }

  lemma {:induction false} OriginOfHas(q: seq<Entry>, i: nat)
    requires Distinct(OpIds(q)) && i < |q| && q[i].Op?
    ensures q[i].op.id in OriginOf(q) && OriginOf(q)[q[i].op.id] == q[i].op
    decreases i
  {
    if i > 0 {
      OpIdsCons(q[0], q[1..]);
      assert q == [q[0]] + q[1..];
      var k := if q[0].Op? then 1 else 0;
      forall a, b | 0 <= a < b < |OpIds(q[1..])|
        ensures OpIds(q[1..])[a] != OpIds(q[1..])[b]
      {
        assert OpIds(q[1..])[a] == OpIds(q)[a + k];
        assert OpIds(q[1..])[b] == OpIds(q)[b + k];
      }
      OriginOfHas(q[1..], i - 1);
      OpIdsHas(q[1..], i - 1);
      if q[0].Op? {
        var j :| 0 <= j < |OpIds(q[1..])| && OpIds(q[1..])[j] == q[i].op.id;
        assert OpIds(q)[j + 1] == q[i].op.id;
        assert OpIds(q)[0] == q[0].op.id;
      }
    }
  }

  lemma {:induction false} OriginOfKeys(q: seq<Entry>, id: nat)
    requires id in OriginOf(q)
    ensures id in OpIds(q)
    decreases |q|
  {
    OpIdsCons(q[0], q[1..]);
    assert q == [q[0]] + q[1..];
    if !(q[0].Op? && q[0].op.id == id) {
      OriginOfKeys(q[1..], id);
    }
  }

  /** Every future of a tracked operation is pending or holds the final outcome of its origin. */
  ghost predicate Tracked<T>(origin: map<nat, Operation>, futures: map<nat, FutureState<T>>, device: (nat, nat) -> Outcome<T>) {
    forall id | id in origin :: id in futures && (futures[id].Pending? || futures[id] == FateOf(origin[id], device).result)
  }

  /** Every queued operation will end as the operation it came from would. */
  ghost predicate Follows<T>(q: seq<Entry>, origin: map<nat, Operation>, device: (nat, nat) -> Outcome<T>) {
    forall i | 0 <= i < |q| && q[i].Op? ::
      q[i].op.id in origin && FateOf(q[i].op, device).result == FateOf(origin[q[i].op.id], device).result
  }

  /** The first executions of a run are the queue's operations, in queue order. */
  ghost predicate InOrder(q0: seq<Entry>, trace: seq<nat>) {
    forall i | 0 <= i < |trace| && i < |q0| :: q0[i].Op? && trace[i] == q0[i].op.id
  }

  /** At the start of a run every queued operation is waiting and is its own origin. */
  lemma RunInit<T>(q: seq<Entry>, futures: map<nat, FutureState<T>>, nextId: nat, device: (nat, nat) -> Outcome<T>)
    requires Sound(q, futures, nextId)
    ensures Tracked(OriginOf(q), futures, device) && Follows(q, OriginOf(q), device)
  {
    forall id | id in OriginOf(q)
      ensures id in futures && futures[id].Pending?
    {
      OriginOfKeys(q, id);
      var i := OpIdsFrom(q, id);
      assert Waiting(q[i].op, futures);
    }
    forall i | 0 <= i < |q| && q[i].Op?
      ensures q[i].op.id in OriginOf(q) && OriginOf(q)[q[i].op.id] == q[i].op
    {
      OriginOfHas(q, i);
    }
  }

  /**
   * One execution keeps the run's correspondence: each waiting operation's
   * final outcome is that of the operation it came from, and each settled
   * future holds that outcome.
   */
  lemma RunStep<T>(op: Operation, device: (nat, nat) -> Outcome<T>, rest: seq<Entry>, queue: seq<Entry>,
                   f: map<nat, FutureState<T>>, futures: map<nat, FutureState<T>>, origin: map<nat, Operation>)
    requires Tracked(origin, f, device) && Follows([Op(op)] + rest, origin, device)
    requires var d := Dispose(op, device(op.id, op.retryCount));
      if d.Retry? then queue == rest + [Op(d.next)] && futures == f
      else queue == rest && futures == f[op.id := Settled(d)]
    ensures Tracked(origin, futures, device) && Follows(queue, origin, device)
  {
    var d := Dispose(op, device(op.id, op.retryCount));
    assert ([Op(op)] + rest)[0] == Op(op);
    forall i | 0 <= i < |rest| && rest[i].Op?
      ensures rest[i].op.id in origin && FateOf(rest[i].op, device).result == FateOf(origin[rest[i].op.id], device).result
    {
      assert ([Op(op)] + rest)[i + 1] == rest[i];
    }
    if d.Retry? {
      FateOfRetry(op, device);
      forall i | 0 <= i < |queue| && queue[i].Op?
        ensures queue[i].op.id in origin && FateOf(queue[i].op, device).result == FateOf(origin[queue[i].op.id], device).result
      {
        if i < |rest| {
          assert queue[i] == rest[i];
        }
      }
    } else {
      FateOfSettled(op, device);
    }
  }

  /** What a run's correspondence says about the operations it started with. */
  lemma RunResult<T>(q: seq<Entry>, origin: map<nat, Operation>, device: (nat, nat) -> Outcome<T>, futures: map<nat, FutureState<T>>)
    requires Distinct(OpIds(q)) && origin == OriginOf(q) && Tracked(origin, futures, device)
    ensures forall i | 0 <= i < |q| && q[i].Op? ::
      q[i].op.id in futures && (futures[q[i].op.id].Pending? || futures[q[i].op.id] == FateOf(q[i].op, device).result)
  {
    forall i | 0 <= i < |q| && q[i].Op?
      ensures q[i].op.id in origin && origin[q[i].op.id] == q[i].op
    {
      OriginOfHas(q, i);
    }
  }

  /** Taking operation `op` off the head of the queue extends the in-order trace of the run. */
  lemma FifoStep(q0: seq<Entry>, trace: seq<nat>, before: seq<Entry>, op: Operation, after: seq<Entry>, x: Entry)
    requires Untouched(q0, trace, before) && InOrder(q0, trace)
    requires before != [] && before[0] == Op(op)
    requires after == before[1..] || after == before[1..] + [x]
    ensures Untouched(q0, trace + [op.id], after) && InOrder(q0, trace + [op.id])
  {
    if |trace| < |q0| {
      assert q0[|trace|] == before[0];
      assert after[..|q0| - |trace| - 1] == before[1..|q0| - |trace|];
    }
  }

  /** The queue holds no sentinel. */
  predicate AllOps(q: seq<Entry>) {
    forall i | 0 <= i < |q| :: q[i].Op?
  }

  /** A prefix of the queue a run started from is still waiting, untouched, behind the executed ones. */
  predicate Untouched(q0: seq<Entry>, trace: seq<nat>, queue: seq<Entry>) {
    |trace| <= |q0| ==> |q0| - |trace| <= |queue| && queue[..|q0| - |trace|] == q0[|trace|..]
  }

  /**
   * What holds during a run that started from queue `q0`, after executing the
   * operations in `trace`: the bookkeeping is sound, no sentinel appeared, the
   * executions followed queue order, and every operation is on course to the
   * outcome its origin dictates.
   */
  ghost predicate RunInv<T>(q0: seq<Entry>, origin: map<nat, Operation>, device: (nat, nat) -> Outcome<T>, trace: seq<nat>,
                            queue: seq<Entry>, futures: map<nat, FutureState<T>>, nextId: nat) {
    && Sound(queue, futures, nextId)
    && (AllOps(q0) ==> AllOps(queue))
    && Untouched(q0, trace, queue)
    && InOrder(q0, trace)
    && Tracked(origin, futures, device)
    && Follows(queue, origin, device)
  }

  lemma RunInvInit<T>(q0: seq<Entry>, device: (nat, nat) -> Outcome<T>, futures: map<nat, FutureState<T>>, nextId: nat)
    requires Sound(q0, futures, nextId)
    ensures RunInv(q0, OriginOf(q0), device, [], q0, futures, nextId)
  {
    RunInit(q0, futures, nextId, device);
    assert q0[..|q0|] == q0;
  }

  /** Executing the operation at the head of the queue keeps the run's invariant and uses up budget. */
  lemma RunInvStep<T>(q0: seq<Entry>, origin: map<nat, Operation>, device: (nat, nat) -> Outcome<T>, trace: seq<nat>,
                      before: seq<Entry>, f: map<nat, FutureState<T>>, op: Operation,
                      queue: seq<Entry>, futures: map<nat, FutureState<T>>, nextId: nat)
    requires RunInv(q0, origin, device, trace, before, f, nextId)
    requires before != [] && before[0] == Op(op)
    requires Sound(queue, futures, nextId)
    requires var d := Dispose(op, device(op.id, op.retryCount));
      if d.Retry? then queue == before[1..] + [Op(d.next)] && futures == f
      else queue == before[1..] && futures == f[op.id := Settled(d)]
    ensures RunInv(q0, origin, device, trace + [op.id], queue, futures, nextId)
    ensures Budget(queue) < Budget(before)
  {
    var rest := before[1..];
    var next := Op(op.(retryCount := op.retryCount + 1));
    assert before == [Op(op)] + rest;
    RunStep(op, device, rest, queue, f, futures, origin);
    BudgetAppend(rest, next);
    FifoStep(q0, trace, before, op, queue, next);
    if AllOps(q0) {
      forall i | 0 <= i < |queue|
        ensures queue[i].Op?
      {
        if i < |rest| {
          assert queue[i] == before[i + 1];
        }
      }
    }
  }

  // ---------------------------------------------------------------------------
  // The worker

  class CameraWorker<T> {
    var queue: seq<Entry>
    var running: bool
    var futures: map<nat, FutureState<T>>
    var nextId: nat
    /** Identifiers of the operations executed so far, in execution order. */
    ghost var executed: seq<nat>
    /** Total backoff slept so far, in ms. */
    ghost var sleptMs: nat

    ghost predicate Valid()
      reads this
    {
      Sound(queue, futures, nextId)
    }

    constructor ()
      ensures Valid()
      ensures queue == [] && !running && futures == map[] && nextId == 0 && executed == []
    {
      queue := [];
      running := false;
      futures := map[];
      nextId := 0;
      executed := [];
      sleptMs := 0;
    }

    /** `start`: a no-op while running; otherwise marks the worker running (the thread is not modelled). */
    method Start()
      requires Valid()
      modifies this
      ensures Valid() && running
      ensures queue == old(queue) && futures == old(futures) && nextId == old(nextId)
      ensures executed == old(executed)
    {
      if running {
        return;
      }
      running := true;
    }

    /** `stop`: a no-op unless running; otherwise clears the flag and enqueues the sentinel. */
    method Stop()
      requires Valid()
      modifies this
      ensures Valid() && !running
      ensures queue == if old(running) then old(queue) + [Sentinel] else old(queue)
      ensures futures == old(futures) && nextId == old(nextId) && executed == old(executed)
    {
      if !running {
        return;
      }
      SoundSentinel(queue, futures, nextId);
      running := false;
      queue := queue + [Sentinel];
    }

    /** `submit`: enqueues exactly one fresh operation with no retries yet and returns its future's id. */
    method Submit() returns (id: nat)
      requires Valid()
      modifies this
      ensures Valid()
      ensures id == old(nextId) && id !in old(futures) && nextId == id + 1
      ensures queue == old(queue) + [Op(Operation(id, 0, DefaultMaxRetries))]
      ensures futures == old(futures)[id := Pending]
      ensures running == old(running) && executed == old(executed)
    {
      SoundSubmit(queue, futures, nextId);
      id := nextId;
      queue := queue + [Op(Operation(id, 0, DefaultMaxRetries))];
      futures := futures[id := Pending];
      nextId := nextId + 1;
    }

    /**
     * `_execute_operation` on the operation just taken off the queue: success
     * resolves the future, a transient error with retries left re-enqueues the
     * operation at the tail with one more retry after the backoff, and any other
     * error fails the future.
     */
    method ExecuteOperation(op: Operation, outcome: Outcome<T>)
      requires Sound([Op(op)] + queue, futures, nextId)
      modifies this`queue, this`futures, this`executed, this`sleptMs
      ensures Valid()
      ensures var d := Dispose(op, outcome);
        if d.Retry? then
          queue == old(queue) + [Op(d.next)] && futures == old(futures) && sleptMs == old(sleptMs) + d.delayMs
        else
          queue == old(queue) && futures == old(futures)[op.id := Settled(d)] && sleptMs == old(sleptMs)
      ensures executed == old(executed) + [op.id]
    {
      executed := executed + [op.id];
      match outcome {
        case Returned(v) =>
          SoundSettle(op, queue, futures, nextId, Done(v));
          futures := futures[op.id := Done(v)];
        case Raised(m) =>
          var isIoError := IsIoError(m);
          if isIoError && op.retryCount < op.maxRetries {
            var next := op.(retryCount := op.retryCount + 1);
            var delay := RetryDelayMs(next.retryCount);
            SoundRequeue(op, queue, futures, nextId);
            sleptMs := sleptMs + delay;
            queue := queue + [Op(next)];
          } else {
            SoundSettle(op, queue, futures, nextId, Failed(m));
            futures := futures[op.id := Failed(m)];
          }
      }
    }

    /** `queue.get()`: takes the entry at the head of the queue. */
    method Take() returns (e: Entry)
      requires Valid()
      requires queue != []
      modifies this`queue
      ensures e == old(queue)[0] && queue == old(queue)[1..] && [e] + queue == old(queue)
      ensures Sound([e] + queue, futures, nextId)
      ensures e.Sentinel? ==> Valid()
    {
      e := queue[0];
      queue := queue[1..];
      assert [e] + queue == old(queue);
      if e.Sentinel? {
        SoundPop(e, queue, futures, nextId);
      }
    }

    /** One pass of `_run`: takes the head of the queue and, unless it is the sentinel, executes it. */
    method RunOne(device: (nat, nat) -> Outcome<T>, ghost q0: seq<Entry>, ghost origin: map<nat, Operation>, ghost trace: seq<nat>)
      returns (sentinel: bool)
      requires queue != [] && RunInv(q0, origin, device, trace, queue, futures, nextId)
      modifies this`queue, this`futures, this`executed, this`sleptMs
      ensures sentinel <==> old(queue)[0].Sentinel?
      ensures sentinel ==> Valid() && !AllOps(old(queue)) && futures == old(futures) && executed == old(executed)
      ensures !sentinel ==>
        var id := old(queue)[0].op.id;
        && RunInv(q0, origin, device, trace + [id], queue, futures, nextId)
        && executed == old(executed) + [id]
        && Budget(queue) < Budget(old(queue))
    {
      ghost var before := queue;
      ghost var f := futures;
      var e := Take();
      if e.Sentinel? {
        assert !AllOps(before);
        return true;
      }
      ExecuteOperation(e.op, device(e.op.id, e.op.retryCount));
      RunInvStep(q0, origin, device, trace, before, f, e.op, queue, futures, nextId);
      return false;
    }

    /**
     * `_run`, while running: takes entries off the head of the queue and
     * executes them one at a time, until it takes the sentinel or the queue is
     * empty (where the source would wait for more work). The execution of
     * operation `id` with retry count `n` does what `device(id, n)` says.
     */
    method Run(device: (nat, nat) -> Outcome<T>) returns (sawSentinel: bool)
      requires Valid()
      modifies this`queue, this`futures, this`executed, this`sleptMs
      ensures Valid()
      ensures running == old(running) && nextId == old(nextId)
      ensures !old(running) ==> queue == old(queue) && futures == old(futures) && !sawSentinel
      ensures old(running) && !sawSentinel ==> queue == []
      ensures sawSentinel ==> !AllOps(old(queue))
      // Every operation that was waiting ends up pending or settled exactly as its retry policy dictates.
      ensures forall i | 0 <= i < |old(queue)| && old(queue)[i].Op? ::
        var op := old(queue)[i].op;
        op.id in futures && (futures[op.id].Pending? || futures[op.id] == FateOf(op, device).result)
      // With no sentinel queued, every waiting operation is settled.
      ensures old(running) && AllOps(old(queue)) ==> forall id | id in futures :: !futures[id].Pending?
      // Operations are executed in queue order.
      ensures |old(executed)| <= |executed|
      ensures forall i | 0 <= i < |old(queue)| && |old(executed)| + i < |executed| ::
        old(queue)[i].Op? && executed[|old(executed)| + i] == old(queue)[i].op.id
    {
      sawSentinel := false;
      if !running {
        return;
      }
      ghost var q0 := queue;
      ghost var e0 := executed;
      ghost var origin := OriginOf(q0);
      ghost var trace: seq<nat> := [];
      RunInvInit(q0, device, futures, nextId);
      while running && queue != []
        invariant running && nextId == old(nextId)
        invariant executed == e0 + trace
        invariant RunInv(q0, origin, device, trace, queue, futures, nextId)
        decreases Budget(queue)
      {
        ghost var before := queue;
        var sentinel := RunOne(device, q0, origin, trace);
        if sentinel {
          sawSentinel := true;
          break;
        }
        trace := trace + [before[0].op.id];
      }
      RunResult(q0, origin, device, futures);
    }

    /**
     * `get_liveview_frame`: when less than 1/`frameRateCap` s has passed since
     * the last frame, returns `None` without enqueueing anything; otherwise
     * submits one frame fetch and returns its value, or `None` if the future
     * failed or did not settle within the wait (`settled` is what the caller saw).
     * A cap of zero makes the period computation raise before anything happens.
     */
    method GetLiveviewFrame(nowMs: int, lastFrameMs: int, frameRateCap: int, settled: FutureState<T>)
      returns (r: Result<Option<T>>)
      requires Valid()
      modifies this
      ensures Valid()
      ensures frameRateCap == 0 ==> r == Err("float division by zero") && unchanged(this)
      ensures frameRateCap != 0 && Backend.TooSoon(nowMs - lastFrameMs, frameRateCap) ==>
        r == Ok(None) && queue == old(queue) && futures == old(futures) && nextId == old(nextId)
      ensures frameRateCap != 0 && !Backend.TooSoon(nowMs - lastFrameMs, frameRateCap) ==>
        && queue == old(queue) + [Op(Operation(old(nextId), 0, DefaultMaxRetries))]
        && futures == old(futures)[old(nextId) := Pending]
        && nextId == old(nextId) + 1
        && r == Ok(if settled.Done? then Some(settled.value) else None)
      ensures running == old(running) && executed == old(executed)
    {
      if frameRateCap == 0 {
        return Err("float division by zero");
      }
      if Backend.TooSoon(nowMs - lastFrameMs, frameRateCap) {
        return Ok(None);
      }
      var id := Submit();
      r := Ok(if settled.Done? then Some(settled.value) else None);
    }
  }
}

=== FILE: wrappers.dfy ===
/** Optional values and results, used wherever the source returns `None` or raises. */
module Wrappers {

  datatype Option<+T> = None | Some(value: T)

  /** `Err` carries the text of the exception the source raises (`str(e)`). */
  datatype Result<+T> = Ok(value: T) | Err(error: string)

  /** The outcome of a call that returns nothing: it completes or raises with a message. */
  datatype Status = Success | Failure(error: string)
}
